=== FILE: README.md ===
# Order fulfilment core, modelled in Dafny

This project models the route handlers of an e-commerce server that turn a shopper's cart into an
order, and that keep the stock ledger and the address book. It covers four route files:

- orders: order creation, the administrative status update and cancellation;
- inventory: stock classification, the summary, pagination, and record update, create, adjust and delete;
- cart: the summary, count, add (merge-on-add), update, remove and clear;
- users: registration, the profile update and the address book.

The database is one immutable value, `Store.Store`:

- products;
- distribution centres;
- the inventory rows;
- cart lines;
- orders and order items;
- addresses;
- users;
- a counter standing for autoincrement ids.

Every handler is a pure function from a store and a request to a `Reply`. A `Reply` holds the store
after the request and either a result or one `Error` variant per distinct error response. The store
invariant `Store.Valid` covers several rules:

- ids are unique and already issued;
- there is one inventory row per (product, centre) and one cart line per (user, product);
- cart quantities are positive;
- emails are unique;
- each user has at most one default address per type.

Lemmas show which handlers keep it.

Modules:

- `Outcomes`: the `Option` and `Result` types.
- `Tables`: rows as sequences, plus `First`, `Filter`, sums and counts with their algebra, and key uniqueness.
- `Text`: decimal digits, `slice`, `substring`, `toUpperCase` and the validator's `trim()`.
- `Store`: the entities, the errors and the invariant.
- `Ledger`: the stock of a product summed across centres, and the `quantity = quantity ± n WHERE product_id = ?` moves.
- `Pricing`: money in integer cents.
- `OrderNumber`: the order number generator.
- `Cart` and `CartLaws`.
- `Orders` and `OrderLaws`.
- `Inventory` and `InventoryLaws`.
- `Users` and `UserLaws`.

Several behaviours are modelled exactly as the code does them:

- **Stock decrement.** Availability is the stock summed across all centres. Order creation, however, takes each line's full quantity off every inventory row of the product, and cancellation puts it back on every row. Create-then-cancel is an exact per-row round trip. Stock stays non-negative only when a product has a single row; `OrderLaws.MultiRowOversell` shows the two-row case going negative.
- **Status endpoint.** It writes any of the five statuses over any order. The order lifecycle the system describes is pending → processing → shipped → delivered, plus pending → cancelled, with cancelled and delivered terminal. `Orders.SetStatusChecked` is the endpoint with that lifecycle enforced.

Money is integer cents:

- tax is 8% of the subtotal, rounded half up to a cent;
- shipping is 999 cents unless the subtotal is strictly above 5000 cents.

The source computes in JavaScript floating point and formats with `toFixed(2)`, so cents with one rounding per field approximate it. The clock reading, the random string, the password hash and the requesting user's id are all parameters.

## Model

| member | source | states |
|---|---|---|
| Text.Trim | server/routes/users.js:20 | the validator's `trim()` result is a contiguous piece of the input with only blanks cut from either end; it is empty exactly when the input is blank, and otherwise starts and ends with a non-space character |
| Text.TrimIdempotent | server/routes/users.js:20 | trimming an already trimmed value changes nothing |
| Text.DecimalRoundTrip | server/routes/orders.js:13 | `Date.now().toString()` reads back as the clock value |
| Text.Substring | server/routes/orders.js:14 | `substring` between two in-range bounds is the slice between them, in either order |
| Text.Upper | server/routes/orders.js:14 | `toUpperCase` keeps the length, turns each lower-case ASCII letter into its upper-case letter (code − 32) and changes nothing else |
| OrderNumber.TimestampSegment | server/routes/orders.js:13-15 | the timestamp part is at most eight digits, exactly eight for a clock reading of at least 10^7 |
| OrderNumber.TimestampSegmentValue | server/routes/orders.js:13-15 | the eight timestamp digits read back as the clock value modulo 10^8 |
| OrderNumber.RandomSegment | server/routes/orders.js:14 | the random part is characters 2..7 of the base-36 string, upper-cased, at most six long |
| OrderNumber.Generate | server/routes/orders.js:12-16 | every order number has between 5 and 19 characters and splits back into "ORD-", the clock segment, a dash and the random segment |
| OrderNumber.GeneratedShape | server/routes/orders.js:12-16 | for realistic inputs the number is `ORD-`, the last 8 clock digits, `-`, and the upper-cased characters 2..7 of the random text |
| Pricing.Tax | server/routes/orders.js:180 | the tax is 8% of the subtotal to within half a cent |
| Pricing.ShippingFor | server/routes/orders.js:181 | shipping is free exactly when the subtotal is strictly above $50.00, and $9.99 otherwise |
| Pricing.PriceOrder | server/routes/orders.js:179-182 | the subtotal is the sum of quantity × price; the total is subtotal + tax + shipping |
| Pricing.PriceCart | server/routes/cart.js:38-48 | the cart summary's total (108% of the subtotal, rounded once) equals the subtotal plus the rounded tax, with no shipping |
| Pricing.TotalsNonNegative | server/routes/orders.js:179-182 | with non-negative quantities and prices, the subtotal and tax are non-negative and the total is at least the subtotal |
| Pricing.WorkedExample | server/routes/orders.js:179-182 | 2 × $10.00 + 1 × $5.00 gives $2.00 tax, $9.99 shipping and $36.99 in all |
| Ledger.StockOfSingleRow | server/routes/orders.js:152 | with one inventory row per product, the summed stock of a product is that row's quantity |
| Ledger.ApplyMoves | server/routes/orders.js:231-235 | each row keeps its id, product, centre and levels, and its quantity moves by the net delta of its product |
| Ledger.ReleaseUndoesReserve | server/routes/orders.js:327-332 | applying the opposite moves after a list of moves restores every inventory row |
| Ledger.StockAfterMoves | server/routes/orders.js:152-155 | the summed stock of a product moves by its net delta once per inventory row of the product |
| Cart.SnapshotLinesListed | server/routes/cart.js:15-36 | every line the cart query returns is one of the user's cart items whose product exists and is active, joined with its price and summed stock |
| Cart.SnapshotKeepsListed | server/routes/cart.js:15-36 | every cart item of the user whose product exists and is active appears, joined, among the returned lines |
| Cart.SnapshotDistinctProducts | server/routes/cart.js:26-32 | with one line per (user, product), the snapshot names each product at most once |
| Cart.EmptyCartCountsZero | server/routes/cart.js:239-244 | a user without cart lines has a count of 0 |
| Cart.SnapshotCountBelow | server/routes/cart.js:38-40 | the summary's item count over any lines is at most the sum of the user's quantities, with equality when every product is active |
| Cart.CountCoversSummary | server/routes/cart.js:38-40 | the summary's item count is at most the cart count, with equality when every product in the cart is active |
| Cart.Add | server/routes/cart.js:59-139 | each answer is returned exactly when its check is the first to fail: missing product id, quantity below 1, inactive or unknown product (not found), stock below the quantity (naming product, requested and available), and merged units above stock (naming available and current cart units); success means every check passed; a rejection changes nothing |
| Cart.Update | server/routes/cart.js:142-189 | an absent or below-1 quantity is rejected exactly then; not found exactly when the requester has no such line or its product is gone; a stock error, naming the line's product, exactly when the stock is below the quantity; success sets that line's quantity |
| Cart.Remove | server/routes/cart.js:192-218 | it succeeds exactly when the user owns the named line; then that line is gone and every other line stays |
| Cart.Clear | server/routes/cart.js:221-234 | the user's lines are all removed and everyone else's kept |
| CartLaws.AddMerges | server/routes/cart.js:82-126 | add succeeds exactly when the product is active and the stock covers the cart's units plus the new ones; the user's units then grow by exactly the added quantity |
| CartLaws.AddKeepsOtherLines | server/routes/cart.js:95-133 | add touches no line of another product or another user |
| CartLaws.AddPreservesValid | server/routes/cart.js:95-126 | add never creates a second line for the same (user, product) and keeps the invariant |
| CartLaws.UpdateSets | server/routes/cart.js:147-178 | update succeeds exactly on the user's own line with 1 ≤ quantity ≤ stock, and then sets, rather than adds to, the quantity |
| CartLaws.UpdatePreservesValid | server/routes/cart.js:175-178 | update keeps the invariant |
| CartLaws.RemoveDeletesOneLine | server/routes/cart.js:197-210 | a successful remove shrinks the cart by exactly one line and keeps the invariant |
| CartLaws.ClearEmptiesCart | server/routes/cart.js:223-226 | after clearing, the user's cart count is 0 and the invariant holds |
| Orders.ParseStatus | server/routes/orders.js:260-267 | a status text is accepted exactly when it names one of the five statuses |
| Orders.StatusRoundTrip | server/routes/orders.js:260 | every status name parses back to its status |
| Orders.Create | server/routes/orders.js:141-252 | an empty snapshot is rejected exactly when empty; creation succeeds exactly when no line exceeds its summed stock; the insufficient-stock answer comes exactly when a non-empty snapshot has a short line, and it names one such line; a rejection changes nothing |
| Orders.Commit | server/routes/orders.js:211-239 | the writes of a creation leave products, centres, users and addresses unchanged |
| Orders.SetStatus | server/routes/orders.js:255-296 | an unknown status is rejected; for a known status, not found exactly when no order has the id, success exactly when one does, reporting that order's stored status as the old one; only the status column is rewritten |
| Orders.Cancel | server/routes/orders.js:299-349 | not found exactly when the requester owns no order with the id; not cancellable, carrying the current status, exactly when the owned order is not pending; otherwise it is marked cancelled and each row moves by the release of its items |
| Orders.SetStatusChecked | server/routes/orders.js:255-296 | the status endpoint with the lifecycle enforced: not found exactly when no order has the id; success exactly when the move from the stored status is allowed, reporting that status; an illegal transition, naming both statuses, exactly when it is not; only a cancellation moves stock |
| OrderLaws.ReservationTakesOrderedUnits | server/routes/orders.js:222-236 | the reservation takes off each product exactly the units the lines order of it |
| OrderLaws.OrderedUnitsOfDistinctLines | server/routes/orders.js:157 | with one line per product, the ordered units of a product are those of its line, or none |
| OrderLaws.SaveOrderAddressKeepsValid | server/routes/orders.js:187-209 | an address sent with an order is appended under a fresh id, not as a default, and keeps the invariant |
| OrderLaws.WithOrderAddressesFrame | server/routes/orders.js:187-209 | saving the order's addresses touches only the address book and the id counter |
| OrderLaws.WithOrderAddressesKeepsValid | server/routes/orders.js:187-209 | saving the order's addresses keeps the invariant |
| OrderLaws.CreateCommits | server/routes/orders.js:160-239 | a successful creation is exactly the commit of the priced, non-empty, fully stocked snapshot |
| OrderLaws.CreateRecordsOrder | server/routes/orders.js:178-217 | creation appends one pending order of the user under a fresh id, with the snapshot's totals and an "ORD-" number |
| OrderLaws.CommitAppendsItems | server/routes/orders.js:221-229 | committing keeps the existing items and appends item k of the order under id order + 1 + k with the line's product, quantity and price |
| OrderLaws.CreateFreezesPrices | server/routes/orders.js:221-229 | each snapshot line becomes one item carrying the product's price at creation and total = quantity × price |
| OrderLaws.CreateDecrementsStock | server/routes/orders.js:231-235 | every inventory row drops by the units the snapshot orders of its product |
| OrderLaws.CreateEmptiesCart | server/routes/orders.js:238-239 | after creation the user's cart count is 0, and other users' lines remain |
| OrderLaws.CreateKeepsStockNonNegative | server/routes/orders.js:166-176 | with one row per product and no negative stock, creation leaves no negative stock |
| OrderLaws.ItemsOfFreshOrder | server/routes/orders.js:321-324 | the items of a fresh order id are exactly the ones appended under it |
| OrderLaws.ReleaseMatchesReservation | server/routes/orders.js:327-332 | releasing the items made from the lines puts back exactly what their reservation took |
| OrderLaws.CancelUndoesCommit | server/routes/orders.js:304-338 | the owner's cancellation of a freshly committed order restores the inventory exactly |
| OrderLaws.CreateThenCancelRestores | server/routes/orders.js:299-338 | cancelling right after creating restores every inventory row; a second cancel is rejected and releases nothing |
| OrderLaws.CancelPreservesValid | server/routes/orders.js:299-349 | cancellation keeps the invariant |
| OrderLaws.SetStatusPreservesValid | server/routes/orders.js:255-296 | the status endpoint keeps the invariant |
| OrderLaws.SetStatusCheckedPreservesValid | server/routes/orders.js:255-296 | the lifecycle-checked endpoint keeps the invariant |
| OrderLaws.CommitKeepsValid | server/routes/orders.js:211-239 | the writes of a creation keep the invariant |
| OrderLaws.CreatePreservesValid | server/routes/orders.js:141-252 | order creation keeps the invariant |
| OrderLaws.StatusEndpointIgnoresLifecycle | server/routes/orders.js:260-283 | any of the five statuses is written over any existing order without touching the inventory |
| OrderLaws.ReopenedOrderReleasesTwice | server/routes/orders.js:255-296 | an order that is created, cancelled, set back to pending and cancelled again ends with every row above its starting stock by the ordered units |
| OrderLaws.CheckedCancelledIsTerminal | server/routes/orders.js:313-318 | with the lifecycle enforced, a cancelled order can be neither re-statused nor cancelled again |
| OrderLaws.CheckedReopenRejected | server/routes/orders.js:255-296 | with the lifecycle enforced, reopening a freshly cancelled order is rejected and the store keeps the single release |
| OrderLaws.TwoCentreSnapshot | server/routes/orders.js:146-160 | in the two-centre example, the snapshot reports the stock of 3 summed over both centres |
| OrderLaws.MultiRowOversell | server/routes/orders.js:231-235 | with 3 and 0 units at two centres, an order of 3 passes the check and leaves the rows at 0 and -3 |
| Inventory.Classify | server/routes/inventory.js:45-49 | `low` iff quantity ≤ min; otherwise `high` iff quantity ≥ max; otherwise `normal` |
| Inventory.Summarize | server/routes/inventory.js:101-112 | over the active products' rows: the row count, total units, low-stock count (quantity ≤ min), out-of-stock count (quantity = 0) and value at cost, each SUM absent over no rows |
| Inventory.TotalPages | server/routes/inventory.js:77-78 | with a positive limit, the page count is the least n with total ≤ n × limit; a zero limit gives `Infinity` or `NaN` |
| Inventory.Paginate | server/routes/inventory.js:16 | `hasPrev` iff page > 1; with a positive limit, `hasNext` iff rows remain after this page's offset |
| Inventory.NextPageNonEmpty | server/routes/inventory.js:87 | with a positive limit, page < totalPages exactly when the next page's offset is below the total |
| Inventory.UpdateRecord | server/routes/inventory.js:168-237 | each error (unknown id, negative quantity, minimum or maximum, empty update, min > max when both are sent) is returned exactly when every earlier check passes and its own fails; otherwise the fields are written |
| Inventory.CreateRecord | server/routes/inventory.js:240-307 | each error (missing ids, negative levels, min > max, unknown product, unknown centre, existing (product, centre)) is returned exactly when every earlier check passes and its own fails; an existing pair reports the id of the first record at that location; defaults are 0/10/1000 |
| Inventory.Adjust | server/routes/inventory.js:310-362 | a missing or zero adjustment is rejected exactly when it is missing or zero, an unknown record exactly when the adjustment is non-zero and no record joined with its product has the id; a negative result is refused; otherwise quantity = previous + adjustment |
| InventoryLaws.AdjustSucceeds | server/routes/inventory.js:331-356 | a non-zero adjustment of an existing record succeeds exactly when the new quantity is not negative, reporting previous, adjustment and new quantity |
| Inventory.DeleteRecord | server/routes/inventory.js:365-390 | an unknown id is not found; otherwise no row with that id remains and every other row stays |
| InventoryLaws.LowCountMatchesClassification | server/routes/inventory.js:105 | the summary's low-stock count equals the number of active rows the listing classifies as `low` |
| InventoryLaws.OutOfStockWithinLowStock | server/routes/inventory.js:103-106 | with non-negative minimums, out-of-stock ≤ low-stock ≤ number of rows |
| InventoryLaws.PagesThatExist | server/routes/inventory.js:77-88 | with a positive limit, a page holds rows exactly when it is within `totalPages`, and `hasNext` says the next one does |
| InventoryLaws.UpdateWritesSuppliedFields | server/routes/inventory.js:183-225 | update writes exactly the supplied fields of the record and nothing else |
| InventoryLaws.MinimumAlonePassesMaximum | server/routes/inventory.js:214-217 | raising only the minimum above the stored maximum is accepted |
| InventoryLaws.UpdatePreservesValid | server/routes/inventory.js:168-237 | update keeps the invariant |
| InventoryLaws.CreateRecordPreservesValid | server/routes/inventory.js:276-293 | create keeps the invariant, including one row per (product, centre) |
| InventoryLaws.CreateRecordRejectsDuplicate | server/routes/inventory.js:276-287 | a second record for an existing (product, centre) is rejected with the existing id |
| InventoryLaws.AdjustRoundTrip | server/routes/inventory.js:331-346 | adjusting by a and then by -a restores the store exactly when the starting quantity was non-negative |
| InventoryLaws.AdjustPreservesValid | server/routes/inventory.js:342-346 | adjust keeps the invariant |
| InventoryLaws.DeleteRemovesOneRecord | server/routes/inventory.js:370-382 | a successful delete removes exactly one record and keeps the invariant |
| Users.Register | server/routes/users.js:17-77 | invalid input, then a taken email, is rejected; a valid registration with an unused email succeeds; exactly one user is appended: the fresh id, the email as sent, the hash, the trimmed names and the phone |
| Users.UpdateProfile | server/routes/users.js:157-209 | a blank supplied name is rejected, then an empty update; a valid, non-empty update succeeds, and then only the user table changes |
| Users.ParseAddressType | server/routes/users.js:229 | a type is accepted exactly when it is "shipping" or "billing" |
| Users.AddressTypeRoundTrip | server/routes/users.js:273 | every type name parses back to its type |
| Users.ClearDefaults | server/routes/users.js:248-253 | afterwards no address of the user and type except the excluded one is a default, no address becomes a default, ids, owners and types are kept, and at most one default per user and type stays so |
| Users.AddAddress | server/routes/users.js:228-269 | the address is accepted exactly when valid, and is appended with a fresh id and trimmed fields; an absent country becomes "USA" |
| Users.UpdateAddress | server/routes/users.js:272-364 | validation, ownership and the "no fields" guard are rejected in that order; a valid, owned, non-empty update succeeds and changes only the address book |
| Users.UpdateAddressChecked | server/routes/users.js:329-341 | the corrected update gives the same answers: each rejection exactly when its check is the first to fail, success exactly for a valid, owned, non-empty update, changing only the address book |
| Users.DeleteAddress | server/routes/users.js:367-392 | delete succeeds exactly on the user's own address, after which no address with that id remains |
| UserLaws.RegisterPreservesValid | server/routes/users.js:35-52 | registration keeps ids and emails unique |
| UserLaws.SecondRegistrationRejected | server/routes/users.js:35-43 | a second registration with the same email is rejected and changes nothing |
| UserLaws.ProfileUpdateWritesRequester | server/routes/users.js:171-198 | only the requester's row gets the trimmed supplied fields; its id, email and hash stay, and so does every other user |
| UserLaws.ProfileUpdatePreservesValid | server/routes/users.js:195-198 | a profile update keeps the invariant |
| UserLaws.AddAddressPreservesValid | server/routes/users.js:247-258 | adding an address keeps the invariant, including a single default per user and type |
| UserLaws.AddedDefaultIsOnlyDefault | server/routes/users.js:247-258 | a new default is the user's only default of its type; other users' and types' addresses are untouched |
| UserLaws.AddedNonDefaultKeepsOthers | server/routes/users.js:247-258 | a new non-default address leaves every existing address as it was |
| UserLaws.UpdateAddressWrites | server/routes/users.js:302-353 | the owned address gets the supplied fields; others change at most by losing the default flag in its user and new type |
| UserLaws.SentDefaultIsOnlyDefault | server/routes/users.js:329-340 | sending `is_default: true` makes the address its user's only default of its type |
| UserLaws.UpdateAddressPreservesValid | server/routes/users.js:302-353 | the update as written keeps the invariant unless it moves a default address to another type without sending `is_default` |
| UserLaws.RetypedDefaultDuplicates | server/routes/users.js:305-308 | changing only the type of a default address can leave a user with two defaults of one type |
| UserLaws.UpdateAddressCheckedPreservesValid | server/routes/users.js:329-341 | the corrected update keeps the invariant for every change |
| UserLaws.CheckedRetypeKeepsOneDefault | server/routes/users.js:329-341 | on that counterexample, the corrected update clears the other default |
| UserLaws.CheckedAgreesOtherwise | server/routes/users.js:272-364 | away from that case, the corrected update behaves exactly like the one as written |
| UserLaws.DeleteAddressRemovesOne | server/routes/users.js:372-383 | delete removes exactly the named address, keeps every other one and keeps the invariant |

## Left out

- Login, bcrypt hashing and JWT signing (server/routes/users.js:46-134) are foreign cryptographic libraries. The hash is a parameter of `Users.Register`.
- The email, phone and `normalizeEmail` validators are not modelled. A registration's email is compared as given.
- Text.Trim strips only ASCII whitespace; JavaScript's `trim()` also strips Unicode spaces.
- The read-only endpoints are not modelled: order listing and detail, the profile and address reads, and the inventory listing query itself. The same goes for the summary's `avg_stock_level` and its top-products and alert queries. Only the listing's classification and pagination arithmetic are modelled.
- Money is integer cents. Pricing.PriceOrder rounds tax and total to cents once each, which approximates the floating-point arithmetic and `toFixed(2)` of the source.
- Request fields are typed. JavaScript's loose comparisons of strings or `null` with numbers, and truthiness of non-boolean `is_default` values, are not modelled. An absent optional field is `None`, and 0 stands for a falsy id.
- Inventory.Paginate takes page and limit as integers. Non-numeric query strings, which give `NaN` in the source, are not modelled.
- Each handler is one atomic step. Concurrency, check-then-act races and storage failures halfway through a handler are not modelled.
- The database schema file is not part of this model. Addresses inserted by order creation are taken as not default, and ids are one shared counter.
- Catalogue browsing (server/routes/products.js), the client, server setup and seed scripts are outside the modelled core.
- OrderLaws.CreateKeepsStockNonNegative: proved only when every product has a single inventory row. With several rows the code can oversell, as `OrderLaws.MultiRowOversell` shows.
- UserLaws.UpdateAddressPreservesValid: proved only for changes that do not retype a default address, since the code as written breaks the invariant there (see Findings).

## Findings

| source | as written | input that shows it | evidently intended | confidence | as-written member | corrected member |
|---|---|---|---|---|---|---|
| server/routes/orders.js:255-296 | the status endpoint writes any status over any order, including `pending` over a cancelled order | create an order, cancel it, set its status to "pending", cancel again: the stock is released twice | cancelled is terminal, so stock is released at most once per order | medium, not executed | OrderLaws.ReopenedOrderReleasesTwice | OrderLaws.CheckedReopenRejected |
| server/routes/users.js:305-341 | defaults are cleared only when `is_default` is sent as true | a user with a default shipping and a default billing address changes only the shipping one's type to "billing" | at most one default address per user and type | high, not executed | UserLaws.RetypedDefaultDuplicates | UserLaws.UpdateAddressCheckedPreservesValid |

=== FILE: cart.dfy ===
/** The shopping cart: the cart snapshot read by the cart page and by order creation, the
    summary and count, and the add (merge-on-add), update, remove and clear handlers. */
module Cart {
  import opened Outcomes
  import opened Tables
  import opened Store
  import opened Ledger
  import opened Pricing

  /** The line is the user's and its product exists and is active. */
  predicate Listed(s: Store, user: Id, c: CartItem) {
    c.userId == user && ActiveProduct(s.products, c.productId)
  }

  /** A cart item joined with its product's price and its summed stock. */
  function LineOf(s: Store, c: CartItem): CartLine
    requires ActiveProduct(s.products, c.productId)
  {
    CartLine(c.id, c.productId, c.quantity, s.products[c.productId].priceCents, StockOf(s.inventory, c.productId))
  }

  /** The lines of `items` that the cart query returns for `user`, in cart order. */
  function SnapshotOf(s: Store, user: Id, items: seq<CartItem>): (lines: seq<CartLine>)
    ensures |lines| <= |items|
    decreases |items|
  {
    if |items| == 0 then []
    else if Listed(s, user, items[0]) then [LineOf(s, items[0])] + SnapshotOf(s, user, items[1..])
    else SnapshotOf(s, user, items[1..])
  }

  /** `line` is the join of one of the user's listed items. */
  ghost predicate JoinedFrom(s: Store, user: Id, items: seq<CartItem>, line: CartLine) {
    exists i :: 0 <= i < |items| && Listed(s, user, items[i]) && line == LineOf(s, items[i])
  }

  /** Every snapshot line is the join of one of the user's listed cart items. */
  lemma {:induction false} SnapshotLinesListed(s: Store, user: Id, items: seq<CartItem>)
    ensures forall k :: 0 <= k < |SnapshotOf(s, user, items)| ==> JoinedFrom(s, user, items, SnapshotOf(s, user, items)[k])
    decreases |items|
  {
    if |items| > 0 {
      var rest := items[1..];
      var tail := SnapshotOf(s, user, rest);
      var lines := SnapshotOf(s, user, items);
      SnapshotLinesListed(s, user, rest);
      var skip := if Listed(s, user, items[0]) then 1 else 0;
      assert lines == (if skip == 1 then [LineOf(s, items[0])] else []) + tail;
      forall k | 0 <= k < |lines| ensures JoinedFrom(s, user, items, lines[k]) {
        if k < skip {
          assert Listed(s, user, items[0]) && lines[k] == LineOf(s, items[0]);
        } else {
          assert lines[k] == tail[k - skip];
          assert JoinedFrom(s, user, rest, tail[k - skip]);
          var j :| 0 <= j < |rest| && Listed(s, user, rest[j]) && tail[k - skip] == LineOf(s, rest[j]);
          assert rest[j] == items[j + 1];
        }
      }
    }
  }

  /** Every listed cart item of the user appears, joined, in the snapshot. */
  lemma {:induction false} SnapshotKeepsListed(s: Store, user: Id, items: seq<CartItem>)
    ensures forall i :: 0 <= i < |items| && Listed(s, user, items[i]) ==> LineOf(s, items[i]) in SnapshotOf(s, user, items)
    decreases |items|
  {
    if |items| > 0 {
      var rest := items[1..];
      var tail := SnapshotOf(s, user, rest);
      var lines := SnapshotOf(s, user, items);
      SnapshotKeepsListed(s, user, rest);
      forall i | 0 <= i < |items| && Listed(s, user, items[i]) ensures LineOf(s, items[i]) in lines {
        if i == 0 {
          assert lines[0] == LineOf(s, items[0]);
        } else {
          assert items[i] == rest[i - 1];
          assert LineOf(s, rest[i - 1]) in tail;
          var w :| 0 <= w < |tail| && tail[w] == LineOf(s, rest[i - 1]);
          if Listed(s, user, items[0]) {
            assert lines[w + 1] == tail[w];
          } else {
            assert lines == tail;
          }
        }
      }
    }
  }

  /** The user's cart lines whose product exists and is active, each with the product's
      current retail price and its stock summed across distribution centres. */
  function Snapshot(s: Store, user: Id): seq<CartLine> {
    SnapshotOf(s, user, s.cart)
  }

  function LineProductOf(l: CartLine): Id { l.productId }

  /** Since a user has at most one cart line per product, the snapshot names each product once. */
  lemma {:induction false} SnapshotDistinctProducts(s: Store, user: Id, items: seq<CartItem>)
    requires UniqueBy(items, CartKeyOf)
    ensures UniqueBy(SnapshotOf(s, user, items), LineProductOf)
    decreases |items|
  {
    if |items| > 0 {
      var rest := items[1..];
      assert UniqueBy(rest, CartKeyOf) by {
        forall i, j | 0 <= i < |rest| && 0 <= j < |rest| && i != j
          ensures CartKeyOf(rest[i]) != CartKeyOf(rest[j])
        {
          assert rest[i] == items[i + 1] && rest[j] == items[j + 1];
        }
      }
      SnapshotDistinctProducts(s, user, rest);
      SnapshotLinesListed(s, user, rest);
      var tail := SnapshotOf(s, user, rest);
      if Listed(s, user, items[0]) {
        var lines := [LineOf(s, items[0])] + tail;
        forall k | 0 <= k < |tail| ensures tail[k].productId != items[0].productId {
          assert JoinedFrom(s, user, rest, tail[k]);
          var j :| 0 <= j < |rest| && Listed(s, user, rest[j]) && tail[k] == LineOf(s, rest[j]);
          assert items[j + 1] == rest[j];
          assert CartKeyOf(items[j + 1]) != CartKeyOf(items[0]);
        }
        forall a, b | 0 <= a < |lines| && 0 <= b < |lines| && a != b
          ensures LineProductOf(lines[a]) != LineProductOf(lines[b])
        {
          if a > 0 && b > 0 {
            assert lines[a] == tail[a - 1] && lines[b] == tail[b - 1];
          } else if a == 0 {
            assert lines[b] == tail[b - 1];
          } else {
            assert lines[a] == tail[a - 1];
          }
        }
      }
    }
  }

  /** `GET /cart` summary: item count, subtotal, 8% tax and total over the snapshot. */
  function Summary(s: Store, user: Id): CartTotals {
    PriceCart(Snapshot(s, user))
  }

  function OwnedBy(user: Id): CartItem -> bool {
    (c: CartItem) => c.userId == user
  }

  function CartQuantity(c: CartItem): int { c.quantity }

  /** `GET /cart/count`: the quantities of all the user's lines, whatever their product. */
  function Count(s: Store, user: Id): int {
    SumWhere(s.cart, OwnedBy(user), CartQuantity)
  }

  /** A user with no cart lines has a count of 0. */
  lemma EmptyCartCountsZero(s: Store, user: Id)
    requires forall i :: 0 <= i < |s.cart| ==> s.cart[i].userId != user
    ensures Count(s, user) == 0
  {
    SumWhereNone(s.cart, OwnedBy(user), CartQuantity);
  }

  lemma {:induction false} SnapshotCountBelow(s: Store, user: Id, items: seq<CartItem>)
    requires CartQuantitiesPositive(items)
    ensures ItemCount(SnapshotOf(s, user, items)) <= SumWhere(items, OwnedBy(user), CartQuantity)
    ensures (forall i :: 0 <= i < |items| && items[i].userId == user ==> ActiveProduct(s.products, items[i].productId))
      ==> ItemCount(SnapshotOf(s, user, items)) == SumWhere(items, OwnedBy(user), CartQuantity)
    decreases |items|
  {
    if |items| > 0 {
      var head := if Listed(s, user, items[0]) then [LineOf(s, items[0])] else [];
      assert CartQuantitiesPositive(items[1..]) by {
        forall i | 0 <= i < |items[1..]| ensures items[1..][i].quantity >= 1 {
          assert items[1..][i] == items[i + 1];
        }
      }
      SnapshotCountBelow(s, user, items[1..]);
      SumWhereAppend(head, SnapshotOf(s, user, items[1..]), AnyLine, LineQuantity);
      if (forall i :: 0 <= i < |items| && items[i].userId == user ==> ActiveProduct(s.products, items[i].productId)) {
        assert forall i :: 0 <= i < |items[1..]| && items[1..][i].userId == user ==> ActiveProduct(s.products, items[1..][i].productId) by {
          forall i | 0 <= i < |items[1..]| ensures items[1..][i] == items[i + 1] { }
        }
      }
    }
  }

  /** The summary's item count never exceeds the cart count, and the two agree when every
      product in the user's cart is active: the count also counts inactive products' lines. */
  lemma CountCoversSummary(s: Store, user: Id)
    requires Valid(s)
    ensures Summary(s, user).itemCount <= Count(s, user)
    ensures (forall i :: 0 <= i < |s.cart| && s.cart[i].userId == user ==> ActiveProduct(s.products, s.cart[i].productId))
      ==> Summary(s, user).itemCount == Count(s, user)
  {
    SnapshotCountBelow(s, user, s.cart);
  }

  function LineFor(user: Id, p: Id): CartItem -> bool {
    (c: CartItem) => c.userId == user && c.productId == p
  }

  /** Units of product `p` in the user's cart. */
  function QuantityInCart(cart: seq<CartItem>, user: Id, p: Id): int {
    SumWhere(cart, LineFor(user, p), CartQuantity)
  }

  function HasId(id: Id): CartItem -> bool {
    (c: CartItem) => c.id == id
  }

  function NotId(id: Id): CartItem -> bool {
    (c: CartItem) => c.id != id
  }

  function OwnedWithId(user: Id, id: Id): CartItem -> bool {
    (c: CartItem) => c.id == id && c.userId == user
  }

  /** `UPDATE cart_items SET quantity = q WHERE cart_item_id = id`. */
  function SetQuantity(cart: seq<CartItem>, id: Id, q: int): (r: seq<CartItem>)
    ensures |r| == |cart|
    ensures forall i :: 0 <= i < |cart| ==> r[i] == if cart[i].id == id then cart[i].(quantity := q) else cart[i]
  {
    seq(|cart|, i requires 0 <= i < |cart| => if cart[i].id == id then cart[i].(quantity := q) else cart[i])
  }

  /** The checks `POST /cart/add` makes before looking at the user's cart: a product id, at least
      one unit, an active product, and enough stock for the units requested. */
  predicate AddChecksPass(s: Store, productId: Id, q: int) {
    productId != 0 && q >= 1 && ActiveProduct(s.products, productId) && StockOf(s.inventory, productId) >= q
  }

  /** The cart line touched by a successful request and its quantity afterwards. */
  datatype CartChange = CartChange(cartItemId: Id, quantity: int)

  /** `POST /cart/add`. The quantity defaults to 1. A product already in the user's cart has
      the new units merged into its line, and the merged quantity must still fit the stock. */
  function Add(s: Store, user: Id, productId: Id, quantity: Option<int>): (r: Reply<CartChange>)
    ensures r.outcome.Err? ==> r.store == s
    ensures productId == 0 ==> r.outcome == Err(MissingProductId)
    ensures productId != 0 && quantity.GetOr(1) < 1 ==> r.outcome == Err(QuantityBelowOne)
    ensures r.outcome == Err(MissingProductId) <==> productId == 0
    ensures r.outcome == Err(QuantityBelowOne) <==> productId != 0 && quantity.GetOr(1) < 1
    ensures r.outcome == Err(ProductNotFound) <==>
      productId != 0 && quantity.GetOr(1) >= 1 && !ActiveProduct(s.products, productId)
    ensures r.outcome == Err(InsufficientStock(productId, quantity.GetOr(1), StockOf(s.inventory, productId))) <==>
      productId != 0 && quantity.GetOr(1) >= 1 && ActiveProduct(s.products, productId)
      && StockOf(s.inventory, productId) < quantity.GetOr(1)
    ensures r.outcome.Err? && r.outcome.error.MergeExceedsStock? <==>
      AddChecksPass(s, productId, quantity.GetOr(1))
      && exists k :: FirstAt(s.cart, LineFor(user, productId), k)
           && StockOf(s.inventory, productId) < s.cart[k].quantity + quantity.GetOr(1)
    ensures forall k :: FirstAt(s.cart, LineFor(user, productId), k) && r.outcome.Err? && r.outcome.error.MergeExceedsStock? ==>
      r.outcome.error == MergeExceedsStock(StockOf(s.inventory, productId), s.cart[k].quantity)
    ensures r.outcome.Ok? ==>
      && ActiveProduct(s.products, productId)
      && 1 <= quantity.GetOr(1) && r.outcome.value.quantity <= StockOf(s.inventory, productId)
      && r.store == s.(cart := r.store.cart, nextId := r.store.nextId)
  {
    FirstIsFirstAt(s.cart, LineFor(user, productId));
    var q := quantity.GetOr(1);
    if productId == 0 then Reply(s, Err(MissingProductId))
    else if q < 1 then Reply(s, Err(QuantityBelowOne))
    else if !ActiveProduct(s.products, productId) then Reply(s, Err(ProductNotFound))
    else
      var available := StockOf(s.inventory, productId);
      if available < q then Reply(s, Err(InsufficientStock(productId, q, available)))
      else match First(s.cart, LineFor(user, productId))
        case Some(k) =>
          var merged := s.cart[k].quantity + q;
          if available < merged then Reply(s, Err(MergeExceedsStock(available, s.cart[k].quantity)))
          else
            Reply(s.(cart := SetQuantity(s.cart, s.cart[k].id, merged)), Ok(CartChange(s.cart[k].id, merged)))
        case None =>
          Reply(s.(cart := s.cart + [CartItem(s.nextId, user, productId, q)], nextId := s.nextId + 1),
                Ok(CartChange(s.nextId, q)))
  }

  /** `PUT /cart/update/:id`: sets (does not add to) the quantity of one of the user's lines. */
  function Update(s: Store, user: Id, cartItemId: Id, quantity: Option<int>): (r: Reply<CartChange>)
    ensures r.outcome.Err? ==> r.store == s
    ensures quantity.GetOr(0) < 1 ==> r.outcome == Err(QuantityBelowOne)
    ensures r.outcome == Err(QuantityBelowOne) <==> quantity.GetOr(0) < 1
    ensures r.outcome == Err(CartItemNotFound) <==>
      quantity.GetOr(0) >= 1
      && !exists k :: FirstAt(s.cart, OwnedWithId(user, cartItemId), k) && s.cart[k].productId in s.products
    ensures r.outcome.Err? && r.outcome.error.InsufficientStock? <==>
      quantity.GetOr(0) >= 1
      && exists k :: FirstAt(s.cart, OwnedWithId(user, cartItemId), k) && s.cart[k].productId in s.products
           && StockOf(s.inventory, s.cart[k].productId) < quantity.value
    ensures forall k :: FirstAt(s.cart, OwnedWithId(user, cartItemId), k) && r.outcome.Err? && r.outcome.error.InsufficientStock? ==>
      r.outcome.error == InsufficientStock(s.cart[k].productId, quantity.value, StockOf(s.inventory, s.cart[k].productId))
    ensures r.outcome.Ok? ==> r.outcome.value == CartChange(cartItemId, quantity.value)
    ensures r.outcome.Ok? ==>
      exists k :: 0 <= k < |s.cart| && s.cart[k].id == cartItemId && s.cart[k].userId == user
        && quantity.value <= StockOf(s.inventory, s.cart[k].productId)
    ensures r.outcome.Ok? ==> r.store == s.(cart := SetQuantity(s.cart, cartItemId, quantity.value))
  {
    FirstIsFirstAt(s.cart, OwnedWithId(user, cartItemId));
    if quantity.None? || quantity.value < 1 then Reply(s, Err(QuantityBelowOne))
    else match First(s.cart, OwnedWithId(user, cartItemId))
      case None => Reply(s, Err(CartItemNotFound))
      case Some(k) =>
        if s.cart[k].productId !in s.products then Reply(s, Err(CartItemNotFound))
        else
          var available := StockOf(s.inventory, s.cart[k].productId);
          if available < quantity.value then
            Reply(s, Err(InsufficientStock(s.cart[k].productId, quantity.value, available)))
          else
            Reply(s.(cart := SetQuantity(s.cart, cartItemId, quantity.value)), Ok(CartChange(cartItemId, quantity.value)))
  }

  /** `DELETE /cart/remove/:id`: removes one of the user's lines; another user's line is
      reported as not found. */
  function Remove(s: Store, user: Id, cartItemId: Id): (r: Reply<Id>)
    ensures r.outcome.Err? ==> r.store == s && r.outcome.error == CartItemNotFound
    ensures r.outcome.Ok? <==> exists k :: 0 <= k < |s.cart| && s.cart[k].id == cartItemId && s.cart[k].userId == user
    ensures r.outcome.Ok? ==> r.store == s.(cart := r.store.cart)
    ensures forall i :: 0 <= i < |r.store.cart| ==> r.store.cart[i] in s.cart
    ensures r.outcome.Ok? ==> forall i :: 0 <= i < |r.store.cart| ==> r.store.cart[i].id != cartItemId
    ensures forall i :: 0 <= i < |s.cart| && s.cart[i].id != cartItemId ==> s.cart[i] in r.store.cart
  {
    match First(s.cart, OwnedWithId(user, cartItemId))
    case None => Reply(s, Err(CartItemNotFound))
    case Some(_) => Reply(s.(cart := Filter(s.cart, NotId(cartItemId))), Ok(cartItemId))
  }

  /** `DELETE /cart/clear`: removes every line of the user and no line of anyone else. */
  function Clear(s: Store, user: Id): (r: Reply<Id>)
    ensures r.outcome.Ok? && r.store == s.(cart := r.store.cart)
    ensures forall i :: 0 <= i < |r.store.cart| ==> r.store.cart[i].userId != user && r.store.cart[i] in s.cart
    ensures forall i :: 0 <= i < |s.cart| && s.cart[i].userId != user ==> s.cart[i] in r.store.cart
  {
    Reply(s.(cart := Filter(s.cart, NotOwnedBy(user))), Ok(user))
  }

  function NotOwnedBy(user: Id): CartItem -> bool {
    (c: CartItem) => c.userId != user
  }
}

=== FILE: cart_laws.dfy ===
/** What the cart handlers guarantee on a store that satisfies the invariant: merge-on-add,
    set-on-update, and that no handler breaks the one-line-per-product rule. */
module CartLaws {
  import opened Outcomes
  import opened Tables
  import opened Store
  import opened Ledger
  import opened Cart

  /** With one line per (user, product), the units of a product in the cart are those of its
      single line. */
  lemma QuantityOfLine(cart: seq<CartItem>, user: Id, p: Id, k: nat)
    requires UniqueBy(cart, CartKeyOf) && k < |cart|
    requires cart[k].userId == user && cart[k].productId == p
    ensures QuantityInCart(cart, user, p) == cart[k].quantity
  {
    forall j | 0 <= j < |cart| && j != k ensures !LineFor(user, p)(cart[j]) {
      assert CartKeyOf(cart[j]) != CartKeyOf(cart[k]);
    }
    SumWhereOnly(cart, LineFor(user, p), CartQuantity, k);
  }

  lemma QuantityOfNoLine(cart: seq<CartItem>, user: Id, p: Id)
    requires forall j :: 0 <= j < |cart| ==> !LineFor(user, p)(cart[j])
    ensures QuantityInCart(cart, user, p) == 0
  {
    SumWhereNone(cart, LineFor(user, p), CartQuantity);
  }

  /** Adding is accepted exactly when the product id is present, the quantity is at least one,
      the product is active and its summed stock covers what is already in the cart plus the
      new units; the user's units of that product then grow by exactly the added quantity. */
  lemma AddMerges(s: Store, user: Id, p: Id, quantity: Option<int>)
    requires Valid(s)
    ensures var r := Add(s, user, p, quantity);
      var q := quantity.GetOr(1);
      && (r.outcome.Ok? <==>
          p != 0 && q >= 1 && ActiveProduct(s.products, p)
          && StockOf(s.inventory, p) >= QuantityInCart(s.cart, user, p) + q)
      && (r.outcome.Ok? ==> QuantityInCart(r.store.cart, user, p) == QuantityInCart(s.cart, user, p) + q)
  {
    var r := Add(s, user, p, quantity);
    var q := quantity.GetOr(1);
    if p != 0 && q >= 1 && ActiveProduct(s.products, p) {
      match First(s.cart, LineFor(user, p))
      case Some(k) =>
        QuantityOfLine(s.cart, user, p, k);
        if r.outcome.Ok? {
          var c := r.store.cart;
          assert forall j :: 0 <= j < |c| && j != k ==> c[j] == s.cart[j] by {
            forall j | 0 <= j < |c| && j != k ensures c[j] == s.cart[j] {
              assert CartItemIdOf(s.cart[j]) != CartItemIdOf(s.cart[k]);
            }
          }
          UniqueSameKeys(s.cart, c, CartKeyOf);
          QuantityOfLine(c, user, p, k);
        }
      case None =>
        QuantityOfNoLine(s.cart, user, p);
        var added := CartItem(s.nextId, user, p, q);
        SumWhereAppend(s.cart, [added], LineFor(user, p), CartQuantity);
    }
  }

  /** Every other line is untouched by an add. */
  lemma AddKeepsOtherLines(s: Store, user: Id, p: Id, quantity: Option<int>)
    requires Valid(s)
    ensures var r := Add(s, user, p, quantity);
      forall i :: 0 <= i < |s.cart| && (s.cart[i].userId != user || s.cart[i].productId != p) ==>
        s.cart[i] in r.store.cart
  {
    var r := Add(s, user, p, quantity);
    if r.outcome.Ok? {
      match First(s.cart, LineFor(user, p))
      case Some(k) =>
        forall i | 0 <= i < |s.cart| && (s.cart[i].userId != user || s.cart[i].productId != p)
          ensures s.cart[i] in r.store.cart
        {
          assert CartItemIdOf(s.cart[i]) != CartItemIdOf(s.cart[k]);
          assert r.store.cart[i] == s.cart[i];
        }
      case None =>
        forall i | 0 <= i < |s.cart| ensures s.cart[i] in r.store.cart {
          assert r.store.cart[i] == s.cart[i];
        }
    }
  }

  /** Adding never creates a second line for the same (user, product), and keeps the rest of
      the invariant. */
  lemma AddPreservesValid(s: Store, user: Id, p: Id, quantity: Option<int>)
    requires Valid(s)
    ensures Valid(Add(s, user, p, quantity).store)
  {
    var r := Add(s, user, p, quantity);
    if r.outcome.Ok? {
      var q := quantity.GetOr(1);
      match First(s.cart, LineFor(user, p))
      case Some(k) =>
        UniqueSameKeys(s.cart, r.store.cart, CartKeyOf);
        UniqueSameKeys(s.cart, r.store.cart, CartItemIdOf);
      case None =>
        var added := CartItem(s.nextId, user, p, q);
        RaiseNextId(s, s.nextId + 1);
        forall j | 0 <= j < |s.cart| ensures CartKeyOf(s.cart[j]) != CartKeyOf(added) {
          assert !LineFor(user, p)(s.cart[j]);
        }
        UniqueAppend(s.cart, added, CartKeyOf);
        UniqueAppend(s.cart, added, CartItemIdOf);
    }
  }

  /** An update sets the line's quantity to the requested value (it does not add), provided
      the value is at least one, the line is the user's and the summed stock covers it. */
  lemma UpdateSets(s: Store, user: Id, id: Id, quantity: Option<int>, k: nat)
    requires Valid(s) && k < |s.cart| && s.cart[k].id == id
    ensures var r := Update(s, user, id, quantity);
      && (r.outcome.Ok? <==>
          quantity.Some? && quantity.value >= 1 && s.cart[k].userId == user
          && s.cart[k].productId in s.products
          && quantity.value <= StockOf(s.inventory, s.cart[k].productId))
      && (r.outcome.Ok? ==>
          QuantityInCart(r.store.cart, user, s.cart[k].productId) == quantity.value
          && forall j :: 0 <= j < |s.cart| && j != k ==> r.store.cart[j] == s.cart[j])
  {
    var r := Update(s, user, id, quantity);
    forall j | 0 <= j < |s.cart| && j != k ensures s.cart[j].id != id {
      assert CartItemIdOf(s.cart[j]) != CartItemIdOf(s.cart[k]);
    }
    if r.outcome.Ok? {
      UniqueSameKeys(s.cart, r.store.cart, CartKeyOf);
      QuantityOfLine(r.store.cart, user, s.cart[k].productId, k);
    }
  }

  lemma UpdatePreservesValid(s: Store, user: Id, id: Id, quantity: Option<int>)
    requires Valid(s)
    ensures Valid(Update(s, user, id, quantity).store)
  {
    var r := Update(s, user, id, quantity);
    if r.outcome.Ok? {
      UniqueSameKeys(s.cart, r.store.cart, CartKeyOf);
      UniqueSameKeys(s.cart, r.store.cart, CartItemIdOf);
    }
  }

  /** Removing deletes exactly the named line: the cart shrinks by one and nothing else goes. */
  lemma RemoveDeletesOneLine(s: Store, user: Id, id: Id)
    requires Valid(s)
    ensures var r := Remove(s, user, id);
      && Valid(r.store)
      && (r.outcome.Ok? ==> |r.store.cart| == |s.cart| - 1)
  {
    var r := Remove(s, user, id);
    FilterUnique(s.cart, NotId(id), CartKeyOf);
    FilterUnique(s.cart, NotId(id), CartItemIdOf);
    AllBelowFilter(s.cart, NotId(id), CartItemIdOf, s.nextId);
    if r.outcome.Ok? {
      var k :| 0 <= k < |s.cart| && s.cart[k].id == id && s.cart[k].userId == user;
      forall j | 0 <= j < |s.cart| && j != k ensures s.cart[j].id != id {
        assert CartItemIdOf(s.cart[j]) != CartItemIdOf(s.cart[k]);
      }
      FilterDropsOne(s.cart, NotId(id), k);
    }
  }

  /** After clearing, the user's count is zero and the invariant still holds. */
  lemma ClearEmptiesCart(s: Store, user: Id)
    requires Valid(s)
    ensures Valid(Clear(s, user).store) && Count(Clear(s, user).store, user) == 0
  {
    FilterUnique(s.cart, NotOwnedBy(user), CartKeyOf);
    FilterUnique(s.cart, NotOwnedBy(user), CartItemIdOf);
    AllBelowFilter(s.cart, NotOwnedBy(user), CartItemIdOf, s.nextId);
    EmptyCartCountsZero(Clear(s, user).store, user);
  }
}

=== FILE: inventory.dfy ===
/** The inventory routes: the stock-status classification, the summary over active products,
    the pagination arithmetic of the listing, and the update, create, adjust and delete
    handlers for inventory records. */
module Inventory {
  import opened Outcomes
  import opened Tables
  import opened Store
  import opened Ledger

  datatype StockStatus = Low | Normal | High

  /** The listing's `CASE`: `low` at or below the minimum (even when also at or above the
      maximum), else `high` at or above the maximum, else `normal`. */
  function Classify(quantity: int, minLevel: int, maxLevel: int): (r: StockStatus)
    ensures r == Low <==> quantity <= minLevel
    ensures r == High <==> minLevel < quantity && maxLevel <= quantity
    ensures r == Normal <==> minLevel < quantity < maxLevel
  {
    if quantity <= minLevel then Low
    else if quantity >= maxLevel then High
    else Normal
  }

  // ---------------------------------------------------------------- summary

  /** The rows the summary reads: `JOIN products ... WHERE p.is_active = 1`. */
  function OfActiveProduct(products: map<Id, Product>): InventoryRecord -> bool {
    (r: InventoryRecord) => ActiveProduct(products, r.productId)
  }

  function LowOfActive(products: map<Id, Product>): InventoryRecord -> bool {
    (r: InventoryRecord) => ActiveProduct(products, r.productId) && r.quantity <= r.minLevel
  }

  function EmptyOfActive(products: map<Id, Product>): InventoryRecord -> bool {
    (r: InventoryRecord) => ActiveProduct(products, r.productId) && r.quantity == 0
  }

  /** `i.quantity * p.cost`, in cents. */
  function ValueAtCost(products: map<Id, Product>): InventoryRecord -> int {
    (r: InventoryRecord) => if r.productId in products then r.quantity * products[r.productId].costCents else 0
  }

  /** The summary row. `COUNT(*)` is 0 over no rows, but every `SUM` is then NULL (`None`). */
  datatype InventorySummary = InventorySummary(
    records: nat, totalItems: Option<int>, lowStock: Option<int>, outOfStock: Option<int>,
    totalValueCents: Option<int>)

  /** Absent over no rows, as SQL's `SUM`. */
  function SqlSum(rows: nat, sum: int): Option<int> {
    if rows == 0 then None else Some(sum)
  }

  /** `GET /inventory/summary`, one pass over the inventory table. */
  method Summarize(products: map<Id, Product>, inventory: seq<InventoryRecord>) returns (r: InventorySummary)
    ensures r.records == CountWhere(inventory, OfActiveProduct(products))
    ensures r.totalItems == SqlSum(r.records, SumWhere(inventory, OfActiveProduct(products), Quantity))
    ensures r.lowStock == SqlSum(r.records, CountWhere(inventory, LowOfActive(products)))
    ensures r.outOfStock == SqlSum(r.records, CountWhere(inventory, EmptyOfActive(products)))
    ensures r.totalValueCents == SqlSum(r.records, SumWhere(inventory, OfActiveProduct(products), ValueAtCost(products)))
  {
    var records, items, low, empty, value := 0, 0, 0, 0, 0;
    var i := 0;
    while i < |inventory|
      invariant i <= |inventory|
      invariant records == CountWhere(inventory[..i], OfActiveProduct(products))
      invariant items == SumWhere(inventory[..i], OfActiveProduct(products), Quantity)
      invariant low == CountWhere(inventory[..i], LowOfActive(products))
      invariant empty == CountWhere(inventory[..i], EmptyOfActive(products))
      invariant value == SumWhere(inventory[..i], OfActiveProduct(products), ValueAtCost(products))
    {
      var row := inventory[i];
      assert inventory[..i + 1] == inventory[..i] + [row];
      CountWhereAppend(inventory[..i], [row], OfActiveProduct(products));
      CountWhereAppend(inventory[..i], [row], LowOfActive(products));
      CountWhereAppend(inventory[..i], [row], EmptyOfActive(products));
      SumWhereAppend(inventory[..i], [row], OfActiveProduct(products), Quantity);
      SumWhereAppend(inventory[..i], [row], OfActiveProduct(products), ValueAtCost(products));
      if ActiveProduct(products, row.productId) {
        records := records + 1;
        items := items + row.quantity;
        value := value + row.quantity * products[row.productId].costCents;
        if row.quantity <= row.minLevel {
          low := low + 1;
        }
        if row.quantity == 0 {
          empty := empty + 1;
        }
      }
      i := i + 1;
    }
    assert inventory[..i] == inventory;
    r := InventorySummary(records, SqlSum(records, items), SqlSum(records, low), SqlSum(records, empty), SqlSum(records, value));
  }

  // ------------------------------------------------------------- pagination

  /** `Math.ceil(total / limit)` in floating point: a whole number of pages, `Infinity` when the
      limit is 0 and there are rows, `NaN` when both are 0. */
  datatype PageCount = Pages(n: int) | Unbounded | NotANumber

  /** What the listing reports about the page it returned. */
  datatype Pagination = Pagination(offset: int, totalPages: PageCount, hasNext: bool, hasPrev: bool)

  function TotalPages(total: nat, limit: int): (r: PageCount)
    ensures limit > 0 ==> r.Pages? && (r.n - 1) * limit < total <= r.n * limit
    ensures limit == 0 ==> (r == Unbounded <==> total > 0) && (r == NotANumber <==> total == 0)
    ensures limit < 0 ==> r.Pages? && r.n <= 0
  {
    if limit > 0 then
      var n := (total + limit - 1) / limit;
      assert (n - 1) * limit < total <= n * limit by { CeilingDivision(total, limit); }
      Pages(n)
    else if limit == 0 then (if total > 0 then Unbounded else NotANumber)
    else
      var q := total / -limit;
      assert q >= 0 by { QuotientNonNegative(total, -limit); }
      Pages(-q)
  }

  lemma QuotientNonNegative(a: nat, b: int)
    requires b > 0
    ensures a / b >= 0
  {
  }

  /** `(a + b - 1) / b` is the least `n` with `a <= n * b`. */
  lemma CeilingDivision(a: nat, b: int)
    requires b > 0
    ensures var n := (a + b - 1) / b; (n - 1) * b < a <= n * b
  {
    var n := (a + b - 1) / b;
    var m := (a + b - 1) % b;
    assert a + b - 1 == n * b + m;
    assert (n - 1) * b == n * b - b;
  }

  /** `page < totalPages` as JavaScript compares a number with `Infinity` or `NaN`. */
  function Below(page: int, count: PageCount): bool {
    match count
    case Pages(n) => page < n
    case Unbounded => true
    case NotANumber => false
  }

  /** The listing's pagination fields for a page number and limit (defaults 1 and 20). */
  function Paginate(page: int, limit: int, total: nat): (r: Pagination)
    ensures r.hasPrev <==> page > 1
    ensures limit > 0 ==> (r.hasNext <==> r.offset + limit < total)
  {
    var count := TotalPages(total, limit);
    var p := Pagination((page - 1) * limit, count, Below(page, count), page > 1);
    assert limit > 0 ==> (p.hasNext <==> p.offset + limit < total) by {
      if limit > 0 {
        NextPageNonEmpty(page, limit, total, count.n);
      }
    }
    p
  }

  /** With a positive limit there is a next page exactly when the next page's offset is still
      inside the result set. */
  lemma NextPageNonEmpty(page: int, limit: int, total: nat, n: int)
    requires limit > 0 && (n - 1) * limit < total <= n * limit
    ensures page < n <==> page * limit < total
  {
    if page < n {
      MultiplyMonotone(page, n - 1, limit);
    } else {
      MultiplyMonotone(n, page, limit);
    }
  }

  lemma MultiplyMonotone(a: int, b: int, c: int)
    requires a <= b && c > 0
    ensures a * c <= b * c
  {
    assert b * c - a * c == (b - a) * c;
  }

  // ----------------------------------------------------------------- update

  function HasInventoryId(id: Id): InventoryRecord -> bool {
    (r: InventoryRecord) => r.id == id
  }

  /** The fields a `PUT /inventory/:id` request supplies; `None` is a field left out. */
  datatype LevelChange = LevelChange(quantity: Option<int>, minLevel: Option<int>, maxLevel: Option<int>)

  function Supplied(change: LevelChange): bool {
    change.quantity.Some? || change.minLevel.Some? || change.maxLevel.Some?
  }

  /** The row with the supplied fields written over it. */
  function ApplyChange(r: InventoryRecord, change: LevelChange): (u: InventoryRecord)
    ensures u.id == r.id && u.productId == r.productId && u.centreId == r.centreId
    ensures u.quantity == change.quantity.GetOr(r.quantity)
    ensures u.minLevel == change.minLevel.GetOr(r.minLevel) && u.maxLevel == change.maxLevel.GetOr(r.maxLevel)
  {
    r.(quantity := change.quantity.GetOr(r.quantity),
       minLevel := change.minLevel.GetOr(r.minLevel),
       maxLevel := change.maxLevel.GetOr(r.maxLevel))
  }

  /** `UPDATE inventory SET ... WHERE inventory_id = id`. */
  function ChangeRows(inventory: seq<InventoryRecord>, id: Id, change: LevelChange): (r: seq<InventoryRecord>)
    ensures |r| == |inventory|
    ensures forall i :: 0 <= i < |inventory| ==>
      r[i] == if inventory[i].id == id then ApplyChange(inventory[i], change) else inventory[i]
  {
    seq(|inventory|, i requires 0 <= i < |inventory| =>
      if inventory[i].id == id then ApplyChange(inventory[i], change) else inventory[i])
  }

  /** `PUT /inventory/:id`. The record must exist; then each supplied field must be
      non-negative (quantity, minimum, maximum, in that order), some field must be supplied,
      and the minimum may not exceed the maximum when both are supplied. */
  function UpdateRecord(s: Store, id: Id, change: LevelChange): (r: Reply<Id>)
    ensures r.outcome.Err? ==> r.store == s
    ensures r.outcome == Err(InventoryNotFound) <==> forall i :: 0 <= i < |s.inventory| ==> s.inventory[i].id != id
    ensures r.outcome == Err(NegativeQuantity) <==>
      (exists i :: 0 <= i < |s.inventory| && s.inventory[i].id == id) && change.quantity.GetOr(0) < 0
    ensures r.outcome == Err(NegativeMinimum) <==>
      && (exists i :: 0 <= i < |s.inventory| && s.inventory[i].id == id)
      && change.quantity.GetOr(0) >= 0 && change.minLevel.GetOr(0) < 0
    ensures r.outcome == Err(NegativeMaximum) <==>
      && (exists i :: 0 <= i < |s.inventory| && s.inventory[i].id == id)
      && change.quantity.GetOr(0) >= 0 && change.minLevel.GetOr(0) >= 0 && change.maxLevel.GetOr(0) < 0
    ensures r.outcome == Err(NoFieldsToUpdate) <==>
      (exists i :: 0 <= i < |s.inventory| && s.inventory[i].id == id) && !Supplied(change)
    ensures r.outcome == Err(MinAboveMax) <==>
      && (exists i :: 0 <= i < |s.inventory| && s.inventory[i].id == id)
      && change.quantity.GetOr(0) >= 0 && change.minLevel.GetOr(0) >= 0 && change.maxLevel.GetOr(0) >= 0
      && change.minLevel.Some? && change.maxLevel.Some? && change.minLevel.value > change.maxLevel.value
    ensures r.outcome.Ok? <==>
      && (exists i :: 0 <= i < |s.inventory| && s.inventory[i].id == id)
      && change.quantity.GetOr(0) >= 0 && change.minLevel.GetOr(0) >= 0 && change.maxLevel.GetOr(0) >= 0
      && Supplied(change)
      && !(change.minLevel.Some? && change.maxLevel.Some? && change.minLevel.value > change.maxLevel.value)
    ensures r.outcome.Ok? ==> r.store == s.(inventory := ChangeRows(s.inventory, id, change))
  {
    if First(s.inventory, HasInventoryId(id)).None? then Reply(s, Err(InventoryNotFound))
    else if change.quantity.Some? && change.quantity.value < 0 then Reply(s, Err(NegativeQuantity))
    else if change.minLevel.Some? && change.minLevel.value < 0 then Reply(s, Err(NegativeMinimum))
    else if change.maxLevel.Some? && change.maxLevel.value < 0 then Reply(s, Err(NegativeMaximum))
    else if !Supplied(change) then Reply(s, Err(NoFieldsToUpdate))
    else if change.minLevel.Some? && change.maxLevel.Some? && change.minLevel.value > change.maxLevel.value then
      Reply(s, Err(MinAboveMax))
    else Reply(s.(inventory := ChangeRows(s.inventory, id, change)), Ok(id))
  }

  // ----------------------------------------------------------------- create

  function AtLocation(productId: Id, centreId: Id): InventoryRecord -> bool {
    (r: InventoryRecord) => r.productId == productId && r.centreId == centreId
  }

  /** The fields a `POST /inventory` request supplies; `None` is a field left out. */
  datatype NewRecord = NewRecord(productId: Id, centreId: Id, quantity: Option<int>,
                                 minLevel: Option<int>, maxLevel: Option<int>)

  /** `POST /inventory`. Both ids are required; the levels default to 0, 10 and 1000 and must
      be non-negative with the minimum not above the maximum; the product and the centre must
      exist; and the (product, centre) pair must not have a record yet. */
  function CreateRecord(s: Store, req: NewRecord): (r: Reply<Id>)
    ensures r.outcome.Err? ==> r.store == s
    ensures r.outcome == Err(IdsRequired) <==> req.productId == 0 || req.centreId == 0
    ensures r.outcome == Err(NegativeLevels) <==>
      && req.productId != 0 && req.centreId != 0
      && (req.quantity.GetOr(0) < 0 || req.minLevel.GetOr(10) < 0 || req.maxLevel.GetOr(1000) < 0)
    ensures r.outcome == Err(MinAboveMax) <==>
      && req.productId != 0 && req.centreId != 0
      && req.quantity.GetOr(0) >= 0 && req.minLevel.GetOr(10) >= 0 && req.maxLevel.GetOr(1000) >= 0
      && req.minLevel.GetOr(10) > req.maxLevel.GetOr(1000)
    ensures r.outcome == Err(ProductNotFound) <==>
      && req.productId != 0 && req.centreId != 0
      && req.quantity.GetOr(0) >= 0 && req.minLevel.GetOr(10) >= 0 && req.maxLevel.GetOr(1000) >= 0
      && req.minLevel.GetOr(10) <= req.maxLevel.GetOr(1000)
      && req.productId !in s.products
    ensures r.outcome == Err(CentreNotFound) <==>
      && req.productId != 0 && req.centreId != 0
      && req.quantity.GetOr(0) >= 0 && req.minLevel.GetOr(10) >= 0 && req.maxLevel.GetOr(1000) >= 0
      && req.minLevel.GetOr(10) <= req.maxLevel.GetOr(1000)
      && req.productId in s.products && req.centreId !in s.centres
    ensures r.outcome.Ok? ==>
      && r.outcome.value == s.nextId && r.store.nextId == s.nextId + 1
      && r.store == s.(inventory := r.store.inventory, nextId := r.store.nextId)
      && r.store.inventory == s.inventory + [InventoryRecord(s.nextId, req.productId, req.centreId,
           req.quantity.GetOr(0), req.minLevel.GetOr(10), req.maxLevel.GetOr(1000))]
    ensures r.outcome.Ok? <==>
      && req.productId != 0 && req.centreId != 0
      && req.quantity.GetOr(0) >= 0 && req.minLevel.GetOr(10) >= 0 && req.maxLevel.GetOr(1000) >= 0
      && req.minLevel.GetOr(10) <= req.maxLevel.GetOr(1000)
      && req.productId in s.products && req.centreId in s.centres
      && forall i :: 0 <= i < |s.inventory| ==> LocationOf(s.inventory[i]) != (req.productId, req.centreId)
    ensures r.outcome.Err? && r.outcome.error.RecordExists? <==>
      && req.productId != 0 && req.centreId != 0
      && req.quantity.GetOr(0) >= 0 && req.minLevel.GetOr(10) >= 0 && req.maxLevel.GetOr(1000) >= 0
      && req.minLevel.GetOr(10) <= req.maxLevel.GetOr(1000)
      && req.productId in s.products && req.centreId in s.centres
      && exists i :: 0 <= i < |s.inventory| && LocationOf(s.inventory[i]) == (req.productId, req.centreId)
    ensures r.outcome.Err? && r.outcome.error.RecordExists? ==>
      exists i :: 0 <= i < |s.inventory| && LocationOf(s.inventory[i]) == (req.productId, req.centreId)
        && r.outcome.error.inventoryId == s.inventory[i].id
    ensures forall k :: FirstAt(s.inventory, AtLocation(req.productId, req.centreId), k) && r.outcome.Err? ==>
      (r.outcome.error.RecordExists? ==> r.outcome.error == RecordExists(s.inventory[k].id))
  {
    FirstIsFirstAt(s.inventory, AtLocation(req.productId, req.centreId));
    var quantity := req.quantity.GetOr(0);
    var minLevel := req.minLevel.GetOr(10);
    var maxLevel := req.maxLevel.GetOr(1000);
    if req.productId == 0 || req.centreId == 0 then Reply(s, Err(IdsRequired))
    else if quantity < 0 || minLevel < 0 || maxLevel < 0 then Reply(s, Err(NegativeLevels))
    else if minLevel > maxLevel then Reply(s, Err(MinAboveMax))
    else if req.productId !in s.products then Reply(s, Err(ProductNotFound))
    else if req.centreId !in s.centres then Reply(s, Err(CentreNotFound))
    else match First(s.inventory, AtLocation(req.productId, req.centreId))
      case Some(k) => Reply(s, Err(RecordExists(s.inventory[k].id)))
      case None =>
        var row := InventoryRecord(s.nextId, req.productId, req.centreId, quantity, minLevel, maxLevel);
        Reply(s.(inventory := s.inventory + [row], nextId := s.nextId + 1), Ok(s.nextId))
  }

  // ----------------------------------------------------------------- adjust

  /** The adjust lookup: the record with that id, joined with its product. */
  function JoinedWithId(products: map<Id, Product>, id: Id): InventoryRecord -> bool {
    (r: InventoryRecord) => r.id == id && r.productId in products
  }

  /** `UPDATE inventory SET quantity = q WHERE inventory_id = id`. */
  function SetStock(inventory: seq<InventoryRecord>, id: Id, q: int): (r: seq<InventoryRecord>)
    ensures |r| == |inventory|
    ensures forall i :: 0 <= i < |inventory| ==>
      r[i] == if inventory[i].id == id then inventory[i].(quantity := q) else inventory[i]
  {
    seq(|inventory|, i requires 0 <= i < |inventory| =>
      if inventory[i].id == id then inventory[i].(quantity := q) else inventory[i])
  }

  datatype Adjusted = Adjusted(previousQuantity: int, adjustment: int, newQuantity: int)

  /** `POST /inventory/:id/adjust`. A missing or zero adjustment is rejected first; then the
      record (joined with its product) must exist; then the new quantity must not be negative. */
  function Adjust(s: Store, id: Id, adjustment: Option<int>): (r: Reply<Adjusted>)
    ensures r.outcome.Err? ==> r.store == s
    ensures adjustment.GetOr(0) == 0 <==> r.outcome == Err(ZeroAdjustment)
    ensures r.outcome == Err(InventoryNotFound) <==>
      adjustment.GetOr(0) != 0 && forall k :: 0 <= k < |s.inventory| ==> !JoinedWithId(s.products, id)(s.inventory[k])
    ensures r.outcome.Ok? ==>
      && r.outcome.value.newQuantity == r.outcome.value.previousQuantity + adjustment.value >= 0
      && r.outcome.value.adjustment == adjustment.value
      && (exists k :: 0 <= k < |s.inventory| && JoinedWithId(s.products, id)(s.inventory[k])
                      && s.inventory[k].quantity == r.outcome.value.previousQuantity)
      && r.store == s.(inventory := SetStock(s.inventory, id, r.outcome.value.newQuantity))
    ensures r.outcome.Err? && r.outcome.error.NegativeResult? ==>
      && r.outcome.error.resulting == r.outcome.error.currentQuantity + r.outcome.error.adjustment < 0
  {
    if adjustment.None? || adjustment.value == 0 then Reply(s, Err(ZeroAdjustment))
    else match First(s.inventory, JoinedWithId(s.products, id))
      case None => Reply(s, Err(InventoryNotFound))
      case Some(k) =>
        var current := s.inventory[k].quantity;
        var next := current + adjustment.value;
        if next < 0 then Reply(s, Err(NegativeResult(current, adjustment.value, next)))
        else Reply(s.(inventory := SetStock(s.inventory, id, next)), Ok(Adjusted(current, adjustment.value, next)))
  }

  // ----------------------------------------------------------------- delete

  function NotInventoryId(id: Id): InventoryRecord -> bool {
    (r: InventoryRecord) => r.id != id
  }

  /** `DELETE /inventory/:id`: not found, or every row with that id deleted. */
  function DeleteRecord(s: Store, id: Id): (r: Reply<Id>)
    ensures r.outcome.Err? ==> r.store == s && r.outcome.error == InventoryNotFound
    ensures r.outcome.Ok? <==> exists k :: 0 <= k < |s.inventory| && s.inventory[k].id == id
    ensures r.outcome.Ok? ==> r.store == s.(inventory := r.store.inventory)
    ensures forall i :: 0 <= i < |r.store.inventory| ==> r.store.inventory[i] in s.inventory
    ensures r.outcome.Ok? ==> forall i :: 0 <= i < |r.store.inventory| ==> r.store.inventory[i].id != id
    ensures forall i :: 0 <= i < |s.inventory| && s.inventory[i].id != id ==> s.inventory[i] in r.store.inventory
  {
    if First(s.inventory, HasInventoryId(id)).None? then Reply(s, Err(InventoryNotFound))
    else Reply(s.(inventory := Filter(s.inventory, NotInventoryId(id))), Ok(id))
  }
}

=== FILE: inventory_laws.dfy ===
/** What the inventory handlers guarantee beyond their own contracts: the summary's low-stock
    count agrees with the listing's classification, the pagination fields describe the pages
    that exist, adjustments undo each other, deletion removes one record, and every handler
    keeps the store invariant. */
module InventoryLaws {
  import opened Outcomes
  import opened Tables
  import opened Store
  import opened Ledger
  import opened Inventory

  function ClassifiedLow(products: map<Id, Product>): InventoryRecord -> bool {
    (r: InventoryRecord) => ActiveProduct(products, r.productId) && Classify(r.quantity, r.minLevel, r.maxLevel) == Low
  }

  /** The summary's `quantity <= min_stock_level` count is the number of active rows the listing
      labels `low`, even for rows that are also at or above their maximum. */
  lemma LowCountMatchesClassification(products: map<Id, Product>, inventory: seq<InventoryRecord>)
    ensures CountWhere(inventory, LowOfActive(products)) == CountWhere(inventory, ClassifiedLow(products))
  {
    CountWhereEquivalent(inventory, LowOfActive(products), ClassifiedLow(products));
  }

  /** When no active row has a negative minimum, every out-of-stock row is also a low-stock row,
      and both counts are bounded by the number of rows. */
  lemma OutOfStockWithinLowStock(products: map<Id, Product>, inventory: seq<InventoryRecord>)
    requires forall j :: 0 <= j < |inventory| && ActiveProduct(products, inventory[j].productId) ==> inventory[j].minLevel >= 0
    ensures CountWhere(inventory, EmptyOfActive(products)) <= CountWhere(inventory, LowOfActive(products))
    ensures CountWhere(inventory, LowOfActive(products)) <= CountWhere(inventory, OfActiveProduct(products))
  {
    CountWhereMonotone(inventory, EmptyOfActive(products), LowOfActive(products));
    CountWhereMonotone(inventory, LowOfActive(products), OfActiveProduct(products));
  }

  /** With a positive limit, page `page` (counted from 1) holds rows exactly when it is one of
      the reported pages, and `hasNext` says that the following page holds rows. */
  lemma PagesThatExist(page: int, limit: int, total: nat)
    requires limit > 0 && page >= 1
    ensures var p := Paginate(page, limit, total);
      && (p.offset < total <==> page <= p.totalPages.n)
      && (p.hasNext <==> page + 1 <= p.totalPages.n)
  {
    var n := TotalPages(total, limit).n;
    NextPageNonEmpty(page - 1, limit, total, n);
    NextPageNonEmpty(page, limit, total, n);
  }

  /** A successful update writes exactly the supplied fields of the addressed record and leaves
      every other field and every other record as it was. */
  lemma UpdateWritesSuppliedFields(s: Store, id: Id, change: LevelChange, k: nat)
    requires k < |s.inventory| && s.inventory[k].id == id
    requires UpdateRecord(s, id, change).outcome.Ok?
    ensures var after := UpdateRecord(s, id, change).store.inventory;
      && after[k].quantity == (if change.quantity.Some? then change.quantity.value else s.inventory[k].quantity)
      && after[k].minLevel == (if change.minLevel.Some? then change.minLevel.value else s.inventory[k].minLevel)
      && after[k].maxLevel == (if change.maxLevel.Some? then change.maxLevel.value else s.inventory[k].maxLevel)
      && forall i :: 0 <= i < |s.inventory| && s.inventory[i].id != id ==> after[i] == s.inventory[i]
  {
    var after := UpdateRecord(s, id, change).store.inventory;
    assert after[k] == ApplyChange(s.inventory[k], change);
  }

  /** The minimum-versus-maximum check applies only when both levels are sent: raising the
      minimum alone above the stored maximum is accepted. */
  lemma MinimumAlonePassesMaximum()
    ensures var s := Store(map[1 := Product(true, 100, 50)], {1}, [InventoryRecord(1, 1, 1, 5, 10, 1000)],
                           [], [], [], [], [], 2);
      var r := UpdateRecord(s, 1, LevelChange(None, Some(2000), None));
      r.outcome.Ok? && r.store.inventory[0].minLevel > r.store.inventory[0].maxLevel
  {
    var s := Store(map[1 := Product(true, 100, 50)], {1}, [InventoryRecord(1, 1, 1, 5, 10, 1000)],
                   [], [], [], [], [], 2);
    assert HasInventoryId(1)(s.inventory[0]);
    var r := UpdateRecord(s, 1, LevelChange(None, Some(2000), None));
    assert r.store.inventory[0] == ApplyChange(s.inventory[0], LevelChange(None, Some(2000), None));
  }

  lemma UpdatePreservesValid(s: Store, id: Id, change: LevelChange)
    requires Valid(s)
    ensures Valid(UpdateRecord(s, id, change).store)
  {
    var r := UpdateRecord(s, id, change);
    if r.outcome.Ok? {
      UniqueSameKeys(s.inventory, r.store.inventory, InventoryIdOf);
      UniqueSameKeys(s.inventory, r.store.inventory, LocationOf);
    }
  }

  /** Creating a record keeps the invariant, in particular one record per (product, centre). */
  lemma CreateRecordPreservesValid(s: Store, req: NewRecord)
    requires Valid(s)
    ensures Valid(CreateRecord(s, req).store)
  {
    var r := CreateRecord(s, req);
    if r.outcome.Ok? {
      var row := r.store.inventory[|s.inventory|];
      forall j | 0 <= j < |s.inventory| ensures InventoryIdOf(s.inventory[j]) != InventoryIdOf(row) {
        assert InventoryIdOf(s.inventory[j]) < s.nextId;
      }
      UniqueAppend(s.inventory, row, InventoryIdOf);
      UniqueAppend(s.inventory, row, LocationOf);
    }
  }

  /** A second record for a (product, centre) pair that already has one is rejected with the
      existing record's id, whatever the levels sent. */
  lemma CreateRecordRejectsDuplicate(s: Store, req: NewRecord, k: nat)
    requires Valid(s) && k < |s.inventory| && LocationOf(s.inventory[k]) == (req.productId, req.centreId)
    requires req.productId in s.products && req.centreId in s.centres && req.productId != 0 && req.centreId != 0
    requires req.quantity.GetOr(0) >= 0 && 0 <= req.minLevel.GetOr(10) <= req.maxLevel.GetOr(1000)
    ensures CreateRecord(s, req) == Reply(s, Err(RecordExists(s.inventory[k].id)))
  {
    var j := First(s.inventory, AtLocation(req.productId, req.centreId)).value;
    assert LocationOf(s.inventory[j]) == LocationOf(s.inventory[k]);
  }

  /** With unique ids, rewriting the quantity of one record twice leaves only the second write. */
  lemma SetStockTwice(inventory: seq<InventoryRecord>, id: Id, k: nat, q1: int, q2: int)
    requires UniqueBy(inventory, InventoryIdOf) && k < |inventory| && inventory[k].id == id
    ensures SetStock(SetStock(inventory, id, q1), id, q2) == SetStock(inventory, id, q2)
    ensures SetStock(inventory, id, inventory[k].quantity) == inventory
  {
    var once := SetStock(inventory, id, q1);
    var twice := SetStock(once, id, q2);
    forall i | 0 <= i < |inventory| ensures twice[i] == SetStock(inventory, id, q2)[i] && SetStock(inventory, id, inventory[k].quantity)[i] == inventory[i] {
      if i != k {
        assert InventoryIdOf(inventory[i]) != InventoryIdOf(inventory[k]);
      }
    }
  }

  /** With unique record ids, a non-zero adjustment of a record that exists (joined with its
      product) succeeds exactly when the result is not negative, and is refused with the
      negative result otherwise. */
  lemma AdjustSucceeds(s: Store, id: Id, a: int, k: nat)
    requires UniqueBy(s.inventory, InventoryIdOf)
    requires a != 0 && k < |s.inventory| && JoinedWithId(s.products, id)(s.inventory[k])
    ensures var r := Adjust(s, id, Some(a));
      && (r.outcome.Ok? <==> s.inventory[k].quantity + a >= 0)
      && (r.outcome.Ok? ==> r.outcome.value == Adjusted(s.inventory[k].quantity, a, s.inventory[k].quantity + a))
      && (r.outcome.Err? ==> r.outcome.error == NegativeResult(s.inventory[k].quantity, a, s.inventory[k].quantity + a))
  {
    var f := First(s.inventory, JoinedWithId(s.products, id));
    assert f.Some?;
    var j := f.value;
    assert InventoryIdOf(s.inventory[j]) == InventoryIdOf(s.inventory[k]);
    assert j == k;
  }

  /** Adjusting a record by `a` and then by `-a` restores the store exactly when the record's
      quantity was not negative to begin with; from a negative quantity the way back is refused. */
  lemma AdjustRoundTrip(s: Store, id: Id, a: int)
    requires Valid(s)
    requires Adjust(s, id, Some(a)).outcome.Ok?
    ensures var first := Adjust(s, id, Some(a));
      var back := Adjust(first.store, id, Some(-a));
      && (back.outcome.Ok? <==> first.outcome.value.previousQuantity >= 0)
      && (back.outcome.Ok? ==> back.store == s)
  {
    var first := Adjust(s, id, Some(a));
    var k := First(s.inventory, JoinedWithId(s.products, id)).value;
    var t := first.store;
    var q := s.inventory[k].quantity;
    assert t.inventory == SetStock(s.inventory, id, q + a);
    assert t.inventory[k] == s.inventory[k].(quantity := q + a);
    forall j | 0 <= j < |t.inventory| && j != k ensures !JoinedWithId(t.products, id)(t.inventory[j]) {
      assert InventoryIdOf(s.inventory[j]) != InventoryIdOf(s.inventory[k]);
    }
    assert First(t.inventory, JoinedWithId(t.products, id)) == Some(k);
    SetStockTwice(s.inventory, id, k, q + a, q);
  }

  lemma AdjustPreservesValid(s: Store, id: Id, adjustment: Option<int>)
    requires Valid(s)
    ensures Valid(Adjust(s, id, adjustment).store)
  {
    var r := Adjust(s, id, adjustment);
    if r.outcome.Ok? {
      UniqueSameKeys(s.inventory, r.store.inventory, InventoryIdOf);
      UniqueSameKeys(s.inventory, r.store.inventory, LocationOf);
    }
  }

  /** With unique ids, a successful delete removes exactly one record and keeps the invariant. */
  lemma DeleteRemovesOneRecord(s: Store, id: Id)
    requires Valid(s)
    ensures var r := DeleteRecord(s, id);
      && Valid(r.store)
      && (r.outcome.Ok? ==> |r.store.inventory| == |s.inventory| - 1)
  {
    var r := DeleteRecord(s, id);
    FilterUnique(s.inventory, NotInventoryId(id), InventoryIdOf);
    FilterUnique(s.inventory, NotInventoryId(id), LocationOf);
    AllBelowFilter(s.inventory, NotInventoryId(id), InventoryIdOf, s.nextId);
    if r.outcome.Ok? {
      var k :| 0 <= k < |s.inventory| && s.inventory[k].id == id;
      forall j | 0 <= j < |s.inventory| && j != k ensures NotInventoryId(id)(s.inventory[j]) {
        assert InventoryIdOf(s.inventory[j]) != InventoryIdOf(s.inventory[k]);
      }
      FilterDropsOne(s.inventory, NotInventoryId(id), k);
    }
  }
}

=== FILE: ledger.dfy ===
/** The inventory ledger: stock of a product summed across distribution centres, and the
    `UPDATE inventory SET quantity = quantity +/- n WHERE product_id = ?` statements that order
    creation (reserve) and cancellation (release) issue. */
module Ledger {
  import opened Tables
  import opened Store

  function Quantity(r: InventoryRecord): int { r.quantity }

  function AtProduct(p: Id): InventoryRecord -> bool {
    (r: InventoryRecord) => r.productId == p
  }

  /** `COALESCE(SUM(quantity), 0) FROM inventory WHERE product_id = p`: the stock of `p`
      summed over every distribution centre. */
  function StockOf(inv: seq<InventoryRecord>, p: Id): int {
    SumWhere(inv, AtProduct(p), Quantity)
  }

  /** When a product has exactly one inventory row, its summed stock is that row's quantity. */
  lemma StockOfSingleRow(inv: seq<InventoryRecord>, i: nat)
    requires UniqueBy(inv, StockedProductOf) && i < |inv|
    ensures StockOf(inv, inv[i].productId) == inv[i].quantity
  {
    var p := inv[i].productId;
    forall j | 0 <= j < |inv| && j != i ensures !AtProduct(p)(inv[j]) {
      assert StockedProductOf(inv[j]) != StockedProductOf(inv[i]);
    }
    SumWhereOnly(inv, AtProduct(p), Quantity, i);
  }

  /** A change of `delta` units to every inventory row of one product. */
  datatype StockMove = StockMove(productId: Id, delta: int)

  function MoveDelta(m: StockMove): int { m.delta }

  function MoveOf(p: Id): StockMove -> bool {
    (m: StockMove) => m.productId == p
  }

  /** The total change a list of moves makes to each row of product `p`. */
  function NetDelta(moves: seq<StockMove>, p: Id): int {
    SumWhere(moves, MoveOf(p), MoveDelta)
  }

  /** One `UPDATE inventory SET quantity = quantity + delta WHERE product_id = p`. */
  function Shift(inv: seq<InventoryRecord>, m: StockMove): seq<InventoryRecord> {
    seq(|inv|, i requires 0 <= i < |inv| =>
      if inv[i].productId == m.productId then inv[i].(quantity := inv[i].quantity + m.delta) else inv[i])
  }

  /** The moves issued one after another. Every row keeps its id, product, centre and levels,
      and its quantity changes by the net delta of its product: rows of the same product all
      move together, whatever their number. */
  function ApplyMoves(inv: seq<InventoryRecord>, moves: seq<StockMove>): (r: seq<InventoryRecord>)
    ensures |r| == |inv|
    ensures forall i :: 0 <= i < |inv| ==>
      r[i] == inv[i].(quantity := inv[i].quantity + NetDelta(moves, inv[i].productId))
    decreases |moves|
  {
    if |moves| == 0 then inv else ApplyMoves(Shift(inv, moves[0]), moves[1..])
  }

  /** The compensating moves: the same products with the opposite deltas. */
  function Negate(moves: seq<StockMove>): (r: seq<StockMove>)
    ensures |r| == |moves|
    ensures forall k :: 0 <= k < |r| ==> r[k].productId == moves[k].productId && r[k].delta == -moves[k].delta
  {
    seq(|moves|, k requires 0 <= k < |moves| => StockMove(moves[k].productId, -moves[k].delta))
  }

  lemma {:induction false} NetDeltaNegate(moves: seq<StockMove>, p: Id)
    ensures NetDelta(Negate(moves), p) == -NetDelta(moves, p)
    decreases |moves|
  {
    if |moves| > 0 {
      assert Negate(moves)[1..] == Negate(moves[1..]);
      NetDeltaNegate(moves[1..], p);
    }
  }

  /** Releasing what was reserved restores every inventory row exactly. */
  lemma ReleaseUndoesReserve(inv: seq<InventoryRecord>, moves: seq<StockMove>)
    ensures ApplyMoves(ApplyMoves(inv, moves), Negate(moves)) == inv
  {
    var reserved := ApplyMoves(inv, moves);
    var restored := ApplyMoves(reserved, Negate(moves));
    forall i | 0 <= i < |inv| ensures restored[i] == inv[i] {
      NetDeltaNegate(moves, inv[i].productId);
    }
  }

  /** Each row of `p` moves by the net delta, so the summed stock of `p` moves by the net delta
      once per row: with several distribution centres a decrement counts several times. */
  lemma {:induction false} StockAfterMoves(inv: seq<InventoryRecord>, moves: seq<StockMove>, p: Id)
    ensures StockOf(ApplyMoves(inv, moves), p) == StockOf(inv, p) + CountWhere(inv, AtProduct(p)) * NetDelta(moves, p)
    decreases |inv|
  {
    if |inv| > 0 {
      var n := NetDelta(moves, p);
      var after := ApplyMoves(inv, moves);
      var tail := ApplyMoves(inv[1..], moves);
      assert after[1..] == tail;
      StockAfterMoves(inv[1..], moves, p);
      var rest := CountWhere(inv[1..], AtProduct(p));
      assert StockOf(tail, p) == StockOf(inv[1..], p) + rest * n;
      assert StockOf(after, p) == (if AtProduct(p)(after[0]) then after[0].quantity else 0) + StockOf(tail, p);
      if AtProduct(p)(inv[0]) {
        assert after[0].quantity == inv[0].quantity + n;
        MultiplyStep(rest, n);
      }
    }
  }

  lemma MultiplyStep(rest: int, n: int)
    ensures (1 + rest) * n == n + rest * n
  {
  }
}

=== FILE: order_number.dfy ===
/** The human-readable order number: `"ORD-"`, the last eight digits of the millisecond clock,
    `"-"`, and six upper-cased characters of a base-36 random string. The clock reading and the
    random string are inputs of the model. */
module OrderNumber {
  import opened Text

  /** `Date.now().toString().slice(-8)`. */
  function TimestampSegment(now: nat): (r: string)
    ensures |r| <= 8 && AllDigits(r)
    ensures now >= 10000000 ==> |r| == 8
  {
    var digits := Decimal(now);
    DecimalLengthBound(now, 7);
    SliceLast(digits, 8)
  }

  /** The timestamp segment reads back as the clock value modulo 10^8. */
  lemma TimestampSegmentValue(now: nat)
    ensures ParseDecimal(TimestampSegment(now)) == now % 100000000
  {
    var digits := Decimal(now);
    var segment := TimestampSegment(now);
    Pow10Eight();
    DecimalRoundTrip(now);
    if |digits| > 8 {
      ParseSplit(digits, 8);
      assert segment == digits[|digits| - 8..];
      SplitMod(ParseDecimal(digits[..|digits| - 8]), ParseDecimal(segment));
    } else {
      DecimalLengthBound(now, 8);
      assert segment == digits;
    }
  }

  /** `randomText.substring(2, 8).toUpperCase()`, where `randomText` is the result of
      `Math.random().toString(36)` (`"0."` followed by base-36 digits). */
  function RandomSegment(randomText: string): (r: string)
    ensures |r| <= 6
    ensures forall i :: 0 <= i < |r| ==> !IsLower(r[i])
    ensures |randomText| >= 8 ==> |r| == 6 && forall i :: 0 <= i < 6 ==> r[i] == UpperChar(randomText[i + 2])
  {
    Upper(Substring(randomText, 2, 8))
  }

  /** `generateOrderNumber()` with the clock and the random string as parameters. */
  function Generate(now: nat, randomText: string): (r: string)
    ensures 5 <= |r| <= 19 && r[..4] == "ORD-"
    ensures var t, x := TimestampSegment(now), RandomSegment(randomText);
      |r| == 5 + |t| + |x| && r[4..4 + |t|] == t && r[4 + |t|] == '-' && r[5 + |t|..] == x
  {
    var t := TimestampSegment(now);
    var x := RandomSegment(randomText);
    var head := "ORD-" + t;
    assert head[..4] == "ORD-";
    assert |head + "-" + x| == 5 + |t| + |x|;
    assert (head + "-" + x)[..4] == head[..4];
    assert (head + "-" + x)[4..4 + |t|] == t;
    assert (head + "-" + x)[5 + |t|..] == x;
    head + "-" + x
  }

  /** For any clock reading of at least 10^7 ms and a random string of at least eight characters
      the number has the shape `ORD-<8 digits>-<6 characters>`: the digits are the clock value
      modulo 10^8, and the suffix is characters 2 to 7 of the random string upper-cased, so it
      holds no lower-case letter. */
  lemma GeneratedShape(now: nat, randomText: string)
    requires now >= 10000000 && |randomText| >= 8
    ensures var r := Generate(now, randomText);
      && |r| == 19 && r[..4] == "ORD-" && r[12] == '-'
      && AllDigits(r[4..12]) && ParseDecimal(r[4..12]) == now % 100000000
      && forall i :: 13 <= i < 19 ==> !IsLower(r[i])
    ensures var r := Generate(now, randomText);
      r[4..12] == TimestampSegment(now) && r[13..] == RandomSegment(randomText)
      && forall i :: 13 <= i < 19 ==> r[i] == UpperChar(randomText[i - 11])
  {
    var r := Generate(now, randomText);
    var t := TimestampSegment(now);
    assert r[4..12] == t;
    TimestampSegmentValue(now);
    var x := RandomSegment(randomText);
    assert r[13..] == x;
    forall i | 13 <= i < 19 ensures !IsLower(r[i]) && r[i] == UpperChar(randomText[i - 11]) {
      assert r[i] == x[i - 13];
    }
  }
}

=== FILE: orders.dfy ===
/** The order lifecycle: creation from the cart snapshot, the administrative status update and
    the shopper's cancellation. */
module Orders {
  import opened Outcomes
  import opened Tables
  import opened Store
  import opened Ledger
  import opened Pricing
  import opened Cart
  import OrderNumber

  /** The status names the status endpoint accepts, as stored in the `status` column. */
  function StatusName(st: OrderStatus): string {
    match st
    case Pending => "pending"
    case Processing => "processing"
    case Shipped => "shipped"
    case Delivered => "delivered"
    case Cancelled => "cancelled"
  }

  /** `validStatuses.includes(status)`: a request's status text, if it is one of the five. */
  function ParseStatus(text: string): (r: Option<OrderStatus>)
    ensures r.Some? ==> StatusName(r.value) == text
    ensures r.None? ==> forall st: OrderStatus :: StatusName(st) != text
  {
    if text == "pending" then Some(Pending)
    else if text == "processing" then Some(Processing)
    else if text == "shipped" then Some(Shipped)
    else if text == "delivered" then Some(Delivered)
    else if text == "cancelled" then Some(Cancelled)
    else None
  }

  /** Every status name reads back as its status. */
  lemma StatusRoundTrip(st: OrderStatus)
    ensures ParseStatus(StatusName(st)) == Some(st)
  {
  }

  /** Address fields sent along with an order. */
  datatype AddressInput = AddressInput(street: string, city: string, state: string, zip: string, country: Option<string>)

  /** `country || 'USA'`: an absent or empty country becomes "USA". */
  function CountryOrDefault(country: Option<string>): (r: string)
    ensures country.Some? && country.value != "" ==> r == country.value
    ensures country.None? || country.value == "" ==> r == "USA"
  {
    if country.Some? && country.value != "" then country.value else "USA"
  }

  /** The store after inserting the address given with an order (if any), with its new id.
      Order creation does not validate these fields and never marks them default. */
  function SaveOrderAddress(s: Store, user: Id, kind: AddressType, input: Option<AddressInput>): (Store, Option<Id>) {
    match input
    case None => (s, None)
    case Some(a) =>
      var row := Address(s.nextId, user, kind, a.street, a.city, a.state, a.zip, CountryOrDefault(a.country), false);
      (s.(addresses := s.addresses + [row], nextId := s.nextId + 1), Some(s.nextId))
  }

  function Short(l: CartLine): bool { l.available < l.quantity }

  /** One move per line taking the line's quantity off every inventory row of its product. */
  function Reservation(lines: seq<CartLine>): (moves: seq<StockMove>)
    ensures |moves| == |lines|
    ensures forall k :: 0 <= k < |lines| ==> moves[k] == StockMove(lines[k].productId, -lines[k].quantity)
  {
    seq(|lines|, k requires 0 <= k < |lines| => StockMove(lines[k].productId, -lines[k].quantity))
  }

  /** The order items created from the lines: ids `firstId`, `firstId + 1`, ..., each with the
      product's price at creation time as its unit price. */
  function ItemsFor(lines: seq<CartLine>, orderId: Id, firstId: Id): (items: seq<OrderItem>)
    ensures |items| == |lines|
    ensures forall k :: 0 <= k < |lines| ==>
      items[k] == OrderItem(firstId + k, orderId, lines[k].productId, lines[k].quantity, lines[k].unitPriceCents,
                            lines[k].quantity * lines[k].unitPriceCents)
  {
    seq(|lines|, k requires 0 <= k < |lines| =>
      OrderItem(firstId + k, orderId, lines[k].productId, lines[k].quantity, lines[k].unitPriceCents,
                lines[k].quantity * lines[k].unitPriceCents))
  }

  /** One move per order item putting its quantity back on every inventory row of its product. */
  function Release(items: seq<OrderItem>): (moves: seq<StockMove>)
    ensures |moves| == |items|
    ensures forall k :: 0 <= k < |items| ==> moves[k] == StockMove(items[k].productId, items[k].quantity)
  {
    seq(|items|, k requires 0 <= k < |items| => StockMove(items[k].productId, items[k].quantity))
  }

  function InOrder(orderId: Id): OrderItem -> bool {
    (i: OrderItem) => i.orderId == orderId
  }

  /** `SELECT ... FROM order_items WHERE order_id = ?`. */
  function ItemsOf(items: seq<OrderItem>, orderId: Id): seq<OrderItem> {
    Filter(items, InOrder(orderId))
  }

  /** What a successful creation reports. */
  datatype Receipt = Receipt(orderId: Id, orderNumber: string, totalCents: int)

  /** `POST /orders/create`. The snapshot must be non-empty and each line's quantity must fit
      its product's stock summed across centres; only then are the addresses, the order, its
      items and the stock decrements written and the user's whole cart deleted. */
  function Create(s: Store, user: Id, shipTo: Option<AddressInput>, billTo: Option<AddressInput>,
                  now: nat, randomText: string): (r: Reply<Receipt>)
    ensures r.outcome.Err? ==> r.store == s
    ensures r.outcome == Err(CartEmpty) <==> |Snapshot(s, user)| == 0
    ensures r.outcome.Ok? <==>
      |Snapshot(s, user)| > 0 && forall k :: 0 <= k < |Snapshot(s, user)| ==> !Short(Snapshot(s, user)[k])
    ensures r.outcome.Err? && r.outcome.error.InsufficientStock? <==>
      |Snapshot(s, user)| > 0 && exists k :: 0 <= k < |Snapshot(s, user)| && Short(Snapshot(s, user)[k])
    ensures r.outcome.Err? && r.outcome.error.InsufficientStock? ==>
      exists k :: 0 <= k < |Snapshot(s, user)| && Short(Snapshot(s, user)[k])
        && r.outcome.error == InsufficientStock(Snapshot(s, user)[k].productId,
                                                Snapshot(s, user)[k].quantity, Snapshot(s, user)[k].available)
    ensures r.outcome.Ok? ==>
      r.store.products == s.products && r.store.centres == s.centres && r.store.users == s.users
  {
    var lines := Snapshot(s, user);
    if |lines| == 0 then Reply(s, Err(CartEmpty))
    else match First(lines, Short)
      case Some(k) => Reply(s, Err(InsufficientStock(lines[k].productId, lines[k].quantity, lines[k].available)))
      case None =>
        var totals := PriceOrder(lines);
        var number := OrderNumber.Generate(now, randomText);
        var withShipping := SaveOrderAddress(s, user, Shipping, shipTo);
        var withBilling := SaveOrderAddress(withShipping.0, user, Billing, billTo);
        Reply(Commit(withBilling.0, user, lines, number, totals, withShipping.1, withBilling.1),
              Ok(Receipt(withBilling.0.nextId, number, totals.totalCents)))
  }

  /** The writes of a successful creation once its addresses are in: the pending order under the
      next id, one item per line under the ids after it, the decrement of every line's product,
      and the deletion of every cart line of the user. */
  function Commit(s: Store, user: Id, lines: seq<CartLine>, number: string, totals: OrderTotals,
                  shipId: Option<Id>, billId: Option<Id>): (t: Store)
    ensures t.products == s.products && t.centres == s.centres && t.users == s.users && t.addresses == s.addresses
  {
    var orderId := s.nextId;
    var order := Order(orderId, user, number, Pending, totals.totalCents, totals.shippingCents,
                       totals.taxCents, shipId, billId);
    s.(orders := s.orders + [order],
       orderItems := s.orderItems + ItemsFor(lines, orderId, orderId + 1),
       inventory := ApplyMoves(s.inventory, Reservation(lines)),
       cart := Filter(s.cart, NotOwnedBy(user)),
       nextId := orderId + 1 + |lines|)
  }

  /** `UPDATE orders SET status = st WHERE order_id = id`. */
  function WithStatus(orders: seq<Order>, id: Id, st: OrderStatus): (r: seq<Order>)
    ensures |r| == |orders|
    ensures forall i :: 0 <= i < |orders| ==> r[i] == if orders[i].id == id then orders[i].(status := st) else orders[i]
  {
    seq(|orders|, i requires 0 <= i < |orders| => if orders[i].id == id then orders[i].(status := st) else orders[i])
  }

  function HasOrderId(id: Id): Order -> bool {
    (o: Order) => o.id == id
  }

  function OwnedOrder(id: Id, user: Id): Order -> bool {
    (o: Order) => o.id == id && o.userId == user
  }

  /** What the status endpoint reports. */
  datatype StatusChange = StatusChange(orderId: Id, oldStatus: OrderStatus, newStatus: OrderStatus)

  /** `PUT /orders/:id/status` (administrative). Any of the five statuses is written over any
      current status, with no transition check and no change to inventory. */
  function SetStatus(s: Store, orderId: Id, text: string): (r: Reply<StatusChange>)
    ensures r.outcome.Err? ==> r.store == s
    ensures ParseStatus(text).None? <==> r.outcome == Err(InvalidStatus)
    ensures r.outcome.Ok? <==>
      ParseStatus(text).Some? && exists k :: 0 <= k < |s.orders| && s.orders[k].id == orderId
    ensures r.outcome == Err(OrderNotFound) <==>
      ParseStatus(text).Some? && forall k :: 0 <= k < |s.orders| ==> s.orders[k].id != orderId
    ensures r.outcome.Ok? ==>
      && (exists k :: FirstAt(s.orders, HasOrderId(orderId), k) && r.outcome.value.oldStatus == s.orders[k].status)
      && r.outcome.value.newStatus == ParseStatus(text).value
      && r.store == s.(orders := WithStatus(s.orders, orderId, r.outcome.value.newStatus))
  {
    FirstIsFirstAt(s.orders, HasOrderId(orderId));
    match ParseStatus(text)
    case None => Reply(s, Err(InvalidStatus))
    case Some(st) =>
      match First(s.orders, HasOrderId(orderId))
      case None => Reply(s, Err(OrderNotFound))
      case Some(k) =>
        Reply(s.(orders := WithStatus(s.orders, orderId, st)), Ok(StatusChange(orderId, s.orders[k].status, st)))
  }

  /** `PUT /orders/:id/cancel`. Only the owner's pending order can be cancelled; then every
      item's quantity is added back to every inventory row of its product and the status
      becomes cancelled. */
  function Cancel(s: Store, orderId: Id, user: Id): (r: Reply<Id>)
    ensures r.outcome.Err? ==> r.store == s
    ensures r.outcome.Ok? <==>
      exists k :: 0 <= k < |s.orders| && OwnedOrder(orderId, user)(s.orders[k]) && s.orders[k].status == Pending
        && forall j :: 0 <= j < k ==> !OwnedOrder(orderId, user)(s.orders[j])
    ensures r.outcome == Err(OrderNotFound) <==>
      forall k :: 0 <= k < |s.orders| ==> s.orders[k].id != orderId || s.orders[k].userId != user
    ensures r.outcome.Err? && r.outcome.error.NotCancellable? <==>
      exists k :: FirstAt(s.orders, OwnedOrder(orderId, user), k) && s.orders[k].status != Pending
    ensures forall k :: FirstAt(s.orders, OwnedOrder(orderId, user), k) && s.orders[k].status != Pending ==>
      r.outcome == Err(NotCancellable(s.orders[k].status))
    ensures r.outcome.Ok? ==>
      && r.store.orders == WithStatus(s.orders, orderId, Cancelled)
      && r.store == s.(inventory := r.store.inventory, orders := r.store.orders)
      && |r.store.inventory| == |s.inventory|
      && forall i :: 0 <= i < |s.inventory| ==>
           r.store.inventory[i].quantity
             == s.inventory[i].quantity + NetDelta(Release(ItemsOf(s.orderItems, orderId)), s.inventory[i].productId)
  {
    FirstIsFirstAt(s.orders, OwnedOrder(orderId, user));
    match First(s.orders, OwnedOrder(orderId, user))
    case None => Reply(s, Err(OrderNotFound))
    case Some(k) =>
      if s.orders[k].status != Pending then Reply(s, Err(NotCancellable(s.orders[k].status)))
      else
        Reply(s.(inventory := ApplyMoves(s.inventory, Release(ItemsOf(s.orderItems, orderId))),
                 orders := WithStatus(s.orders, orderId, Cancelled)),
              Ok(orderId))
  }

  /** The order lifecycle: pending, processing, shipped, delivered, with cancellation allowed
      only from pending; delivered and cancelled are terminal. */
  predicate Allowed(from: OrderStatus, to: OrderStatus) {
    match from
    case Pending => to == Processing || to == Cancelled
    case Processing => to == Shipped
    case Shipped => to == Delivered
    case Delivered => false
    case Cancelled => false
  }

  /** The status endpoint with the lifecycle enforced: a move outside the graph is rejected with
      both statuses, and a move to cancelled releases the order's stock as cancellation does. */
  function SetStatusChecked(s: Store, orderId: Id, text: string): (r: Reply<StatusChange>)
    ensures r.outcome.Err? ==> r.store == s
    ensures ParseStatus(text).None? <==> r.outcome == Err(InvalidStatus)
    ensures r.outcome == Err(OrderNotFound) <==>
      ParseStatus(text).Some? && forall k :: 0 <= k < |s.orders| ==> s.orders[k].id != orderId
    ensures r.outcome.Ok? <==>
      ParseStatus(text).Some?
      && exists k :: FirstAt(s.orders, HasOrderId(orderId), k) && Allowed(s.orders[k].status, ParseStatus(text).value)
    ensures r.outcome.Err? && r.outcome.error.IllegalTransition? <==>
      ParseStatus(text).Some?
      && exists k :: FirstAt(s.orders, HasOrderId(orderId), k) && !Allowed(s.orders[k].status, ParseStatus(text).value)
    ensures r.outcome.Ok? ==>
      && (exists k :: FirstAt(s.orders, HasOrderId(orderId), k) && r.outcome.value.oldStatus == s.orders[k].status)
      && Allowed(r.outcome.value.oldStatus, r.outcome.value.newStatus)
      && r.outcome.value.newStatus == ParseStatus(text).value
      && r.store.orders == WithStatus(s.orders, orderId, r.outcome.value.newStatus)
      && r.store == s.(inventory := r.store.inventory, orders := r.store.orders)
    ensures r.outcome.Ok? && r.outcome.value.newStatus != Cancelled ==> r.store.inventory == s.inventory
    ensures r.outcome.Err? && r.outcome.error.IllegalTransition? ==>
      exists k :: 0 <= k < |s.orders| && s.orders[k].id == orderId
        && r.outcome.error == IllegalTransition(s.orders[k].status, ParseStatus(text).value)
        && !Allowed(s.orders[k].status, ParseStatus(text).value)
  {
    FirstIsFirstAt(s.orders, HasOrderId(orderId));
    match ParseStatus(text)
    case None => Reply(s, Err(InvalidStatus))
    case Some(st) =>
      match First(s.orders, HasOrderId(orderId))
      case None => Reply(s, Err(OrderNotFound))
      case Some(k) =>
        var from := s.orders[k].status;
        if !Allowed(from, st) then Reply(s, Err(IllegalTransition(from, st)))
        else if st == Cancelled then
          Reply(s.(inventory := ApplyMoves(s.inventory, Release(ItemsOf(s.orderItems, orderId))),
                   orders := WithStatus(s.orders, orderId, st)),
                Ok(StatusChange(orderId, from, st)))
        else Reply(s.(orders := WithStatus(s.orders, orderId, st)), Ok(StatusChange(orderId, from, st)))
  }
}

=== FILE: orders_laws.dfy ===
/** What order creation, cancellation and the status endpoint guarantee: the recorded order
    and its frozen prices, the stock decrement and its exact undoing by cancellation, the
    single-row condition under which stock cannot go negative, and the store invariant. */
module OrderLaws {
  import opened Outcomes
  import opened Tables
  import opened Store
  import opened Ledger
  import opened Pricing
  import opened Cart
  import opened Orders
  import OrderNumber

  function LineAt(p: Id): CartLine -> bool {
    (l: CartLine) => l.productId == p
  }

  /** The units of product `p` that the lines order. */
  function OrderedUnits(lines: seq<CartLine>, p: Id): int {
    SumWhere(lines, LineAt(p), LineQuantity)
  }

  /** The reservation takes off each product exactly the units the lines order of it. */
  lemma {:induction false} ReservationTakesOrderedUnits(lines: seq<CartLine>, p: Id)
    ensures NetDelta(Reservation(lines), p) == -OrderedUnits(lines, p)
    decreases |lines|
  {
    if |lines| > 0 {
      assert Reservation(lines)[1..] == Reservation(lines[1..]);
      ReservationTakesOrderedUnits(lines[1..], p);
    }
  }

  /** With one line per product, the units ordered of `p` are those of its line, or none. */
  lemma OrderedUnitsOfDistinctLines(lines: seq<CartLine>, p: Id)
    requires UniqueBy(lines, LineProductOf)
    ensures forall k :: 0 <= k < |lines| && lines[k].productId == p ==> OrderedUnits(lines, p) == lines[k].quantity
    ensures (forall k :: 0 <= k < |lines| ==> lines[k].productId != p) ==> OrderedUnits(lines, p) == 0
  {
    forall k | 0 <= k < |lines| && lines[k].productId == p ensures OrderedUnits(lines, p) == lines[k].quantity {
      forall j | 0 <= j < |lines| && j != k ensures !LineAt(p)(lines[j]) {
        assert LineProductOf(lines[j]) != LineProductOf(lines[k]);
      }
      SumWhereOnly(lines, LineAt(p), LineQuantity, k);
    }
    if forall k :: 0 <= k < |lines| ==> lines[k].productId != p {
      SumWhereNone(lines, LineAt(p), LineQuantity);
    }
  }

  /** An address given with an order is appended under a fresh id, never as a default, with
      the country defaulted to "USA"; nothing else changes and the invariant is kept. */
  lemma SaveOrderAddressKeepsValid(s: Store, user: Id, kind: AddressType, input: Option<AddressInput>)
    requires Valid(s)
    ensures var (t, id) := SaveOrderAddress(s, user, kind, input);
      && Valid(t)
      && t == s.(addresses := t.addresses, nextId := t.nextId)
      && (input.None? ==> t == s && id.None?)
      && (input.Some? ==>
            && id == Some(s.nextId) && t.nextId == s.nextId + 1
            && t.addresses == s.addresses + [Address(s.nextId, user, kind, input.value.street, input.value.city,
                 input.value.state, input.value.zip, CountryOrDefault(input.value.country), false)])
  {
    if input.Some? {
      var t := SaveOrderAddress(s, user, kind, input).0;
      var row := t.addresses[|s.addresses|];
      assert t.addresses == s.addresses + [row];
      UniqueAppend(s.addresses, row, AddressIdOf);
      assert SingleDefault(t.addresses) by {
        forall i, j | 0 <= i < |t.addresses| && 0 <= j < |t.addresses| && i != j
            && t.addresses[i].isDefault && t.addresses[j].isDefault
          ensures t.addresses[i].userId != t.addresses[j].userId || t.addresses[i].kind != t.addresses[j].kind
        {
          assert i < |s.addresses| && j < |s.addresses|;
          assert t.addresses[i] == s.addresses[i] && t.addresses[j] == s.addresses[j];
        }
      }
    }
  }

  /** The store order creation writes into: the input store with the order's addresses added. */
  function WithOrderAddresses(s: Store, user: Id, shipTo: Option<AddressInput>, billTo: Option<AddressInput>): Store {
    SaveOrderAddress(SaveOrderAddress(s, user, Shipping, shipTo).0, user, Billing, billTo).0
  }

  /** Adding the order's addresses touches only the addresses and the id counter. */
  lemma WithOrderAddressesFrame(s: Store, user: Id, shipTo: Option<AddressInput>, billTo: Option<AddressInput>)
    ensures var t := WithOrderAddresses(s, user, shipTo, billTo);
      t == s.(addresses := t.addresses, nextId := t.nextId) && t.nextId >= s.nextId
  {
  }

  /** Adding the order's addresses keeps the invariant. */
  lemma WithOrderAddressesKeepsValid(s: Store, user: Id, shipTo: Option<AddressInput>, billTo: Option<AddressInput>)
    requires Valid(s)
    ensures Valid(WithOrderAddresses(s, user, shipTo, billTo))
  {
    SaveOrderAddressKeepsValid(s, user, Shipping, shipTo);
    SaveOrderAddressKeepsValid(SaveOrderAddress(s, user, Shipping, shipTo).0, user, Billing, billTo);
  }

  /** A successful creation is exactly the commit of the priced snapshot onto the store with the
      order's addresses added; it happens only for a non-empty snapshot with no short line. */
  lemma CreateCommits(s: Store, user: Id, shipTo: Option<AddressInput>, billTo: Option<AddressInput>,
                      now: nat, randomText: string)
    requires Create(s, user, shipTo, billTo, now, randomText).outcome.Ok?
    ensures var r := Create(s, user, shipTo, billTo, now, randomText);
      var first := SaveOrderAddress(s, user, Shipping, shipTo);
      var second := SaveOrderAddress(first.0, user, Billing, billTo);
      var lines := Snapshot(s, user);
      var number := OrderNumber.Generate(now, randomText);
      && second.0 == WithOrderAddresses(s, user, shipTo, billTo)
      && |lines| > 0 && (forall k :: 0 <= k < |lines| ==> !Short(lines[k]))
      && r.store == Commit(second.0, user, lines, number, PriceOrder(lines), first.1, second.1)
      && r.outcome.value == Receipt(second.0.nextId, number, PriceOrder(lines).totalCents)
  {
  }

  /** A successful creation appends one pending order of the user, under a fresh id, whose
      total is the snapshot's subtotal plus 8% tax plus shipping. */
  lemma CreateRecordsOrder(s: Store, user: Id, shipTo: Option<AddressInput>, billTo: Option<AddressInput>,
                           now: nat, randomText: string)
    requires Create(s, user, shipTo, billTo, now, randomText).outcome.Ok?
    ensures var r := Create(s, user, shipTo, billTo, now, randomText);
      var receipt := r.outcome.value;
      var subtotal := Subtotal(Snapshot(s, user));
      && receipt.orderId >= s.nextId
      && |r.store.orders| == |s.orders| + 1 && r.store.orders[..|s.orders|] == s.orders
      && (var o := r.store.orders[|s.orders|];
          && o.id == receipt.orderId && o.userId == user && o.status == Pending
          && o.number == receipt.orderNumber && receipt.orderNumber[..4] == "ORD-"
          && o.totalCents == receipt.totalCents == subtotal + o.taxCents + o.shippingCents
          && 100 * o.taxCents <= 8 * subtotal + 50 < 100 * o.taxCents + 100
          && (o.shippingCents == 0 <==> subtotal > 5000))
  {
    CreateCommits(s, user, shipTo, billTo, now, randomText);
    WithOrderAddressesFrame(s, user, shipTo, billTo);
  }

  /** A successful creation appends one item per snapshot line, under fresh ids, carrying the
      line's quantity and the product's retail price at that moment; later price changes do
      not reach it. */
  lemma CreateFreezesPrices(s: Store, user: Id, shipTo: Option<AddressInput>, billTo: Option<AddressInput>,
                            now: nat, randomText: string)
    requires Create(s, user, shipTo, billTo, now, randomText).outcome.Ok?
    ensures var r := Create(s, user, shipTo, billTo, now, randomText);
      var lines := Snapshot(s, user);
      && |r.store.orderItems| == |s.orderItems| + |lines|
      && r.store.orderItems[..|s.orderItems|] == s.orderItems
      && forall k :: 0 <= k < |lines| ==>
           var item := r.store.orderItems[|s.orderItems| + k];
           && item.orderId == r.outcome.value.orderId && item.id > r.outcome.value.orderId
           && item.productId == lines[k].productId && item.quantity == lines[k].quantity
           && item.productId in s.products && item.unitPriceCents == s.products[item.productId].priceCents
           && item.totalPriceCents == item.quantity * item.unitPriceCents
  {
    CreateCommits(s, user, shipTo, billTo, now, randomText);
    WithOrderAddressesFrame(s, user, shipTo, billTo);
    var lines := Snapshot(s, user);
    CommitAppendsItems(WithOrderAddresses(s, user, shipTo, billTo), user, lines);
    SnapshotLinesListed(s, user, s.cart);
    forall k | 0 <= k < |lines|
      ensures lines[k].productId in s.products && lines[k].unitPriceCents == s.products[lines[k].productId].priceCents
    {
      assert JoinedFrom(s, user, s.cart, lines[k]);
    }
  }

  /** Committing appends one item per line after the existing ones: item k gets id
      `nextId + 1 + k`, the new order's id `nextId`, and the line's product, quantity and price. */
  lemma CommitAppendsItems(t: Store, user: Id, lines: seq<CartLine>)
    ensures forall number, totals, shipId, billId ::
      var items := Commit(t, user, lines, number, totals, shipId, billId).orderItems;
      && |items| == |t.orderItems| + |lines|
      && items[..|t.orderItems|] == t.orderItems
      && forall k :: 0 <= k < |lines| ==>
           items[|t.orderItems| + k] == OrderItem(t.nextId + 1 + k, t.nextId, lines[k].productId, lines[k].quantity,
                                                  lines[k].unitPriceCents, lines[k].quantity * lines[k].unitPriceCents)
  {
    var added := ItemsFor(lines, t.nextId, t.nextId + 1);
    forall number, totals, shipId, billId
      ensures Commit(t, user, lines, number, totals, shipId, billId).orderItems == t.orderItems + added
    {
    }
    assert (t.orderItems + added)[..|t.orderItems|] == t.orderItems;
    assert forall k :: 0 <= k < |lines| ==> (t.orderItems + added)[|t.orderItems| + k] == added[k];
  }

  /** A successful creation lowers every inventory row by the units the snapshot orders of
      the row's product, and changes nothing else about the rows. */
  lemma CreateDecrementsStock(s: Store, user: Id, shipTo: Option<AddressInput>, billTo: Option<AddressInput>,
                              now: nat, randomText: string)
    requires Create(s, user, shipTo, billTo, now, randomText).outcome.Ok?
    ensures var after := Create(s, user, shipTo, billTo, now, randomText).store.inventory;
      && |after| == |s.inventory|
      && forall i :: 0 <= i < |s.inventory| ==>
           after[i] == s.inventory[i].(quantity := s.inventory[i].quantity
                                                  - OrderedUnits(Snapshot(s, user), s.inventory[i].productId))
  {
    CreateCommits(s, user, shipTo, billTo, now, randomText);
    WithOrderAddressesFrame(s, user, shipTo, billTo);
    var after := Create(s, user, shipTo, billTo, now, randomText).store.inventory;
    assert after == ApplyMoves(s.inventory, Reservation(Snapshot(s, user)));
    forall i | 0 <= i < |s.inventory|
      ensures after[i].quantity == s.inventory[i].quantity - OrderedUnits(Snapshot(s, user), s.inventory[i].productId)
    {
      ReservationTakesOrderedUnits(Snapshot(s, user), s.inventory[i].productId);
    }
  }

  /** A successful creation deletes every cart line of the user, including lines whose product
      is inactive, and keeps every other user's lines; the cart count drops to zero. */
  lemma CreateEmptiesCart(s: Store, user: Id, shipTo: Option<AddressInput>, billTo: Option<AddressInput>,
                          now: nat, randomText: string)
    requires Create(s, user, shipTo, billTo, now, randomText).outcome.Ok?
    ensures var t := Create(s, user, shipTo, billTo, now, randomText).store;
      && (forall i :: 0 <= i < |t.cart| ==> t.cart[i].userId != user && t.cart[i] in s.cart)
      && (forall i :: 0 <= i < |s.cart| && s.cart[i].userId != user ==> s.cart[i] in t.cart)
      && Count(t, user) == 0
  {
    CreateCommits(s, user, shipTo, billTo, now, randomText);
    WithOrderAddressesFrame(s, user, shipTo, billTo);
    var t := Create(s, user, shipTo, billTo, now, randomText).store;
    assert t.cart == Filter(s.cart, NotOwnedBy(user));
    EmptyCartCountsZero(t, user);
  }

  /** When every product has a single inventory row and no stock is negative, creation leaves
      no stock negative: each line was checked against exactly the row it decrements. */
  lemma CreateKeepsStockNonNegative(s: Store, user: Id, shipTo: Option<AddressInput>, billTo: Option<AddressInput>,
                                    now: nat, randomText: string)
    requires Valid(s)
    requires UniqueBy(s.inventory, StockedProductOf)
    requires forall i :: 0 <= i < |s.inventory| ==> s.inventory[i].quantity >= 0
    ensures var after := Create(s, user, shipTo, billTo, now, randomText).store.inventory;
      forall i :: 0 <= i < |after| ==> after[i].quantity >= 0
  {
    var r := Create(s, user, shipTo, billTo, now, randomText);
    if r.outcome.Ok? {
      var lines := Snapshot(s, user);
      CreateCommits(s, user, shipTo, billTo, now, randomText);
      SnapshotDistinctProducts(s, user, s.cart);
      SnapshotLinesListed(s, user, s.cart);
      CreateDecrementsStock(s, user, shipTo, billTo, now, randomText);
      forall i | 0 <= i < |s.inventory| ensures r.store.inventory[i].quantity >= 0 {
        var p := s.inventory[i].productId;
        StockOfSingleRow(s.inventory, i);
        OrderedUnitsOfDistinctLines(lines, p);
        if k :| 0 <= k < |lines| && lines[k].productId == p {
          assert JoinedFrom(s, user, s.cart, lines[k]);
          assert lines[k].available == StockOf(s.inventory, p);
          assert !Short(lines[k]);
        }
      }
    }
  }

  /** Ids of the orders a store already holds are below the id a new order receives, so the
      lookups of the new order find it at the end. */
  lemma FindsAppendedOrder(orders: seq<Order>, o: Order, user: Id)
    requires forall j :: 0 <= j < |orders| ==> orders[j].id != o.id
    requires o.userId == user
    ensures First(orders + [o], OwnedOrder(o.id, user)) == Some(|orders|)
    ensures First(orders + [o], HasOrderId(o.id)) == Some(|orders|)
  {
    var all := orders + [o];
    assert OwnedOrder(o.id, user)(all[|orders|]) && HasOrderId(o.id)(all[|orders|]);
    var k := First(all, OwnedOrder(o.id, user)).value;
    assert all[k].id == o.id;
    var h := First(all, HasOrderId(o.id)).value;
    assert all[h].id == o.id;
  }

  /** Rewriting the status of the appended order leaves the earlier orders alone. */
  lemma RewritesAppendedOrder(orders: seq<Order>, o: Order, st: OrderStatus)
    requires forall j :: 0 <= j < |orders| ==> orders[j].id != o.id
    ensures WithStatus(orders + [o], o.id, st) == orders + [o.(status := st)]
  {
    var all := orders + [o];
    var w := WithStatus(all, o.id, st);
    forall j | 0 <= j < |all| ensures w[j] == (orders + [o.(status := st)])[j] {
      if j < |orders| {
        assert all[j] == orders[j];
      }
    }
  }

  /** The items of a fresh order id are exactly the items appended under it. */
  lemma ItemsOfFreshOrder(existing: seq<OrderItem>, items: seq<OrderItem>, id: Id)
    requires forall j :: 0 <= j < |existing| ==> existing[j].orderId < id
    requires forall j :: 0 <= j < |items| ==> items[j].orderId == id
    ensures ItemsOf(existing + items, id) == items
  {
    FilterAppend(existing, items, InOrder(id));
    FilterNone(existing, InOrder(id));
    FilterAll(items, InOrder(id));
  }

  /** Releasing the items made from the lines puts back exactly what their reservation took. */
  lemma ReleaseMatchesReservation(lines: seq<CartLine>, orderId: Id, firstId: Id)
    ensures Release(ItemsFor(lines, orderId, firstId)) == Negate(Reservation(lines))
  {
    var released := Release(ItemsFor(lines, orderId, firstId));
    var negated := Negate(Reservation(lines));
    forall k | 0 <= k < |lines| ensures released[k] == negated[k] {
      assert ItemsFor(lines, orderId, firstId)[k].quantity == lines[k].quantity;
      assert Reservation(lines)[k].delta == -lines[k].quantity;
    }
  }

  /** The order a commit appends, whose id is the store's next id. */
  function Committed(s: Store, user: Id, number: string, totals: OrderTotals,
                     shipId: Option<Id>, billId: Option<Id>): Order {
    Order(s.nextId, user, number, Pending, totals.totalCents, totals.shippingCents, totals.taxCents, shipId, billId)
  }

  /** The owner's lookup of a freshly committed order finds it at the end, and marking it
      cancelled touches no other order. */
  lemma CommittedOrderIsLast(s: Store, user: Id, lines: seq<CartLine>, number: string, totals: OrderTotals,
                             shipId: Option<Id>, billId: Option<Id>)
    requires AllBelow(s.orders, OrderIdOf, s.nextId)
    ensures var t := Commit(s, user, lines, number, totals, shipId, billId);
      var o := Committed(s, user, number, totals, shipId, billId);
      && t.orders == s.orders + [o]
      && First(t.orders, OwnedOrder(s.nextId, user)) == Some(|s.orders|)
      && WithStatus(t.orders, s.nextId, Cancelled) == s.orders + [o.(status := Cancelled)]
  {
    var o := Committed(s, user, number, totals, shipId, billId);
    forall j | 0 <= j < |s.orders| ensures s.orders[j].id != s.nextId {
      assert OrderIdOf(s.orders[j]) < s.nextId;
    }
    FindsAppendedOrder(s.orders, o, user);
    RewritesAppendedOrder(s.orders, o, Cancelled);
  }

  /** The items of a freshly committed order release exactly what the commit reserved. */
  lemma CommittedItemsRelease(s: Store, user: Id, lines: seq<CartLine>, number: string, totals: OrderTotals,
                              shipId: Option<Id>, billId: Option<Id>)
    requires AllBelow(s.orderItems, ParentOrderOf, s.nextId)
    ensures var t := Commit(s, user, lines, number, totals, shipId, billId);
      Release(ItemsOf(t.orderItems, s.nextId)) == Negate(Reservation(lines))
  {
    var t := Commit(s, user, lines, number, totals, shipId, billId);
    var id := s.nextId;
    var items := ItemsFor(lines, id, id + 1);
    assert t.orderItems == s.orderItems + items;
    forall j | 0 <= j < |s.orderItems| ensures s.orderItems[j].orderId < id {
      assert ParentOrderOf(s.orderItems[j]) < s.nextId;
    }
    ItemsOfFreshOrder(s.orderItems, items, id);
    ReleaseMatchesReservation(lines, id, id + 1);
  }

  /** The owner's cancellation of a freshly committed, still pending order, applied to any store
      holding the commit's orders and items: accepted, it marks the order cancelled and puts
      back the reservation on whatever inventory that store has. */
  lemma CancelCommittedOrder(s: Store, user: Id, lines: seq<CartLine>, number: string, totals: OrderTotals,
                             shipId: Option<Id>, billId: Option<Id>, u: Store)
    requires AllBelow(s.orders, OrderIdOf, s.nextId) && AllBelow(s.orderItems, ParentOrderOf, s.nextId)
    requires u.orders == Commit(s, user, lines, number, totals, shipId, billId).orders
    requires u.orderItems == Commit(s, user, lines, number, totals, shipId, billId).orderItems
    ensures var o := Committed(s, user, number, totals, shipId, billId);
      Cancel(u, s.nextId, user) == Reply(u.(inventory := ApplyMoves(u.inventory, Negate(Reservation(lines))),
                                            orders := s.orders + [o.(status := Cancelled)]), Ok(s.nextId))
  {
    CommittedOrderIsLast(s, user, lines, number, totals, shipId, billId);
    CommittedItemsRelease(s, user, lines, number, totals, shipId, billId);
  }

  /** When every order and item id is below the next id, the owner's cancellation of a freshly
      committed order is accepted, puts back exactly what the commit took off every inventory
      row, and marks the order cancelled. */
  lemma CancelUndoesCommit(s: Store, user: Id, lines: seq<CartLine>, number: string, totals: OrderTotals,
                           shipId: Option<Id>, billId: Option<Id>)
    requires AllBelow(s.orders, OrderIdOf, s.nextId) && AllBelow(s.orderItems, ParentOrderOf, s.nextId)
    ensures var t := Commit(s, user, lines, number, totals, shipId, billId);
      var o := Committed(s, user, number, totals, shipId, billId);
      var c := Cancel(t, s.nextId, user);
      && c.outcome == Ok(s.nextId)
      && c.store == t.(inventory := s.inventory, orders := s.orders + [o.(status := Cancelled)])
  {
    var t := Commit(s, user, lines, number, totals, shipId, billId);
    CancelCommittedOrder(s, user, lines, number, totals, shipId, billId, t);
    ReleaseUndoesReserve(s.inventory, Reservation(lines));
  }

  /** Cancelling an order straight after creating it restores every inventory row to exactly
      its value before the order, and cancelling it again is rejected without a second release. */
  lemma CreateThenCancelRestores(s: Store, user: Id, shipTo: Option<AddressInput>, billTo: Option<AddressInput>,
                                 now: nat, randomText: string)
    requires Valid(s)
    requires Create(s, user, shipTo, billTo, now, randomText).outcome.Ok?
    ensures var created := Create(s, user, shipTo, billTo, now, randomText);
      var id := created.outcome.value.orderId;
      var cancelled := Cancel(created.store, id, user);
      && cancelled.outcome == Ok(id)
      && cancelled.store.inventory == s.inventory
      && Cancel(cancelled.store, id, user) == Reply(cancelled.store, Err(NotCancellable(Cancelled)))
  {
    CreateCommits(s, user, shipTo, billTo, now, randomText);
    WithOrderAddressesFrame(s, user, shipTo, billTo);
    WithOrderAddressesKeepsValid(s, user, shipTo, billTo);
    var first := SaveOrderAddress(s, user, Shipping, shipTo);
    var second := SaveOrderAddress(first.0, user, Billing, billTo);
    var s2 := second.0;
    var lines := Snapshot(s, user);
    var number := OrderNumber.Generate(now, randomText);
    var o := Committed(s2, user, number, PriceOrder(lines), first.1, second.1);
    CancelUndoesCommit(s2, user, lines, number, PriceOrder(lines), first.1, second.1);
    forall j | 0 <= j < |s2.orders| ensures s2.orders[j].id != s2.nextId {
      assert OrderIdOf(s2.orders[j]) < s2.nextId;
    }
    FindsAppendedOrder(s2.orders, o.(status := Cancelled), user);
  }

  /** Rewriting statuses and applying stock moves keeps every id and key, so the invariant. */
  lemma StatusWriteKeepsValid(s: Store, orderId: Id, st: OrderStatus, moves: seq<StockMove>)
    requires Valid(s)
    ensures Valid(s.(inventory := ApplyMoves(s.inventory, moves), orders := WithStatus(s.orders, orderId, st)))
  {
    var inv := ApplyMoves(s.inventory, moves);
    var orders := WithStatus(s.orders, orderId, st);
    UniqueSameKeys(s.inventory, inv, InventoryIdOf);
    UniqueSameKeys(s.inventory, inv, LocationOf);
    UniqueSameKeys(s.orders, orders, OrderIdOf);
  }

  lemma CancelPreservesValid(s: Store, orderId: Id, user: Id)
    requires Valid(s)
    ensures Valid(Cancel(s, orderId, user).store)
  {
    StatusWriteKeepsValid(s, orderId, Cancelled, Release(ItemsOf(s.orderItems, orderId)));
  }

  lemma SetStatusPreservesValid(s: Store, orderId: Id, text: string)
    requires Valid(s)
    ensures Valid(SetStatus(s, orderId, text).store)
  {
    if ParseStatus(text).Some? {
      StatusWriteKeepsValid(s, orderId, ParseStatus(text).value, []);
    }
  }

  lemma SetStatusCheckedPreservesValid(s: Store, orderId: Id, text: string)
    requires Valid(s)
    ensures Valid(SetStatusChecked(s, orderId, text).store)
  {
    if ParseStatus(text).Some? {
      StatusWriteKeepsValid(s, orderId, ParseStatus(text).value, []);
      StatusWriteKeepsValid(s, orderId, ParseStatus(text).value, Release(ItemsOf(s.orderItems, orderId)));
    }
  }

  /** Committing an order keeps the invariant: the order and its items get fresh ids, the
      decrement keeps every inventory key, and deleting cart lines keeps the cart's. */
  lemma CommitKeepsValid(s: Store, user: Id, lines: seq<CartLine>, number: string, totals: OrderTotals,
                         shipId: Option<Id>, billId: Option<Id>)
    requires Valid(s)
    ensures Valid(Commit(s, user, lines, number, totals, shipId, billId))
  {
    var t := Commit(s, user, lines, number, totals, shipId, billId);
    var id := s.nextId;
    var bound := t.nextId;
    UniqueSameKeys(s.inventory, t.inventory, InventoryIdOf);
    UniqueSameKeys(s.inventory, t.inventory, LocationOf);
    FilterUnique(s.cart, NotOwnedBy(user), CartItemIdOf);
    FilterUnique(s.cart, NotOwnedBy(user), CartKeyOf);
    AllBelowFilter(s.cart, NotOwnedBy(user), CartItemIdOf, s.nextId);
    var o := Committed(s, user, number, totals, shipId, billId);
    forall j | 0 <= j < |s.orders| ensures OrderIdOf(s.orders[j]) != OrderIdOf(o) {
      assert OrderIdOf(s.orders[j]) < s.nextId;
    }
    UniqueAppend(s.orders, o, OrderIdOf);
    var items := ItemsFor(lines, id, id + 1);
    assert UniqueBy(items, OrderItemIdOf) by {
      forall a, b | 0 <= a < |items| && 0 <= b < |items| && a != b
        ensures OrderItemIdOf(items[a]) != OrderItemIdOf(items[b]) { }
    }
    forall a, b | 0 <= a < |s.orderItems| && 0 <= b < |items|
      ensures OrderItemIdOf(s.orderItems[a]) != OrderItemIdOf(items[b])
    {
      assert OrderItemIdOf(s.orderItems[a]) < s.nextId;
    }
    UniqueConcat(s.orderItems, items, OrderItemIdOf);
    assert AllBelow(t.orderItems, OrderItemIdOf, bound) && AllBelow(t.orderItems, ParentOrderOf, bound) by {
      forall a | 0 <= a < |t.orderItems|
        ensures OrderItemIdOf(t.orderItems[a]) < bound && ParentOrderOf(t.orderItems[a]) < bound
      {
        if a >= |s.orderItems| {
          assert t.orderItems[a] == items[a - |s.orderItems|];
        } else {
          assert t.orderItems[a] == s.orderItems[a];
        }
      }
    }
  }

  /** Order creation keeps the invariant. */
  lemma CreatePreservesValid(s: Store, user: Id, shipTo: Option<AddressInput>, billTo: Option<AddressInput>,
                             now: nat, randomText: string)
    requires Valid(s)
    ensures Valid(Create(s, user, shipTo, billTo, now, randomText).store)
  {
    if Create(s, user, shipTo, billTo, now, randomText).outcome.Ok? {
      CreateCommits(s, user, shipTo, billTo, now, randomText);
      WithOrderAddressesKeepsValid(s, user, shipTo, billTo);
      var first := SaveOrderAddress(s, user, Shipping, shipTo);
      var second := SaveOrderAddress(first.0, user, Billing, billTo);
      var lines := Snapshot(s, user);
      CommitKeepsValid(second.0, user, lines, OrderNumber.Generate(now, randomText), PriceOrder(lines), first.1, second.1);
    }
  }

  /** The status endpoint applies any of the five statuses to any existing order, whatever its
      current status, and leaves the inventory alone: there is no lifecycle check. */
  lemma StatusEndpointIgnoresLifecycle(s: Store, k: nat, st: OrderStatus)
    requires UniqueBy(s.orders, OrderIdOf) && k < |s.orders|
    ensures var r := SetStatus(s, s.orders[k].id, StatusName(st));
      && r.outcome == Ok(StatusChange(s.orders[k].id, s.orders[k].status, st))
      && r.store.inventory == s.inventory
      && r.store.orders[k].status == st
  {
    var id := s.orders[k].id;
    StatusRoundTrip(st);
    var j := First(s.orders, HasOrderId(id)).value;
    assert OrderIdOf(s.orders[j]) == OrderIdOf(s.orders[k]);
  }

  /** With the order cancelled, the status endpoint can reopen it, and the owner can then cancel
      it a second time: every inventory row ends up above its value before the order by the
      units the order took. */
  lemma ReopenedOrderReleasesTwice(s: Store, user: Id, shipTo: Option<AddressInput>, billTo: Option<AddressInput>,
                                   now: nat, randomText: string)
    requires Valid(s)
    requires Create(s, user, shipTo, billTo, now, randomText).outcome.Ok?
    ensures var created := Create(s, user, shipTo, billTo, now, randomText);
      var id := created.outcome.value.orderId;
      var cancelled := Cancel(created.store, id, user);
      var reopened := SetStatus(cancelled.store, id, "pending");
      var again := Cancel(reopened.store, id, user);
      && cancelled.outcome.Ok? && reopened.outcome.Ok? && again.outcome == Ok(id)
      && |again.store.inventory| == |s.inventory|
      && forall i :: 0 <= i < |s.inventory| ==>
           again.store.inventory[i].quantity
             == s.inventory[i].quantity + OrderedUnits(Snapshot(s, user), s.inventory[i].productId)
  {
    var created := Create(s, user, shipTo, billTo, now, randomText);
    var first := SaveOrderAddress(s, user, Shipping, shipTo);
    var second := SaveOrderAddress(first.0, user, Billing, billTo);
    var s2 := second.0;
    var lines := Snapshot(s, user);
    var number := OrderNumber.Generate(now, randomText);
    assert created.store == Commit(s2, user, lines, number, PriceOrder(lines), first.1, second.1)
        && created.outcome.value.orderId == s2.nextId
        && s2.inventory == s.inventory && Valid(s2) by {
      CreateCommits(s, user, shipTo, billTo, now, randomText);
      WithOrderAddressesFrame(s, user, shipTo, billTo);
      WithOrderAddressesKeepsValid(s, user, shipTo, billTo);
    }
    ReopenAfterCommit(s2, user, lines, number, PriceOrder(lines), first.1, second.1);
    var restoredTwice := ApplyMoves(s.inventory, Negate(Reservation(lines)));
    forall i | 0 <= i < |s.inventory|
      ensures restoredTwice[i].quantity == s.inventory[i].quantity + OrderedUnits(lines, s.inventory[i].productId)
    {
      NetDeltaNegate(Reservation(lines), s.inventory[i].productId);
      ReservationTakesOrderedUnits(lines, s.inventory[i].productId);
    }
  }

  /** Cancel, reopen and cancel again, at the level of the commit: the second cancellation
      applies the release to an inventory already restored. */
  lemma ReopenAfterCommit(s: Store, user: Id, lines: seq<CartLine>, number: string, totals: OrderTotals,
                          shipId: Option<Id>, billId: Option<Id>)
    requires AllBelow(s.orders, OrderIdOf, s.nextId) && AllBelow(s.orderItems, ParentOrderOf, s.nextId)
    ensures var t := Commit(s, user, lines, number, totals, shipId, billId);
      var cancelled := Cancel(t, s.nextId, user);
      var reopened := SetStatus(cancelled.store, s.nextId, "pending");
      var again := Cancel(reopened.store, s.nextId, user);
      && cancelled.outcome.Ok? && reopened.outcome.Ok? && again.outcome == Ok(s.nextId)
      && again.store.inventory == ApplyMoves(s.inventory, Negate(Reservation(lines)))
  {
    var t := Commit(s, user, lines, number, totals, shipId, billId);
    var id := s.nextId;
    var o := Committed(s, user, number, totals, shipId, billId);
    CancelUndoesCommit(s, user, lines, number, totals, shipId, billId);
    var cancelled := Cancel(t, id, user).store;
    assert SetStatus(cancelled, id, "pending") == Reply(t.(inventory := s.inventory), Ok(StatusChange(id, Cancelled, Pending))) by {
      forall j | 0 <= j < |s.orders| ensures s.orders[j].id != id {
        assert OrderIdOf(s.orders[j]) < s.nextId;
      }
      FindsAppendedOrder(s.orders, o.(status := Cancelled), user);
      RewritesAppendedOrder(s.orders, o.(status := Cancelled), Pending);
      assert o.(status := Cancelled).(status := Pending) == o;
      CommittedOrderIsLast(s, user, lines, number, totals, shipId, billId);
    }
    CancelCommittedOrder(s, user, lines, number, totals, shipId, billId, t.(inventory := s.inventory));
  }

  /** With the lifecycle enforced, a cancelled order is terminal: neither the status endpoint
      nor cancellation accepts it, so its stock is released at most once. */
  lemma CheckedCancelledIsTerminal(s: Store, k: nat, user: Id, text: string)
    requires UniqueBy(s.orders, OrderIdOf) && k < |s.orders| && s.orders[k].status == Cancelled
    ensures var r := SetStatusChecked(s, s.orders[k].id, text);
      r.outcome.Err? && r.store == s
    ensures var c := Cancel(s, s.orders[k].id, user);
      c.outcome.Err? && c.store == s
  {
    var id := s.orders[k].id;
    match First(s.orders, HasOrderId(id)) {
      case None =>
      case Some(j) => assert OrderIdOf(s.orders[j]) == OrderIdOf(s.orders[k]);
    }
    match First(s.orders, OwnedOrder(id, user)) {
      case None =>
      case Some(j) => assert OrderIdOf(s.orders[j]) == OrderIdOf(s.orders[k]);
    }
  }

  /** With the lifecycle enforced, the reopening of a freshly cancelled order is rejected, so
      the stock released by its cancellation cannot be released again. */
  lemma CheckedReopenRejected(s: Store, user: Id, shipTo: Option<AddressInput>, billTo: Option<AddressInput>,
                              now: nat, randomText: string, text: string)
    requires Valid(s)
    requires Create(s, user, shipTo, billTo, now, randomText).outcome.Ok?
    ensures var created := Create(s, user, shipTo, billTo, now, randomText);
      var id := created.outcome.value.orderId;
      var cancelled := Cancel(created.store, id, user);
      var reopened := SetStatusChecked(cancelled.store, id, text);
      && cancelled.store.inventory == s.inventory
      && reopened.outcome.Err? && reopened.store == cancelled.store
      && Cancel(reopened.store, id, user).store == cancelled.store
  {
    var created := Create(s, user, shipTo, billTo, now, randomText);
    var id := created.outcome.value.orderId;
    CreateThenCancelRestores(s, user, shipTo, billTo, now, randomText);
    CreatePreservesValid(s, user, shipTo, billTo, now, randomText);
    CancelPreservesValid(created.store, id, user);
    var cancelled := Cancel(created.store, id, user).store;
    CreatedOrderIndex(s, user, shipTo, billTo, now, randomText);
    CheckedCancelledIsTerminal(cancelled, |s.orders|, user, text);
  }

  /** After creating and cancelling, the order sits after the orders the store held, cancelled. */
  lemma CreatedOrderIndex(s: Store, user: Id, shipTo: Option<AddressInput>, billTo: Option<AddressInput>,
                          now: nat, randomText: string)
    requires Valid(s)
    requires Create(s, user, shipTo, billTo, now, randomText).outcome.Ok?
    ensures var created := Create(s, user, shipTo, billTo, now, randomText);
      var id := created.outcome.value.orderId;
      var cancelled := Cancel(created.store, id, user).store;
      |s.orders| < |cancelled.orders| && cancelled.orders[|s.orders|].id == id
        && cancelled.orders[|s.orders|].status == Cancelled
  {
    CreateCommits(s, user, shipTo, billTo, now, randomText);
    WithOrderAddressesFrame(s, user, shipTo, billTo);
    WithOrderAddressesKeepsValid(s, user, shipTo, billTo);
    var first := SaveOrderAddress(s, user, Shipping, shipTo);
    var second := SaveOrderAddress(first.0, user, Billing, billTo);
    var lines := Snapshot(s, user);
    CancelUndoesCommit(second.0, user, lines, OrderNumber.Generate(now, randomText), PriceOrder(lines), first.1, second.1);
  }

  /** Two distribution centres holding 3 and 0 units of product 1, and user 7's cart line of
      3 units of it. */
  function TwoCentreStore(): Store {
    Store(map[1 := Product(true, 100, 50)], {1, 2},
          [InventoryRecord(1, 1, 1, 3, 0, 10), InventoryRecord(2, 1, 2, 0, 0, 10)],
          [CartItem(3, 7, 1, 3)], [], [], [], [], 4)
  }

  lemma TwoCentreSnapshot()
    ensures Valid(TwoCentreStore())
    ensures StockOf(TwoCentreStore().inventory, 1) == 3
    ensures Snapshot(TwoCentreStore(), 7) == [CartLine(3, 1, 3, 100, 3)]
  {
    var s := TwoCentreStore();
    TwoCentreStoreValid();
    assert s.inventory[1..][1..] == [];
    assert StockOf(s.inventory, 1) == 3;
    assert s.cart[1..] == [];
    assert Listed(s, 7, s.cart[0]);
    assert LineOf(s, s.cart[0]) == CartLine(3, 1, 3, 100, 3);
  }

  lemma TwoCentreStoreValid()
    ensures Valid(TwoCentreStore())
  {
    var s := TwoCentreStore();
    assert UniqueBy(s.inventory, InventoryIdOf) && UniqueBy(s.inventory, LocationOf);
    assert UniqueBy(s.cart, CartKeyOf) && CartQuantitiesPositive(s.cart);
  }

  /** A cart line of 3 passes the check against the stock summed over both centres, and
      creation takes 3 off both rows: the second centre goes to -3 and the summed stock falls
      by 6 for an order of 3. */
  lemma MultiRowOversell()
    ensures var r := Create(TwoCentreStore(), 7, None, None, 0, "");
      && r.outcome.Ok?
      && r.store.inventory[0].quantity == 0 && r.store.inventory[1].quantity == -3
      && StockOf(r.store.inventory, 1) == -3
  {
    var s := TwoCentreStore();
    TwoCentreSnapshot();
    var line := CartLine(3, 1, 3, 100, 3);
    assert !Short(line);
    TwoCentreCreateOk();
    var r := Create(s, 7, None, None, 0, "");
    CreateDecrementsStock(s, 7, None, None, 0, "");
    assert OrderedUnits([line], 1) == 3;
    var after := r.store.inventory;
    TwoRowStock(after);
  }

  lemma TwoCentreCreateOk()
    ensures Create(TwoCentreStore(), 7, None, None, 0, "").outcome.Ok?
  {
    TwoCentreSnapshot();
    assert !Short(CartLine(3, 1, 3, 100, 3));
  }

  /** The summed stock of product 1 over two rows of product 1. */
  lemma TwoRowStock(rows: seq<InventoryRecord>)
    requires |rows| == 2 && rows[0].productId == 1 && rows[1].productId == 1
    ensures StockOf(rows, 1) == rows[0].quantity + rows[1].quantity
  {
    var tail := rows[1..];
    assert tail[0] == rows[1] && tail[1..] == [];
    assert SumWhere(tail[1..], AtProduct(1), Quantity) == 0;
    assert SumWhere(tail, AtProduct(1), Quantity) == rows[1].quantity;
  }
}

=== FILE: outcomes.dfy ===
/** Optional values and success/failure results shared by every handler of the model. */
module Outcomes {

  /** A value that may be absent: an optional request field (`undefined` in the request body)
      or a row that a query did not find. */
  datatype Option<+T> = None | Some(value: T) {

    /** The value, or `default` when absent: a JavaScript destructuring default. */
    function GetOr(default: T): T {
      match this
      case Some(v) => v
      case None => default
    }
  }

  /** The outcome of one request: a payload on success or an error describing the rejection. */
  datatype Result<+T, +E> = Ok(value: T) | Err(error: E)
}

=== FILE: pricing.dfy ===
/** Money for carts and orders, in integer cents. The handlers compute in JavaScript floating
    point and format with `toFixed(2)`; here every amount is a whole number of cents and each
    rounded field is rounded once, half up, to the nearest cent. */
module Pricing {
  import opened Tables
  import opened Store

  const TaxPercent: nat := 8
  /** Orders with a subtotal strictly above $50.00 ship free. */
  const FreeShippingAboveCents: int := 5000
  const FlatShippingCents: int := 999

  /** `amount * percent / 100`, rounded to the nearest cent with halves rounded up. */
  function PercentOf(amount: int, percent: nat): (r: int)
    ensures 100 * r <= amount * percent + 50 < 100 * r + 100
  {
    (amount * percent + 50) / 100
  }

  /** Sales tax: 8% of the subtotal, within half a cent. */
  function Tax(subtotal: int): (t: int)
    ensures 100 * t <= 8 * subtotal + 50 < 100 * t + 100
  {
    PercentOf(subtotal, TaxPercent)
  }

  /** Flat-rate shipping, waived only when the subtotal is strictly above the threshold. */
  function ShippingFor(subtotal: int): (c: int)
    ensures c == 0 <==> subtotal > 5000
    ensures c == 0 || c == 999
  {
    if subtotal > FreeShippingAboveCents then 0 else FlatShippingCents
  }

  function AnyLine(l: CartLine): bool { true }
  function LineTotal(l: CartLine): int { l.quantity * l.unitPriceCents }
  function LineQuantity(l: CartLine): int { l.quantity }

  /** Sum of quantity times current retail price over the lines. */
  function Subtotal(lines: seq<CartLine>): int {
    SumWhere(lines, AnyLine, LineTotal)
  }

  /** Sum of the quantities over the lines. */
  function ItemCount(lines: seq<CartLine>): int {
    SumWhere(lines, AnyLine, LineQuantity)
  }

  datatype OrderTotals = OrderTotals(subtotalCents: int, taxCents: int, shippingCents: int, totalCents: int)

  /** The totals order creation stores: the grand total is exactly the subtotal plus the
      rounded tax plus shipping, the tax is 8% of the subtotal to within half a cent, and
      shipping is free exactly when the subtotal is above $50.00. */
  function PriceOrder(lines: seq<CartLine>): (t: OrderTotals)
    ensures t.subtotalCents == Subtotal(lines)
    ensures t.totalCents == t.subtotalCents + t.taxCents + t.shippingCents
    ensures 100 * t.taxCents <= 8 * t.subtotalCents + 50 < 100 * t.taxCents + 100
    ensures t.shippingCents == 0 <==> t.subtotalCents > 5000
    ensures t.shippingCents == 0 || t.shippingCents == 999
  {
    var subtotal := Subtotal(lines);
    var tax := Tax(subtotal);
    var shipping := ShippingFor(subtotal);
    OrderTotals(subtotal, tax, shipping, subtotal + tax + shipping)
  }

  datatype CartTotals = CartTotals(itemCount: int, subtotalCents: int, taxCents: int, totalCents: int)

  /** The cart summary: 8% tax and a total of 108% of the subtotal, with no shipping.
      The total is computed from the subtotal on its own, yet it always equals the subtotal
      plus the rounded tax. */
  function PriceCart(lines: seq<CartLine>): (t: CartTotals)
    ensures t.itemCount == ItemCount(lines) && t.subtotalCents == Subtotal(lines)
    ensures t.totalCents == t.subtotalCents + t.taxCents
    ensures 100 * t.totalCents <= 108 * t.subtotalCents + 50 < 100 * t.totalCents + 100
  {
    var subtotal := Subtotal(lines);
    CartTotals(ItemCount(lines), subtotal, Tax(subtotal), PercentOf(subtotal, 108))
  }

  /** With every quantity and price non-negative the subtotal is non-negative, and so are the
      tax and the total. */
  lemma TotalsNonNegative(lines: seq<CartLine>)
    requires forall k :: 0 <= k < |lines| ==> lines[k].quantity >= 0 && lines[k].unitPriceCents >= 0
    ensures PriceOrder(lines).subtotalCents >= 0 && PriceOrder(lines).taxCents >= 0
    ensures PriceOrder(lines).totalCents >= PriceOrder(lines).subtotalCents
  {
    SumWhereNonNegative(lines, AnyLine, LineTotal);
  }

  /** The worked example: two units at $10.00 and one at $5.00 come to $25.00, $2.00 tax,
      $9.99 shipping and $36.99 in all. */
  lemma WorkedExample()
    ensures var t := PriceOrder([CartLine(1, 10, 2, 1000, 5), CartLine(2, 20, 1, 500, 5)]);
      t == OrderTotals(2500, 200, 999, 3699)
  {
    var lines := [CartLine(1, 10, 2, 1000, 5), CartLine(2, 20, 1, 500, 5)];
    assert lines[1..][1..] == [];
    assert Subtotal(lines) == 2500;
  }
}

=== FILE: store.dfy ===
/** The database the route handlers share, as one immutable value: products, distribution
    centres, the inventory ledger, cart lines, orders with their items, addresses and users.
    Every handler is a pure transition from a `Store` to a `Reply`. */
module Store {
  import opened Outcomes
  import opened Tables

  /** A row id handed out by the database's autoincrement; 0 never names a row and stands for
      an absent or falsy id in a request. */
  type Id = nat

  /** A catalogue product: only its active flag, retail price and unit cost matter here. */
  datatype Product = Product(active: bool, priceCents: int, costCents: int)

  /** Stock of one product at one distribution centre, with its reorder thresholds.
      The quantity is an `int` because order creation can drive it below zero. */
  datatype InventoryRecord = InventoryRecord(
    id: Id, productId: Id, centreId: Id, quantity: int, minLevel: int, maxLevel: int)

  /** One line of a shopper's cart. */
  datatype CartItem = CartItem(id: Id, userId: Id, productId: Id, quantity: int)

  /** The five statuses the status endpoint accepts. */
  datatype OrderStatus = Pending | Processing | Shipped | Delivered | Cancelled

  /** An order header; money in cents. */
  datatype Order = Order(
    id: Id, userId: Id, number: string, status: OrderStatus,
    totalCents: int, shippingCents: int, taxCents: int,
    shippingAddressId: Option<Id>, billingAddressId: Option<Id>)

  /** A purchased line, with the unit price frozen at the time of purchase. */
  datatype OrderItem = OrderItem(
    id: Id, orderId: Id, productId: Id, quantity: int, unitPriceCents: int, totalPriceCents: int)

  /** A cart line joined with its product's current retail price and with the product's stock
      summed across distribution centres, as the cart and order queries read it. */
  datatype CartLine = CartLine(
    cartItemId: Id, productId: Id, quantity: int, unitPriceCents: int, available: int)

  datatype AddressType = Shipping | Billing

  datatype Address = Address(
    id: Id, userId: Id, kind: AddressType, street: string, city: string, state: string,
    zip: string, country: string, isDefault: bool)

  /** A registered user; the password hash is produced outside the model. */
  datatype User = User(
    id: Id, email: string, passwordHash: string, firstName: string, lastName: string,
    phone: Option<string>)

  datatype Store = Store(
    products: map<Id, Product>,
    centres: set<Id>,
    inventory: seq<InventoryRecord>,
    cart: seq<CartItem>,
    orders: seq<Order>,
    orderItems: seq<OrderItem>,
    addresses: seq<Address>,
    users: seq<User>,
    nextId: Id)

  /** The rejections the handlers report, one per distinct error response. */
  datatype Error =
    | CartEmpty
    | InsufficientStock(productId: Id, requested: int, available: int)
    | MergeExceedsStock(available: int, currentInCart: int)
    | InvalidStatus
    | OrderNotFound
    | NotCancellable(currentStatus: OrderStatus)
    | IllegalTransition(fromStatus: OrderStatus, toStatus: OrderStatus)
    | InventoryNotFound
    | NegativeQuantity
    | NegativeMinimum
    | NegativeMaximum
    | NegativeLevels
    | MinAboveMax
    | NoFieldsToUpdate
    | IdsRequired
    | ProductNotFound
    | CentreNotFound
    | RecordExists(inventoryId: Id)
    | ZeroAdjustment
    | NegativeResult(currentQuantity: int, adjustment: int, resulting: int)
    | MissingProductId
    | QuantityBelowOne
    | CartItemNotFound
    | ValidationFailed
    | EmailTaken
    | AddressNotFound

  /** What a handler leaves behind: the store after the request and the response. */
  datatype Reply<+T> = Reply(store: Store, outcome: Result<T, Error>)

  /** A product that exists and is active (`JOIN products ... WHERE is_active = 1`). */
  predicate ActiveProduct(products: map<Id, Product>, p: Id) {
    p in products && products[p].active
  }

  // Key projections used by the UNIQUE constraints below.
  function InventoryIdOf(r: InventoryRecord): Id { r.id }
  function LocationOf(r: InventoryRecord): (Id, Id) { (r.productId, r.centreId) }
  function StockedProductOf(r: InventoryRecord): Id { r.productId }
  function CartItemIdOf(c: CartItem): Id { c.id }
  function CartKeyOf(c: CartItem): (Id, Id) { (c.userId, c.productId) }
  function OrderIdOf(o: Order): Id { o.id }
  function OrderItemIdOf(i: OrderItem): Id { i.id }
  function ParentOrderOf(i: OrderItem): Id { i.orderId }
  function AddressIdOf(a: Address): Id { a.id }
  function UserIdOf(u: User): Id { u.id }
  function EmailOf(u: User): string { u.email }

  /** At most one default address per (user, type). */
  ghost predicate SingleDefault(addresses: seq<Address>) {
    forall i, j ::
      0 <= i < |addresses| && 0 <= j < |addresses| && i != j &&
      addresses[i].isDefault && addresses[j].isDefault ==>
        addresses[i].userId != addresses[j].userId || addresses[i].kind != addresses[j].kind
  }

  /** Every cart line holds at least one unit. */
  ghost predicate CartQuantitiesPositive(cart: seq<CartItem>) {
    forall i :: 0 <= i < |cart| ==> cart[i].quantity >= 1
  }

  /** Inventory ids are unique and issued; (product, centre) is unique. */
  ghost predicate InventoryValid(inv: seq<InventoryRecord>, bound: Id) {
    UniqueBy(inv, InventoryIdOf) && AllBelow(inv, InventoryIdOf, bound) && UniqueBy(inv, LocationOf)
  }

  /** Cart ids are unique and issued; a user has at most one line per product; no line is empty. */
  ghost predicate CartValid(cart: seq<CartItem>, bound: Id) {
    UniqueBy(cart, CartItemIdOf) && AllBelow(cart, CartItemIdOf, bound) && UniqueBy(cart, CartKeyOf)
    && CartQuantitiesPositive(cart)
  }

  /** Order and order-item ids are unique and issued, and every item points at an issued order id. */
  ghost predicate OrdersValid(orders: seq<Order>, items: seq<OrderItem>, bound: Id) {
    UniqueBy(orders, OrderIdOf) && AllBelow(orders, OrderIdOf, bound)
    && UniqueBy(items, OrderItemIdOf) && AllBelow(items, OrderItemIdOf, bound)
    && AllBelow(items, ParentOrderOf, bound)
  }

  /** Address ids are unique and issued; each user has at most one default address per type. */
  ghost predicate AddressesValid(addresses: seq<Address>, bound: Id) {
    UniqueBy(addresses, AddressIdOf) && AllBelow(addresses, AddressIdOf, bound) && SingleDefault(addresses)
  }

  /** User ids are unique and issued; emails are unique. */
  ghost predicate UsersValid(users: seq<User>, bound: Id) {
    UniqueBy(users, UserIdOf) && AllBelow(users, UserIdOf, bound) && UniqueBy(users, EmailOf)
  }

  /** The invariant every handler keeps. */
  ghost predicate Valid(s: Store) {
    && InventoryValid(s.inventory, s.nextId)
    && CartValid(s.cart, s.nextId)
    && OrdersValid(s.orders, s.orderItems, s.nextId)
    && AddressesValid(s.addresses, s.nextId)
    && UsersValid(s.users, s.nextId)
  }

  /** Handing out more ids keeps the invariant. */
  lemma RaiseNextId(s: Store, n: Id)
    requires Valid(s) && n >= s.nextId
    ensures Valid(s.(nextId := n))
  {
  }
}

=== FILE: tables.dfy ===
/** Generic operations over database tables held as sequences of rows: the SQL
    `SELECT ... LIMIT 1`, `DELETE ... WHERE`, `SUM(...) WHERE` and `UNIQUE` constraints
    that the route handlers rely on. */
module Tables {
  import opened Outcomes

  /** The position of the first row satisfying `matches`: what a `database.get` query returns. */
  function First<T>(rows: seq<T>, matches: T -> bool): (r: Option<nat>)
    ensures r.Some? ==> r.value < |rows| && matches(rows[r.value])
    ensures r.Some? ==> forall j :: 0 <= j < r.value ==> !matches(rows[j])
    ensures r.None? <==> forall j :: 0 <= j < |rows| ==> !matches(rows[j])
    decreases |rows|
  {
    if |rows| == 0 then None
    else if matches(rows[0]) then Some(0)
    else match First(rows[1..], matches)
      case None => None
      case Some(k) => Some(k + 1)
  }

  /** Row `k` is the first row satisfying `matches`: the row a `database.get` query reads. */
  predicate FirstAt<T>(rows: seq<T>, matches: T -> bool, k: int) {
    0 <= k < |rows| && matches(rows[k]) && forall j :: 0 <= j < k ==> !matches(rows[j])
  }

  /** `First` finds exactly the first matching row. */
  lemma FirstIsFirstAt<T>(rows: seq<T>, matches: T -> bool)
    ensures forall k :: FirstAt(rows, matches, k) <==> First(rows, matches) == Some(k)
  {
  }

  /** The rows kept by `keep`, in their original order: the table left by `DELETE ... WHERE !keep`. */
  function Filter<T>(rows: seq<T>, keep: T -> bool): (r: seq<T>)
    ensures |r| <= |rows|
    ensures forall i :: 0 <= i < |r| ==> r[i] in rows && keep(r[i])
    ensures forall i :: 0 <= i < |rows| && keep(rows[i]) ==> rows[i] in r
    decreases |rows|
  {
    if |rows| == 0 then []
    else (if keep(rows[0]) then [rows[0]] else []) + Filter(rows[1..], keep)
  }

  /** `SUM(f) WHERE keep`, with an empty sum of 0 (SQL `COALESCE(SUM(...), 0)`). */
  function SumWhere<T>(rows: seq<T>, keep: T -> bool, f: T -> int): int
    decreases |rows|
  {
    if |rows| == 0 then 0
    else (if keep(rows[0]) then f(rows[0]) else 0) + SumWhere(rows[1..], keep, f)
  }

  /** `SUM(CASE WHEN keep THEN 1 ELSE 0 END)`. */
  function CountWhere<T>(rows: seq<T>, keep: T -> bool): nat
    decreases |rows|
  {
    if |rows| == 0 then 0
    else (if keep(rows[0]) then 1 else 0) + CountWhere(rows[1..], keep)
  }

  /** A `UNIQUE(key)` constraint: no two rows share a key. */
  ghost predicate UniqueBy<T, K>(rows: seq<T>, key: T -> K) {
    forall i, j :: 0 <= i < |rows| && 0 <= j < |rows| && i != j ==> key(rows[i]) != key(rows[j])
  }

  /** Every key is below `bound`: the autoincrement counter has not yet handed out these keys. */
  ghost predicate AllBelow<T>(rows: seq<T>, key: T -> nat, bound: nat) {
    forall i :: 0 <= i < |rows| ==> key(rows[i]) < bound
  }

  lemma {:induction false} SumWhereAppend<T>(a: seq<T>, b: seq<T>, keep: T -> bool, f: T -> int)
    ensures SumWhere(a + b, keep, f) == SumWhere(a, keep, f) + SumWhere(b, keep, f)
    decreases |a|
  {
    if |a| > 0 {
      assert (a + b)[1..] == a[1..] + b;
      SumWhereAppend(a[1..], b, keep, f);
    } else {
      assert a + b == b;
    }
  }

  lemma {:induction false} SumWhereNone<T>(rows: seq<T>, keep: T -> bool, f: T -> int)
    requires forall j :: 0 <= j < |rows| ==> !keep(rows[j])
    ensures SumWhere(rows, keep, f) == 0
    decreases |rows|
  {
    if |rows| > 0 {
      SumWhereNone(rows[1..], keep, f);
    }
  }

  /** When exactly one row is kept the sum is that row's value. */
  lemma {:induction false} SumWhereOnly<T>(rows: seq<T>, keep: T -> bool, f: T -> int, k: nat)
    requires k < |rows| && keep(rows[k])
    requires forall j :: 0 <= j < |rows| && j != k ==> !keep(rows[j])
    ensures SumWhere(rows, keep, f) == f(rows[k])
    decreases |rows|
  {
    if k == 0 {
      SumWhereNone(rows[1..], keep, f);
    } else {
      SumWhereOnly(rows[1..], keep, f, k - 1);
    }
  }

  lemma {:induction false} SumWhereNonNegative<T>(rows: seq<T>, keep: T -> bool, f: T -> int)
    requires forall j :: 0 <= j < |rows| && keep(rows[j]) ==> f(rows[j]) >= 0
    ensures SumWhere(rows, keep, f) >= 0
    decreases |rows|
  {
    if |rows| > 0 {
      SumWhereNonNegative(rows[1..], keep, f);
    }
  }

  lemma {:induction false} FilterAppend<T>(a: seq<T>, b: seq<T>, keep: T -> bool)
    ensures Filter(a + b, keep) == Filter(a, keep) + Filter(b, keep)
    decreases |a|
  {
    if |a| > 0 {
      assert (a + b)[1..] == a[1..] + b;
      FilterAppend(a[1..], b, keep);
    } else {
      assert a + b == b;
    }
  }

  lemma {:induction false} FilterAll<T>(rows: seq<T>, keep: T -> bool)
    requires forall j :: 0 <= j < |rows| ==> keep(rows[j])
    ensures Filter(rows, keep) == rows
    decreases |rows|
  {
    if |rows| > 0 {
      FilterAll(rows[1..], keep);
      assert [rows[0]] + rows[1..] == rows;
    }
  }

  lemma {:induction false} FilterNone<T>(rows: seq<T>, keep: T -> bool)
    requires forall j :: 0 <= j < |rows| ==> !keep(rows[j])
    ensures Filter(rows, keep) == []
    decreases |rows|
  {
    if |rows| > 0 {
      FilterNone(rows[1..], keep);
    }
  }

  /** A filtered table is a sub-sequence of the original, so it keeps every UNIQUE constraint. */
  lemma {:induction false} FilterUnique<T, K>(rows: seq<T>, keep: T -> bool, key: T -> K)
    requires UniqueBy(rows, key)
    ensures UniqueBy(Filter(rows, keep), key)
    decreases |rows|
  {
    if |rows| > 0 {
      var rest := Filter(rows[1..], keep);
      assert UniqueBy(rows[1..], key) by {
        forall i, j | 0 <= i < |rows[1..]| && 0 <= j < |rows[1..]| && i != j
          ensures key(rows[1..][i]) != key(rows[1..][j])
        {
          assert rows[1..][i] == rows[i + 1] && rows[1..][j] == rows[j + 1];
        }
      }
      FilterUnique(rows[1..], keep, key);
      if keep(rows[0]) {
        forall x | x in rest ensures key(x) != key(rows[0]) {
          var i :| 0 <= i < |rows[1..]| && rows[1..][i] == x;
          assert rows[1..][i] == rows[i + 1];
        }
        var r := [rows[0]] + rest;
        forall i, j | 0 <= i < |r| && 0 <= j < |r| && i != j ensures key(r[i]) != key(r[j]) {
          if i > 0 && j > 0 {
            assert r[i] == rest[i - 1] && r[j] == rest[j - 1];
          } else if i == 0 {
            assert r[j] == rest[j - 1] && r[j] in rest;
          } else {
            assert r[i] == rest[i - 1] && r[i] in rest;
          }
        }
      }
    }
  }

  lemma AllBelowFilter<T>(rows: seq<T>, keep: T -> bool, key: T -> nat, bound: nat)
    requires AllBelow(rows, key, bound)
    ensures AllBelow(Filter(rows, keep), key, bound)
  {
    var r := Filter(rows, keep);
    forall i | 0 <= i < |r| ensures key(r[i]) < bound {
      assert r[i] in rows;
    }
  }

  /** Appending a row whose key is new keeps a UNIQUE constraint. */
  lemma UniqueAppend<T, K>(rows: seq<T>, x: T, key: T -> K)
    requires UniqueBy(rows, key)
    requires forall j :: 0 <= j < |rows| ==> key(rows[j]) != key(x)
    ensures UniqueBy(rows + [x], key)
  {
    var r := rows + [x];
    forall i, j | 0 <= i < |r| && 0 <= j < |r| && i != j ensures key(r[i]) != key(r[j]) {
      if i < |rows| && j < |rows| {
        assert r[i] == rows[i] && r[j] == rows[j];
      }
    }
  }

  /** Two tables with UNIQUE keys and no key in common concatenate to a table with UNIQUE keys. */
  lemma UniqueConcat<T, K>(a: seq<T>, b: seq<T>, key: T -> K)
    requires UniqueBy(a, key) && UniqueBy(b, key)
    requires forall i, j :: 0 <= i < |a| && 0 <= j < |b| ==> key(a[i]) != key(b[j])
    ensures UniqueBy(a + b, key)
  {
    var r := a + b;
    forall i, j | 0 <= i < |r| && 0 <= j < |r| && i != j ensures key(r[i]) != key(r[j]) {
      if i < |a| && j < |a| {
        assert r[i] == a[i] && r[j] == a[j];
      } else if i >= |a| && j >= |a| {
        assert r[i] == b[i - |a|] && r[j] == b[j - |a|];
      } else if i < |a| {
        assert r[i] == a[i] && r[j] == b[j - |a|];
      } else {
        assert r[j] == a[j] && r[i] == b[i - |a|];
      }
    }
  }

  /** An update that leaves every row's key alone keeps a UNIQUE constraint. */
  lemma UniqueSameKeys<T, K>(a: seq<T>, b: seq<T>, key: T -> K)
    requires UniqueBy(a, key)
    requires |a| == |b| && forall i :: 0 <= i < |a| ==> key(a[i]) == key(b[i])
    ensures UniqueBy(b, key)
  {
  }

  /** Deleting the rows that match exactly one row shrinks the table by one. */
  lemma {:induction false} FilterDropsOne<T>(rows: seq<T>, keep: T -> bool, k: nat)
    requires k < |rows| && !keep(rows[k])
    requires forall j :: 0 <= j < |rows| && j != k ==> keep(rows[j])
    ensures |Filter(rows, keep)| == |rows| - 1
    decreases |rows|
  {
    if k == 0 {
      FilterAll(rows[1..], keep);
    } else {
      FilterDropsOne(rows[1..], keep, k - 1);
    }
  }

  lemma {:induction false} CountWhereAppend<T>(a: seq<T>, b: seq<T>, keep: T -> bool)
    ensures CountWhere(a + b, keep) == CountWhere(a, keep) + CountWhere(b, keep)
    decreases |a|
  {
    if |a| > 0 {
      assert (a + b)[1..] == a[1..] + b;
      CountWhereAppend(a[1..], b, keep);
    } else {
      assert a + b == b;
    }
  }

  /** Counting under a weaker condition counts at least as many rows. */
  lemma {:induction false} CountWhereMonotone<T>(rows: seq<T>, narrow: T -> bool, wide: T -> bool)
    requires forall j :: 0 <= j < |rows| && narrow(rows[j]) ==> wide(rows[j])
    ensures CountWhere(rows, narrow) <= CountWhere(rows, wide)
    decreases |rows|
  {
    if |rows| > 0 {
      CountWhereMonotone(rows[1..], narrow, wide);
    }
  }

  /** Two conditions that agree on every row count the same rows. */
  lemma {:induction false} CountWhereEquivalent<T>(rows: seq<T>, a: T -> bool, b: T -> bool)
    requires forall j :: 0 <= j < |rows| ==> (a(rows[j]) <==> b(rows[j]))
    ensures CountWhere(rows, a) == CountWhere(rows, b)
    decreases |rows|
  {
    if |rows| > 0 {
      CountWhereEquivalent(rows[1..], a, b);
    }
  }
}

=== FILE: text.dfy ===
/** The JavaScript string operations the handlers use: integer-to-decimal conversion,
    `slice`, `substring`, `toUpperCase` and the request validator's `trim()`. */
module Text {

  predicate IsDigit(c: char) {
    '0' <= c <= '9'
  }

  predicate AllDigits(s: string) {
    forall i :: 0 <= i < |s| ==> IsDigit(s[i])
  }

  function DigitChar(d: nat): (c: char)
    requires d < 10
    ensures IsDigit(c)
  {
    (48 + d) as char
  }

  function DigitValue(c: char): (d: nat)
    requires IsDigit(c)
    ensures d < 10
    ensures DigitChar(d) == c
  {
    c as int - 48
  }

  function Pow10(k: nat): (p: nat)
    ensures p >= 1
    ensures k >= 1 ==> p >= 10
  {
    if k == 0 then 1 else 10 * Pow10(k - 1)
  }

  /** `n.toString()` for a non-negative integer: its decimal digits, most significant first. */
  function Decimal(n: nat): (r: string)
    ensures |r| >= 1 && AllDigits(r)
    ensures n >= 10 ==> r[0] != '0'
  {
    if n < 10 then [DigitChar(n)] else Decimal(n / 10) + [DigitChar(n % 10)]
  }

  /** The value of a string of decimal digits (the empty string reads as 0). */
  function ParseDecimal(s: string): nat
    requires AllDigits(s)
  {
    if |s| == 0 then 0 else ParseDecimal(s[..|s| - 1]) * 10 + DigitValue(s[|s| - 1])
  }

  lemma Pow10Eight()
    ensures Pow10(8) == 100000000
  {
  }

  /** Splitting a number into a high part times 10^8 and a low part below 10^8 is Euclidean
      division by 10^8. */
  lemma SplitMod(high: nat, low: nat)
    requires low < 100000000
    ensures (high * 100000000 + low) % 100000000 == low
  {
  }

  /** Reading back the decimal form of `n` gives `n`. */
  lemma {:induction false} DecimalRoundTrip(n: nat)
    ensures ParseDecimal(Decimal(n)) == n
  {
    if n >= 10 {
      var s := Decimal(n);
      assert s[..|s| - 1] == Decimal(n / 10);
      DecimalRoundTrip(n / 10);
    }
  }

  /** A number has at most k decimal digits exactly when it is below 10^k (k >= 1). */
  lemma {:induction false} DecimalLengthBound(n: nat, k: nat)
    requires k >= 1
    ensures |Decimal(n)| <= k <==> n < Pow10(k)
  {
    if n >= 10 && k >= 2 {
      DecimalLengthBound(n / 10, k - 1);
    }
  }

  /** `s.slice(-k)` for k > 0: the last k characters, or all of `s` when it is shorter. */
  function SliceLast(s: string, k: nat): (r: string)
    requires k > 0
    ensures |r| == if |s| <= k then |s| else k
    ensures r == s[|s| - |r|..]
  {
    if |s| <= k then s else s[|s| - k..]
  }

  /** A digit string splits at any point into a high part and the value of its last k
      digits, which is below 10^k. */
  lemma {:induction false} ParseSplit(s: string, k: nat)
    requires AllDigits(s) && k <= |s|
    ensures AllDigits(s[..|s| - k]) && AllDigits(s[|s| - k..])
    ensures ParseDecimal(s) == ParseDecimal(s[..|s| - k]) * Pow10(k) + ParseDecimal(s[|s| - k..])
    ensures ParseDecimal(s[|s| - k..]) < Pow10(k)
  {
    var high, low := s[..|s| - k], s[|s| - k..];
    assert AllDigits(high) by {
      forall i | 0 <= i < |high| ensures IsDigit(high[i]) {
        assert high[i] == s[i];
      }
    }
    assert AllDigits(low) by {
      forall i | 0 <= i < |low| ensures IsDigit(low[i]) {
        assert low[i] == s[|s| - k + i];
      }
    }
    if k == 0 {
      assert high == s && low == [];
    } else {
      var t := s[..|s| - 1];
      var d := DigitValue(s[|s| - 1]);
      assert AllDigits(t) by {
        forall i | 0 <= i < |t| ensures IsDigit(t[i]) {
          assert t[i] == s[i];
        }
      }
      ParseSplit(t, k - 1);
      var m := Pow10(k - 1);
      var a, b := ParseDecimal(t[..|t| - (k - 1)]), ParseDecimal(t[|t| - (k - 1)..]);
      assert t[..|t| - (k - 1)] == high;
      assert low[..|low| - 1] == t[|t| - (k - 1)..];
      assert ParseDecimal(low) == b * 10 + d;
      assert ParseDecimal(s) == ParseDecimal(t) * 10 + d;
      ShiftDigit(ParseDecimal(s), ParseDecimal(t), a, m, b, d, ParseDecimal(low));
      assert Pow10(k) == 10 * m;
    }
  }

  /** Appending digit `d` to a number split as `a * m + b` splits it as `a * (10 * m) + (b * 10 + d)`. */
  lemma ShiftDigit(whole: int, prefix: int, a: int, m: int, b: int, d: int, low: int)
    requires 0 <= b < m && 0 <= d < 10
    requires whole == prefix * 10 + d && prefix == a * m + b && low == b * 10 + d
    ensures whole == a * (10 * m) + low && low < 10 * m
  {
  }

  /** `s.substring(start, end)` for non-negative arguments: both are clamped to the length
      and swapped when `start > end`. */
  function Substring(s: string, start: nat, end: nat): (r: string)
    ensures |r| <= |s|
    ensures start <= end <= |s| ==> r == s[start..end]
    ensures end <= start <= |s| ==> r == s[end..start]
  {
    var a := if start <= |s| then start else |s|;
    var b := if end <= |s| then end else |s|;
    if a <= b then s[a..b] else s[b..a]
  }

  predicate IsLower(c: char) {
    'a' <= c <= 'z'
  }

  function UpperChar(c: char): (u: char)
    ensures !IsLower(u)
    ensures !IsLower(c) ==> u == c
    ensures IsLower(c) ==> u as int == c as int - 32
  {
    if IsLower(c) then (c as int - 32) as char else c
  }

  /** `toUpperCase()` on text made of ASCII letters, digits and punctuation. */
  function Upper(s: string): (r: string)
    ensures |r| == |s|
    ensures forall i :: 0 <= i < |r| ==> !IsLower(r[i])
    ensures forall i :: 0 <= i < |s| && !IsLower(s[i]) ==> r[i] == s[i]
    ensures forall i :: 0 <= i < |s| && IsLower(s[i]) ==> r[i] as int == s[i] as int - 32
  {
    seq(|s|, i requires 0 <= i < |s| => UpperChar(s[i]))
  }

  /** The whitespace that `trim()` strips: space, tab, line feed, vertical tab, form feed, return. */
  predicate IsSpace(c: char) {
    c == ' ' || c == '\t' || c == '\n' || c == '\r' || c as int == 11 || c as int == 12
  }

  predicate Blank(s: string) {
    forall i :: 0 <= i < |s| ==> IsSpace(s[i])
  }

  function TrimStart(s: string): (r: string)
    ensures |r| <= |s| && r == s[|s| - |r|..]
    ensures Blank(s[..|s| - |r|])
    ensures |r| == 0 || !IsSpace(r[0])
    decreases |s|
  {
    if |s| > 0 && IsSpace(s[0]) then
      var r := TrimStart(s[1..]);
      assert s[1..][|s| - 1 - |r|..] == s[|s| - |r|..];
      assert s[..|s| - |r|] == [s[0]] + s[1..][..|s| - 1 - |r|];
      r
    else s
  }

  function TrimEnd(s: string): (r: string)
    ensures |r| <= |s| && r == s[..|r|]
    ensures Blank(s[|r|..])
    ensures |r| == 0 || !IsSpace(r[|r| - 1])
    decreases |s|
  {
    if |s| > 0 && IsSpace(s[|s| - 1]) then
      var r := TrimEnd(s[..|s| - 1]);
      assert s[..|s| - 1][..|r|] == s[..|r|];
      assert s[|r|..] == s[..|s| - 1][|r|..] + [s[|s| - 1]];
      r
    else s
  }

  /** `r` is the part of `s` starting at `a`, and everything before and after it is whitespace. */
  ghost predicate BlankEnds(s: string, a: int, r: string) {
    0 <= a <= |s| - |r| && r == s[a..a + |r|] && Blank(s[..a]) && Blank(s[a + |r|..])
  }

  /** Stripping the front and then the back of `s` leaves a middle part with blank ends. */
  lemma TrimSpan(s: string)
    ensures BlankEnds(s, |s| - |TrimStart(s)|, TrimEnd(TrimStart(s)))
  {
    var t := TrimStart(s);
    var r := TrimEnd(t);
    var a := |s| - |t|;
    assert t[..|r|] == s[a..a + |r|];
    assert t[|r|..] == s[a + |r|..];
  }

  /** `trim()`: `s` without leading and trailing whitespace. It is empty exactly when `s` is
      blank, and otherwise starts and ends with a non-space character of `s`. */
  function Trim(s: string): (r: string)
    ensures |r| <= |s|
    ensures |r| == 0 <==> Blank(s)
    ensures |r| > 0 ==> !IsSpace(r[0]) && !IsSpace(r[|r| - 1])
    ensures exists a :: BlankEnds(s, a, r)
  {
    var t := TrimStart(s);
    var r := TrimEnd(t);
    TrimSpan(s);
    assert |r| == 0 ==> Blank(s) by {
      if |r| == 0 {
        assert t[|r|..] == t;
        assert s[..|s| - |t|] == s;
      }
    }
    assert |r| > 0 ==> !Blank(s) by {
      if |r| > 0 {
        assert r[0] == t[0] == s[|s| - |t|];
      }
    }
    r
  }

  /** Trimming twice is trimming once. */
  lemma TrimIdempotent(s: string)
    ensures Trim(Trim(s)) == Trim(s)
  {
    var r := Trim(s);
    if |r| > 0 {
      assert TrimStart(r) == r;
      assert TrimEnd(r) == r;
    }
  }
}

=== FILE: users.dfy ===
/** The account handlers of `server/routes/users.js`: registration with its duplicate-email check,
    the profile update with its "no fields" guard, and the address book, whose add and update
    handlers clear the user's other default addresses of a type before writing a new default.
    The requesting user's id is a parameter (the source reads it from a header, falling back to 1);
    password hashing happens outside the model and its result is a parameter too. */
module Users {
  import opened Outcomes
  import opened Tables
  import opened Text
  import opened Store

  // ----------------------------------------------------------------- register

  /** The body of `POST /register`; the phone number is optional. */
  datatype Registration = Registration(
    email: string, password: string, firstName: string, lastName: string, phone: Option<string>)

  /** The validator's length rules: a password of at least six characters and names that are not
      blank. The email and phone format rules are not part of this model. */
  predicate RegistrationValid(req: Registration) {
    |req.password| >= 6 && !Blank(req.firstName) && !Blank(req.lastName)
  }

  function HasEmail(email: string): User -> bool {
    (u: User) => u.email == email
  }

  predicate EmailInUse(users: seq<User>, email: string) {
    exists k :: 0 <= k < |users| && users[k].email == email
  }

  /** `POST /register`: a validation failure, an email already in use, or one new user with the
      next id, the given password hash and the trimmed names. */
  function Register(s: Store, req: Registration, passwordHash: string): (r: Reply<Id>)
    ensures r.outcome.Err? ==> r.store == s
    ensures r.outcome == Err(ValidationFailed) <==> !RegistrationValid(req)
    ensures r.outcome == Err(EmailTaken) <==> RegistrationValid(req) && EmailInUse(s.users, req.email)
    ensures r.outcome.Ok? <==> RegistrationValid(req) && !EmailInUse(s.users, req.email)
    ensures r.outcome.Ok? ==>
      && r.outcome.value == s.nextId
      && r.store == s.(users := r.store.users, nextId := s.nextId + 1)
      && |r.store.users| == |s.users| + 1 && r.store.users[..|s.users|] == s.users
      && r.store.users[|s.users|]
           == User(s.nextId, req.email, passwordHash, Trim(req.firstName), Trim(req.lastName), req.phone)
  {
    if !RegistrationValid(req) then Reply(s, Err(ValidationFailed))
    else if First(s.users, HasEmail(req.email)).Some? then Reply(s, Err(EmailTaken))
    else
      var user := User(s.nextId, req.email, passwordHash, Trim(req.firstName), Trim(req.lastName), req.phone);
      Reply(s.(users := s.users + [user], nextId := s.nextId + 1), Ok(s.nextId))
  }

  // ----------------------------------------------------------------- profile

  /** The optional fields of `PUT /profile`. */
  datatype ProfileChange = ProfileChange(firstName: Option<string>, lastName: Option<string>, phone: Option<string>)

  /** A supplied name must not be blank. */
  predicate ProfileChangeValid(c: ProfileChange) {
    (c.firstName.Some? ==> !Blank(c.firstName.value)) && (c.lastName.Some? ==> !Blank(c.lastName.value))
  }

  predicate ProfileSupplied(c: ProfileChange) {
    c.firstName.Some? || c.lastName.Some? || c.phone.Some?
  }

  /** The change after the validator's sanitiser has trimmed the names. */
  function Sanitized(c: ProfileChange): ProfileChange {
    ProfileChange(
      if c.firstName.Some? then Some(Trim(c.firstName.value)) else None,
      if c.lastName.Some? then Some(Trim(c.lastName.value)) else None,
      c.phone)
  }

  function ReviseUser(u: User, c: ProfileChange): User {
    u.(firstName := c.firstName.GetOr(u.firstName), lastName := c.lastName.GetOr(u.lastName),
       phone := if c.phone.Some? then c.phone else u.phone)
  }

  /** `PUT /profile`: validation, then the "no fields" guard, then the supplied fields written to
      every row with the requester's id. An unknown requester updates no row and still succeeds. */
  function UpdateProfile(s: Store, user: Id, change: ProfileChange): (r: Reply<ProfileChange>)
    ensures r.outcome.Err? ==> r.store == s
    ensures r.outcome == Err(ValidationFailed) <==> !ProfileChangeValid(change)
    ensures r.outcome == Err(NoFieldsToUpdate) <==> ProfileChangeValid(change) && !ProfileSupplied(change)
    ensures r.outcome.Ok? <==> ProfileChangeValid(change) && ProfileSupplied(change)
    ensures r.outcome.Ok? ==> r.store == s.(users := r.store.users) && |r.store.users| == |s.users|
  {
    if !ProfileChangeValid(change) then Reply(s, Err(ValidationFailed))
    else if !ProfileSupplied(change) then Reply(s, Err(NoFieldsToUpdate))
    else
      var updates := Sanitized(change);
      var users := seq(|s.users|, i requires 0 <= i < |s.users| =>
        if s.users[i].id == user then ReviseUser(s.users[i], updates) else s.users[i]);
      Reply(s.(users := users), Ok(updates))
  }

  // ----------------------------------------------------------------- address types

  function AddressTypeName(kind: AddressType): string {
    match kind
    case Shipping => "shipping"
    case Billing => "billing"
  }

  /** The validator's `isIn(['shipping', 'billing'])`. */
  function ParseAddressType(text: string): (r: Option<AddressType>)
    ensures r.Some? ==> AddressTypeName(r.value) == text
    ensures r.None? ==> forall kind: AddressType :: AddressTypeName(kind) != text
  {
    if text == "shipping" then Some(Shipping)
    else if text == "billing" then Some(Billing)
    else None
  }

  lemma AddressTypeRoundTrip(kind: AddressType)
    ensures ParseAddressType(AddressTypeName(kind)) == Some(kind)
  {
  }

  /** An optional country is trimmed when sent and is "USA" when absent. */
  function CountryOf(country: Option<string>): (r: string)
    ensures country.None? ==> r == "USA"
    ensures country.Some? ==> r == Trim(country.value)
  {
    match country
    case None => "USA"
    case Some(c) => Trim(c)
  }

  /** The addresses a new default of `kind` for `user` displaces: that user's addresses of that
      type, except the one being written. */
  function InGroup(user: Id, kind: AddressType, except: Option<Id>): Address -> bool {
    (a: Address) => a.userId == user && a.kind == kind && except != Some(a.id)
  }

  /** `UPDATE addresses SET is_default = 0 WHERE user_id = ? AND type = ? [AND address_id != ?]`. */
  function ClearDefaults(addresses: seq<Address>, user: Id, kind: AddressType, except: Option<Id>): (r: seq<Address>)
    ensures |r| == |addresses|
    ensures forall i :: 0 <= i < |addresses| ==>
      r[i] == if InGroup(user, kind, except)(addresses[i]) then addresses[i].(isDefault := false) else addresses[i]
    ensures forall i :: 0 <= i < |r| && InGroup(user, kind, except)(addresses[i]) ==> !r[i].isDefault
    ensures forall i :: 0 <= i < |r| ==>
      && (r[i].isDefault ==> addresses[i].isDefault)
      && r[i].id == addresses[i].id && r[i].userId == addresses[i].userId && r[i].kind == addresses[i].kind
    ensures SingleDefault(addresses) ==> SingleDefault(r)
  {
    var r := seq(|addresses|, i requires 0 <= i < |addresses| =>
      if InGroup(user, kind, except)(addresses[i]) then addresses[i].(isDefault := false) else addresses[i]);
    assert SingleDefault(addresses) ==> SingleDefault(r) by {
      if SingleDefault(addresses) {
        forall i, j | 0 <= i < |r| && 0 <= j < |r| && i != j && r[i].isDefault && r[j].isDefault
          ensures r[i].userId != r[j].userId || r[i].kind != r[j].kind
        {
          assert addresses[i].isDefault && addresses[j].isDefault;
        }
      }
    }
    r
  }

  // ----------------------------------------------------------------- add address

  /** The body of `POST /addresses`; an absent `is_default` is `false`. */
  datatype NewAddress = NewAddress(
    kind: string, street: string, city: string, state: string, zip: string,
    country: Option<string>, isDefault: bool)

  predicate NewAddressValid(req: NewAddress) {
    && ParseAddressType(req.kind).Some?
    && !Blank(req.street) && !Blank(req.city) && !Blank(req.state) && !Blank(req.zip)
  }

  /** `POST /addresses`: a validation failure, or (after clearing the user's defaults of that type
      when the new address is a default) one new address with the next id and trimmed fields. */
  function AddAddress(s: Store, user: Id, req: NewAddress): (r: Reply<Id>)
    ensures r.outcome.Err? ==> r.store == s && r.outcome.error == ValidationFailed
    ensures r.outcome.Ok? <==> NewAddressValid(req)
    ensures r.outcome.Ok? ==>
      && r.outcome.value == s.nextId
      && r.store == s.(addresses := r.store.addresses, nextId := s.nextId + 1)
      && |r.store.addresses| == |s.addresses| + 1
      && r.store.addresses[|s.addresses|] == Address(
           s.nextId, user, ParseAddressType(req.kind).value, Trim(req.street), Trim(req.city),
           Trim(req.state), Trim(req.zip), CountryOf(req.country), req.isDefault)
  {
    if !NewAddressValid(req) then Reply(s, Err(ValidationFailed))
    else
      var kind := ParseAddressType(req.kind).value;
      var kept := if req.isDefault then ClearDefaults(s.addresses, user, kind, None) else s.addresses;
      var address := Address(
        s.nextId, user, kind, Trim(req.street), Trim(req.city), Trim(req.state), Trim(req.zip),
        CountryOf(req.country), req.isDefault);
      Reply(s.(addresses := kept + [address], nextId := s.nextId + 1), Ok(s.nextId))
  }

  // ----------------------------------------------------------------- update address

  /** The optional fields of `PUT /addresses/:id`. */
  datatype AddressChange = AddressChange(
    kind: Option<string>, street: Option<string>, city: Option<string>, state: Option<string>,
    zip: Option<string>, country: Option<string>, isDefault: Option<bool>)

  predicate FilledIfSent(field: Option<string>) {
    field.Some? ==> !Blank(field.value)
  }

  predicate AddressChangeValid(c: AddressChange) {
    && (c.kind.Some? ==> ParseAddressType(c.kind.value).Some?)
    && FilledIfSent(c.street) && FilledIfSent(c.city) && FilledIfSent(c.state) && FilledIfSent(c.zip)
  }

  predicate AddressSupplied(c: AddressChange) {
    || c.kind.Some? || c.street.Some? || c.city.Some? || c.state.Some? || c.zip.Some?
    || c.country.Some? || c.isDefault.Some?
  }

  function OwnedAddress(id: Id, user: Id): Address -> bool {
    (a: Address) => a.id == id && a.userId == user
  }

  function TrimmedOr(field: Option<string>, current: string): string {
    if field.Some? then Trim(field.value) else current
  }

  /** The type the address has after the change. */
  function KindAfter(a: Address, c: AddressChange): AddressType {
    if c.kind.Some? && ParseAddressType(c.kind.value).Some? then ParseAddressType(c.kind.value).value else a.kind
  }

  /** The address with the supplied fields written. */
  function Revise(a: Address, c: AddressChange): Address {
    a.(kind := KindAfter(a, c), street := TrimmedOr(c.street, a.street), city := TrimmedOr(c.city, a.city),
       state := TrimmedOr(c.state, a.state), zip := TrimmedOr(c.zip, a.zip),
       country := TrimmedOr(c.country, a.country), isDefault := c.isDefault.GetOr(a.isDefault))
  }

  function ReviseRows(addresses: seq<Address>, id: Id, c: AddressChange): (r: seq<Address>)
    ensures |r| == |addresses|
    ensures forall i :: 0 <= i < |addresses| ==>
      r[i] == if addresses[i].id == id then Revise(addresses[i], c) else addresses[i]
  {
    seq(|addresses|, i requires 0 <= i < |addresses| =>
      if addresses[i].id == id then Revise(addresses[i], c) else addresses[i])
  }

  /** `PUT /addresses/:id`, as written: validation, then ownership, then (when `is_default` is
      sent as true) the user's other defaults of the new or existing type are cleared, then the
      "no fields" guard, then the supplied fields are written. The guard cannot fire after a
      clear, since a clear needs `is_default` to have been sent. */
  function UpdateAddress(s: Store, user: Id, id: Id, change: AddressChange): (r: Reply<Id>)
    ensures r.outcome.Err? ==> r.store == s
    ensures r.outcome == Err(ValidationFailed) <==> !AddressChangeValid(change)
    ensures r.outcome == Err(AddressNotFound) <==>
      AddressChangeValid(change) && forall j :: 0 <= j < |s.addresses| ==> !OwnedAddress(id, user)(s.addresses[j])
    ensures r.outcome == Err(NoFieldsToUpdate) <==>
      AddressChangeValid(change) && (exists j :: 0 <= j < |s.addresses| && OwnedAddress(id, user)(s.addresses[j]))
      && !AddressSupplied(change)
    ensures r.outcome.Ok? <==>
      AddressChangeValid(change) && (exists j :: 0 <= j < |s.addresses| && OwnedAddress(id, user)(s.addresses[j]))
      && AddressSupplied(change)
    ensures r.outcome.Ok? ==>
      && r.store == s.(addresses := r.store.addresses) && |r.store.addresses| == |s.addresses|
  {
    if !AddressChangeValid(change) then Reply(s, Err(ValidationFailed))
    else match First(s.addresses, OwnedAddress(id, user))
      case None => Reply(s, Err(AddressNotFound))
      case Some(k) =>
        var kind := KindAfter(s.addresses[k], change);
        var kept := if change.isDefault == Some(true) then ClearDefaults(s.addresses, user, kind, Some(id)) else s.addresses;
        if !AddressSupplied(change) then Reply(s.(addresses := kept), Err(NoFieldsToUpdate))
        else Reply(s.(addresses := ReviseRows(kept, id, change)), Ok(id))
  }

  /** The update as evidently intended: whenever the address is a default after the change (sent
      as one, or kept as one while changing type), the user's other defaults of its type after the
      change are cleared first. */
  function UpdateAddressChecked(s: Store, user: Id, id: Id, change: AddressChange): (r: Reply<Id>)
    ensures r.outcome.Err? ==> r.store == s
    ensures r.outcome == Err(ValidationFailed) <==> !AddressChangeValid(change)
    ensures r.outcome == Err(AddressNotFound) <==>
      AddressChangeValid(change) && forall j :: 0 <= j < |s.addresses| ==> !OwnedAddress(id, user)(s.addresses[j])
    ensures r.outcome == Err(NoFieldsToUpdate) <==>
      AddressChangeValid(change) && (exists j :: 0 <= j < |s.addresses| && OwnedAddress(id, user)(s.addresses[j]))
      && !AddressSupplied(change)
    ensures r.outcome.Ok? <==>
      AddressChangeValid(change) && (exists j :: 0 <= j < |s.addresses| && OwnedAddress(id, user)(s.addresses[j]))
      && AddressSupplied(change)
    ensures r.outcome.Ok? ==> r.store == s.(addresses := r.store.addresses) && |r.store.addresses| == |s.addresses|
  {
    if !AddressChangeValid(change) then Reply(s, Err(ValidationFailed))
    else match First(s.addresses, OwnedAddress(id, user))
      case None => Reply(s, Err(AddressNotFound))
      case Some(k) =>
        if !AddressSupplied(change) then Reply(s, Err(NoFieldsToUpdate))
        else
          var after := Revise(s.addresses[k], change);
          var kept := if after.isDefault then ClearDefaults(s.addresses, user, after.kind, Some(id)) else s.addresses;
          Reply(s.(addresses := ReviseRows(kept, id, change)), Ok(id))
  }

  // ----------------------------------------------------------------- delete address

  function NotAddressId(id: Id): Address -> bool {
    (a: Address) => a.id != id
  }

  /** `DELETE /addresses/:id`: not found unless the requester owns the address; otherwise every
      row with that id is deleted. */
  function DeleteAddress(s: Store, user: Id, id: Id): (r: Reply<Id>)
    ensures r.outcome.Err? ==> r.store == s && r.outcome.error == AddressNotFound
    ensures r.outcome.Ok? <==> exists k :: 0 <= k < |s.addresses| && OwnedAddress(id, user)(s.addresses[k])
    ensures r.outcome.Ok? ==> r.store == s.(addresses := r.store.addresses)
    ensures r.outcome.Ok? ==> forall i :: 0 <= i < |r.store.addresses| ==> r.store.addresses[i].id != id
  {
    if First(s.addresses, OwnedAddress(id, user)).None? then Reply(s, Err(AddressNotFound))
    else Reply(s.(addresses := Filter(s.addresses, NotAddressId(id))), Ok(id))
  }
}

=== FILE: users_laws.dfy ===
/** What the account handlers guarantee: emails stay unique, profile updates touch only the
    requester's fields, and the address book keeps at most one default address per user and type,
    except for one update the handler as written lets through. */
module UserLaws {
  import opened Outcomes
  import opened Tables
  import opened Text
  import opened Store
  import opened Users

  // ----------------------------------------------------------------- register

  /** Appending a user with the next id and an unused email keeps the user invariant. */
  lemma AppendUserKeepsValid(users: seq<User>, u: User, bound: Id)
    requires UsersValid(users, bound) && u.id == bound
    requires forall j :: 0 <= j < |users| ==> users[j].email != u.email
    ensures UsersValid(users + [u], bound + 1)
  {
    forall j | 0 <= j < |users| ensures UserIdOf(users[j]) != UserIdOf(u) && EmailOf(users[j]) != EmailOf(u) {
      assert UserIdOf(users[j]) < bound;
    }
    UniqueAppend(users, u, UserIdOf);
    UniqueAppend(users, u, EmailOf);
  }

  lemma RegisterPreservesValid(s: Store, req: Registration, passwordHash: string)
    requires Valid(s)
    ensures Valid(Register(s, req, passwordHash).store)
  {
    var r := Register(s, req, passwordHash);
    if r.outcome.Ok? {
      var user := User(s.nextId, req.email, passwordHash, Trim(req.firstName), Trim(req.lastName), req.phone);
      assert r.store.users == s.users + [user];
      assert !EmailInUse(s.users, req.email);
      AppendUserKeepsValid(s.users, user, s.nextId);
      assert r.store == s.(users := s.users + [user], nextId := s.nextId + 1);
    }
  }

  /** Registering adds a user that the duplicate check finds afterwards: a second registration
      with the same email is rejected and changes nothing. */
  lemma SecondRegistrationRejected(s: Store, req: Registration, hash: string, again: Registration, hash2: string)
    requires Register(s, req, hash).outcome.Ok?
    requires again.email == req.email && RegistrationValid(again)
    ensures var t := Register(s, req, hash).store;
      Register(t, again, hash2) == Reply(t, Err(EmailTaken))
  {
    var t := Register(s, req, hash).store;
    assert t.users[|s.users|].email == req.email;
    assert HasEmail(req.email)(t.users[|s.users|]);
  }

  // ----------------------------------------------------------------- profile

  /** A profile update writes the trimmed supplied fields to the requester's row and leaves the
      unsupplied fields, the id, the email and every other user as they were. */
  lemma ProfileUpdateWritesRequester(s: Store, user: Id, change: ProfileChange, i: nat)
    requires UpdateProfile(s, user, change).outcome.Ok? && i < |s.users|
    ensures var after := UpdateProfile(s, user, change).store.users[i];
      && after.id == s.users[i].id && after.email == s.users[i].email
      && after.passwordHash == s.users[i].passwordHash
      && (s.users[i].id != user ==> after == s.users[i])
      && (s.users[i].id == user ==>
            && after.firstName == TrimmedOr(change.firstName, s.users[i].firstName)
            && after.lastName == TrimmedOr(change.lastName, s.users[i].lastName)
            && after.phone == (if change.phone.Some? then change.phone else s.users[i].phone))
  {
  }

  lemma ProfileUpdatePreservesValid(s: Store, user: Id, change: ProfileChange)
    requires Valid(s)
    ensures Valid(UpdateProfile(s, user, change).store)
  {
    var r := UpdateProfile(s, user, change);
    if r.outcome.Ok? {
      forall i | 0 <= i < |s.users| ensures UserIdOf(r.store.users[i]) == UserIdOf(s.users[i]) && EmailOf(r.store.users[i]) == EmailOf(s.users[i]) {
        ProfileUpdateWritesRequester(s, user, change, i);
      }
      UniqueSameKeys(s.users, r.store.users, UserIdOf);
      UniqueSameKeys(s.users, r.store.users, EmailOf);
    }
  }

  // ----------------------------------------------------------------- single default

  /** No row other than `k` is a default of row `k`'s user and type. */
  ghost predicate OnlyDefaultAt(addresses: seq<Address>, k: nat)
    requires k < |addresses|
  {
    forall j :: 0 <= j < |addresses| && j != k ==>
      (addresses[j].userId == addresses[k].userId && addresses[j].kind == addresses[k].kind ==> !addresses[j].isDefault)
  }

  /** A rewrite that only switches defaults off, except at row `k`, which may be a default only if
      it is the only one of its user and type, keeps at most one default per user and type. */
  lemma SingleDefaultAfterRewrite(before: seq<Address>, after: seq<Address>, k: nat)
    requires SingleDefault(before) && |before| == |after| && k < |after|
    requires forall i :: 0 <= i < |after| && i != k && after[i].isDefault ==>
      before[i].isDefault && after[i].userId == before[i].userId && after[i].kind == before[i].kind
    requires after[k].isDefault ==> OnlyDefaultAt(after, k)
    ensures SingleDefault(after)
  {
    forall i, j | 0 <= i < |after| && 0 <= j < |after| && i != j && after[i].isDefault && after[j].isDefault
      ensures after[i].userId != after[j].userId || after[i].kind != after[j].kind
    {
      if i != k && j != k {
        assert before[i].isDefault && before[j].isDefault;
      }
    }
  }

  /** Clearing a group's defaults switches defaults off and nothing else, and leaves no default in
      the group. */
  lemma ClearOnlySwitchesOff(addresses: seq<Address>, user: Id, kind: AddressType, except: Option<Id>, i: nat)
    requires i < |addresses|
    ensures var r := ClearDefaults(addresses, user, kind, except);
      && r[i].id == addresses[i].id && r[i].userId == addresses[i].userId && r[i].kind == addresses[i].kind
      && (r[i].isDefault ==> addresses[i].isDefault)
      && (InGroup(user, kind, except)(addresses[i]) ==> !r[i].isDefault)
      && (!InGroup(user, kind, except)(addresses[i]) ==> r[i] == addresses[i])
  {
  }

  // ----------------------------------------------------------------- add address

  /** Clearing a group's defaults keeps the address invariant. */
  lemma ClearKeepsValid(addresses: seq<Address>, bound: Id, user: Id, kind: AddressType, except: Option<Id>)
    requires AddressesValid(addresses, bound)
    ensures AddressesValid(ClearDefaults(addresses, user, kind, except), bound)
  {
    var r := ClearDefaults(addresses, user, kind, except);
    UniqueSameKeys(addresses, r, AddressIdOf);
    forall i, j | 0 <= i < |r| && 0 <= j < |r| && i != j && r[i].isDefault && r[j].isDefault
      ensures r[i].userId != r[j].userId || r[i].kind != r[j].kind
    {
      assert addresses[i].isDefault && addresses[j].isDefault;
    }
  }

  /** Appending an address keeps at most one default per user and type when the new address is not
      a default or its group has none. */
  lemma AppendKeepsSingleDefault(addresses: seq<Address>, a: Address)
    requires SingleDefault(addresses)
    requires a.isDefault ==> forall j :: 0 <= j < |addresses| ==>
      (addresses[j].userId == a.userId && addresses[j].kind == a.kind ==> !addresses[j].isDefault)
    ensures SingleDefault(addresses + [a])
  {
    var r := addresses + [a];
    forall i, j | 0 <= i < |r| && 0 <= j < |r| && i != j && r[i].isDefault && r[j].isDefault
      ensures r[i].userId != r[j].userId || r[i].kind != r[j].kind
    {
      if i < |addresses| && j < |addresses| {
        assert r[i] == addresses[i] && r[j] == addresses[j];
      }
    }
  }

  /** Replacing the address book by a valid one and handing out more ids keeps the invariant. */
  lemma ReplaceAddresses(s: Store, addresses: seq<Address>, bound: Id)
    requires Valid(s) && bound >= s.nextId && AddressesValid(addresses, bound)
    ensures Valid(s.(addresses := addresses, nextId := bound))
  {
  }

  /** Appending an address with the next id keeps the address invariant when the new address is
      not a default or its group has none. */
  lemma AppendAddressKeepsValid(addresses: seq<Address>, a: Address, bound: Id)
    requires AddressesValid(addresses, bound) && a.id == bound
    requires a.isDefault ==> forall j :: 0 <= j < |addresses| ==>
      (addresses[j].userId == a.userId && addresses[j].kind == a.kind ==> !addresses[j].isDefault)
    ensures AddressesValid(addresses + [a], bound + 1)
  {
    forall j | 0 <= j < |addresses| ensures AddressIdOf(addresses[j]) != AddressIdOf(a) {
      assert AddressIdOf(addresses[j]) < bound;
    }
    UniqueAppend(addresses, a, AddressIdOf);
    AppendKeepsSingleDefault(addresses, a);
  }

  lemma AddAddressPreservesValid(s: Store, user: Id, req: NewAddress)
    requires Valid(s)
    ensures Valid(AddAddress(s, user, req).store)
  {
    var r := AddAddress(s, user, req);
    if r.outcome.Ok? {
      var kind := ParseAddressType(req.kind).value;
      var kept := if req.isDefault then ClearDefaults(s.addresses, user, kind, None) else s.addresses;
      var a := Address(
        s.nextId, user, kind, Trim(req.street), Trim(req.city), Trim(req.state), Trim(req.zip),
        CountryOf(req.country), req.isDefault);
      assert r.store == s.(addresses := kept + [a], nextId := s.nextId + 1);
      assert AddressesValid(kept, s.nextId) by {
        if req.isDefault {
          ClearKeepsValid(s.addresses, s.nextId, user, kind, None);
        }
      }
      assert a.isDefault ==> forall j :: 0 <= j < |kept| ==>
        (kept[j].userId == a.userId && kept[j].kind == a.kind ==> !kept[j].isDefault)
      by {
        if req.isDefault {
          forall j | 0 <= j < |kept|
            ensures kept[j].userId == a.userId && kept[j].kind == a.kind ==> !kept[j].isDefault
          {
            ClearOnlySwitchesOff(s.addresses, user, kind, None, j);
          }
        }
      }
      AppendAddressKeepsValid(kept, a, s.nextId);
      ReplaceAddresses(s, kept + [a], s.nextId + 1);
    }
  }

  /** The address book after adding a default address: the group's defaults cleared, then the
      new row. */
  lemma AddedDefaultRows(s: Store, user: Id, req: NewAddress)
    requires AddAddress(s, user, req).outcome.Ok? && req.isDefault
    ensures var kind := ParseAddressType(req.kind).value;
      AddAddress(s, user, req).store.addresses == ClearDefaults(s.addresses, user, kind, None) + [Address(
        s.nextId, user, kind, Trim(req.street), Trim(req.city), Trim(req.state), Trim(req.zip),
        CountryOf(req.country), true)]
  {
  }

  /** A new default address is its user's only default of its type; addresses of other users or
      of the other type are untouched. */
  lemma AddedDefaultIsOnlyDefault(s: Store, user: Id, req: NewAddress)
    requires AddAddress(s, user, req).outcome.Ok? && req.isDefault
    ensures var after := AddAddress(s, user, req).store.addresses;
      var kind := ParseAddressType(req.kind).value;
      && after[|s.addresses|].isDefault
      && OnlyDefaultAt(after, |s.addresses|)
      && forall i :: 0 <= i < |s.addresses| && (s.addresses[i].userId != user || s.addresses[i].kind != kind) ==>
           after[i] == s.addresses[i]
  {
    var kind := ParseAddressType(req.kind).value;
    AddedDefaultRows(s, user, req);
    ClearThenAppendDefault(s.addresses, user, kind, Address(
        s.nextId, user, kind, Trim(req.street), Trim(req.city), Trim(req.state), Trim(req.zip),
        CountryOf(req.country), true));
  }

  /** Clearing a group's defaults and appending a default of that group leaves the new row the
      group's only default and every row outside the group as it was. */
  lemma ClearThenAppendDefault(addresses: seq<Address>, user: Id, kind: AddressType, a: Address)
    requires a.userId == user && a.kind == kind && a.isDefault
    ensures var after := ClearDefaults(addresses, user, kind, None) + [a];
      && OnlyDefaultAt(after, |addresses|)
      && forall i :: 0 <= i < |addresses| && (addresses[i].userId != user || addresses[i].kind != kind) ==>
           after[i] == addresses[i]
  {
    var kept := ClearDefaults(addresses, user, kind, None);
    var after := kept + [a];
    assert after[|addresses|] == a;
    forall j | 0 <= j < |after| && j != |addresses|
      ensures after[j].userId == user && after[j].kind == kind ==> !after[j].isDefault
    {
      assert after[j] == kept[j];
      ClearOnlySwitchesOff(addresses, user, kind, None, j);
    }
    forall i | 0 <= i < |addresses| && (addresses[i].userId != user || addresses[i].kind != kind)
      ensures after[i] == addresses[i]
    {
      assert after[i] == kept[i];
      ClearOnlySwitchesOff(addresses, user, kind, None, i);
    }
  }

  /** A new address that is not a default leaves every existing address as it was. */
  lemma AddedNonDefaultKeepsOthers(s: Store, user: Id, req: NewAddress)
    requires AddAddress(s, user, req).outcome.Ok? && !req.isDefault
    ensures AddAddress(s, user, req).store.addresses[..|s.addresses|] == s.addresses
  {
  }

  // ----------------------------------------------------------------- update address

  /** The change keeps the address a default while moving it to another type. */
  ghost predicate RetypesDefault(s: Store, user: Id, id: Id, change: AddressChange) {
    exists k :: 0 <= k < |s.addresses| && OwnedAddress(id, user)(s.addresses[k]) && s.addresses[k].isDefault
      && change.isDefault.None? && KindAfter(s.addresses[k], change) != s.addresses[k].kind
  }

  /** Rows other than the updated one only lose their default flag, and only within the updated
      address's user and type after the change. */
  lemma UpdateTouchesOnlyTarget(s: Store, kept: seq<Address>, id: Id, change: AddressChange, k: nat, i: nat)
    requires UniqueBy(s.addresses, AddressIdOf) && k < |s.addresses| && s.addresses[k].id == id
    requires |kept| == |s.addresses| && i < |s.addresses| && i != k
    requires forall j :: 0 <= j < |s.addresses| ==> kept[j].id == s.addresses[j].id
    ensures ReviseRows(kept, id, change)[i] == kept[i]
  {
    assert AddressIdOf(s.addresses[i]) != AddressIdOf(s.addresses[k]);
  }

  /** With unique ids, a successful update writes the supplied fields to the owned address, and
      every other address keeps its fields, losing at most its default flag when it shares the
      user and the new type of an address sent as default. */
  lemma UpdateAddressWrites(s: Store, user: Id, id: Id, change: AddressChange, k: nat)
    requires UniqueBy(s.addresses, AddressIdOf) && k < |s.addresses| && OwnedAddress(id, user)(s.addresses[k])
    requires UpdateAddress(s, user, id, change).outcome.Ok?
    ensures var after := UpdateAddress(s, user, id, change).store.addresses;
      && after[k] == Revise(s.addresses[k], change)
      && forall i :: 0 <= i < |s.addresses| && i != k ==>
           after[i] == s.addresses[i] || (change.isDefault == Some(true) && after[i] == s.addresses[i].(isDefault := false)
             && s.addresses[i].userId == user && s.addresses[i].kind == after[k].kind)
  {
    var j := First(s.addresses, OwnedAddress(id, user)).value;
    assert AddressIdOf(s.addresses[j]) == AddressIdOf(s.addresses[k]);
    assert j == k;
    var kind := KindAfter(s.addresses[k], change);
    var kept := if change.isDefault == Some(true) then ClearDefaults(s.addresses, user, kind, Some(id)) else s.addresses;
    var after := UpdateAddress(s, user, id, change).store.addresses;
    assert after == ReviseRows(kept, id, change);
    forall i | 0 <= i < |s.addresses| && i != k
      ensures after[i] == s.addresses[i] || (change.isDefault == Some(true) && after[i] == s.addresses[i].(isDefault := false)
             && s.addresses[i].userId == user && s.addresses[i].kind == after[k].kind)
    {
      UpdateTouchesOnlyTarget(s, kept, id, change, k, i);
    }
  }

  /** Sending `is_default: true` makes the address its user's only default of its type. */
  lemma SentDefaultIsOnlyDefault(s: Store, user: Id, id: Id, change: AddressChange, k: nat)
    requires UniqueBy(s.addresses, AddressIdOf) && k < |s.addresses| && OwnedAddress(id, user)(s.addresses[k])
    requires UpdateAddress(s, user, id, change).outcome.Ok? && change.isDefault == Some(true)
    ensures var after := UpdateAddress(s, user, id, change).store.addresses;
      after[k].isDefault && OnlyDefaultAt(after, k)
  {
    UpdateAddressWrites(s, user, id, change, k);
  }

  /** The update as written keeps the invariant unless it moves a default address to another
      type without sending `is_default`. */
  lemma UpdateAddressPreservesValid(s: Store, user: Id, id: Id, change: AddressChange)
    requires Valid(s) && !RetypesDefault(s, user, id, change)
    ensures Valid(UpdateAddress(s, user, id, change).store)
  {
    var r := UpdateAddress(s, user, id, change);
    if r.outcome.Ok? {
      var k := First(s.addresses, OwnedAddress(id, user)).value;
      var after := r.store.addresses;
      UpdateAddressWrites(s, user, id, change, k);
      forall i | 0 <= i < |s.addresses| ensures AddressIdOf(after[i]) == AddressIdOf(s.addresses[i]) {
      }
      UniqueSameKeys(s.addresses, after, AddressIdOf);
      if after[k].isDefault && change.isDefault.None? {
        assert OnlyDefaultAt(s.addresses, k);
      }
      SingleDefaultAfterRewrite(s.addresses, after, k);
      assert r.store == s.(addresses := after);
      ReplaceAddresses(s, after, s.nextId);
    }
  }

  /** Two default addresses of one user, one per type. */
  function TwoDefaultsStore(): Store {
    Store(map[], {}, [], [], [], [],
      [Address(1, 7, Shipping, "1 Main St", "Springfield", "IL", "62701", "USA", true),
       Address(2, 7, Billing, "2 Oak Ave", "Springfield", "IL", "62702", "USA", true)],
      [], 3)
  }

  lemma TwoDefaultsStoreValid()
    ensures Valid(TwoDefaultsStore())
  {
    var s := TwoDefaultsStore();
    assert UniqueBy(s.addresses, AddressIdOf) && AllBelow(s.addresses, AddressIdOf, s.nextId);
    assert SingleDefault(s.addresses) by {
      assert s.addresses[0].kind != s.addresses[1].kind;
    }
  }

  /** Changing only the type of a default address to a type that already has a default is
      accepted, and leaves the user with two default billing addresses. */
  lemma RetypedDefaultDuplicates()
    ensures Valid(TwoDefaultsStore())
    ensures var r := UpdateAddress(TwoDefaultsStore(), 7, 1, AddressChange(Some("billing"), None, None, None, None, None, None));
      r.outcome == Ok(1) && !SingleDefault(r.store.addresses)
  {
    var s := TwoDefaultsStore();
    TwoDefaultsStoreValid();
    var change := AddressChange(Some("billing"), None, None, None, None, None, None);
    assert ParseAddressType("billing") == Some(Billing);
    assert OwnedAddress(1, 7)(s.addresses[0]);
    assert First(s.addresses, OwnedAddress(1, 7)) == Some(0);
    var r := UpdateAddress(s, 7, 1, change);
    assert r == Reply(s.(addresses := ReviseRows(s.addresses, 1, change)), Ok(1));
    var after := r.store.addresses;
    assert after[0] == Revise(s.addresses[0], change);
    assert after[0].kind == Billing && after[0].isDefault;
    assert after[1] == s.addresses[1];
  }

  /** The rows the corrected update writes for the address at index `k` keep the address
      invariant. */
  lemma CheckedRowsValid(s: Store, user: Id, id: Id, change: AddressChange, k: nat)
    requires Valid(s) && First(s.addresses, OwnedAddress(id, user)) == Some(k)
    ensures var revised := Revise(s.addresses[k], change);
      var kept := if revised.isDefault then ClearDefaults(s.addresses, user, revised.kind, Some(id)) else s.addresses;
      AddressesValid(ReviseRows(kept, id, change), s.nextId)
  {
    var revised := Revise(s.addresses[k], change);
    var kept := if revised.isDefault then ClearDefaults(s.addresses, user, revised.kind, Some(id)) else s.addresses;
    var after := ReviseRows(kept, id, change);
    forall i | 0 <= i < |s.addresses| ensures kept[i].id == s.addresses[i].id {
    }
    assert kept[k] == s.addresses[k];
    forall i | 0 <= i < |s.addresses| && i != k ensures after[i] == kept[i] {
      UpdateTouchesOnlyTarget(s, kept, id, change, k, i);
    }
    assert after[k] == revised;
    UniqueSameKeys(s.addresses, after, AddressIdOf);
    SingleDefaultAfterRewrite(s.addresses, after, k);
  }

  /** The corrected update keeps the invariant for every change. */
  lemma UpdateAddressCheckedPreservesValid(s: Store, user: Id, id: Id, change: AddressChange)
    requires Valid(s)
    ensures Valid(UpdateAddressChecked(s, user, id, change).store)
  {
    var r := UpdateAddressChecked(s, user, id, change);
    if r.outcome.Ok? {
      var k := First(s.addresses, OwnedAddress(id, user)).value;
      var revised := Revise(s.addresses[k], change);
      var kept := if revised.isDefault then ClearDefaults(s.addresses, user, revised.kind, Some(id)) else s.addresses;
      assert r.store == s.(addresses := ReviseRows(kept, id, change));
      CheckedRowsValid(s, user, id, change, k);
      ReplaceAddresses(s, r.store.addresses, s.nextId);
    }
  }

  /** On the counterexample above the corrected update clears the other billing default. */
  lemma CheckedRetypeKeepsOneDefault()
    ensures var r := UpdateAddressChecked(TwoDefaultsStore(), 7, 1, AddressChange(Some("billing"), None, None, None, None, None, None));
      r.outcome == Ok(1) && SingleDefault(r.store.addresses) && r.store.addresses[0].isDefault
      && !r.store.addresses[1].isDefault
  {
    var s := TwoDefaultsStore();
    var change := AddressChange(Some("billing"), None, None, None, None, None, None);
    RetypedDefaultDuplicates();
    assert ParseAddressType("billing") == Some(Billing);
    assert OwnedAddress(1, 7)(s.addresses[0]);
    assert First(s.addresses, OwnedAddress(1, 7)) == Some(0);
    var revised := Revise(s.addresses[0], change);
    assert revised.kind == Billing && revised.isDefault;
    var kept := ClearDefaults(s.addresses, 7, Billing, Some(1));
    assert kept[0] == s.addresses[0];
    assert kept[1] == s.addresses[1].(isDefault := false);
    var r := UpdateAddressChecked(s, 7, 1, change);
    assert r == Reply(s.(addresses := ReviseRows(kept, 1, change)), Ok(1));
    assert r.store.addresses[0] == revised;
    assert r.store.addresses[1] == kept[1];
    UpdateAddressCheckedPreservesValid(s, 7, 1, change);
  }

  /** Clearing the group of an address that is already its group's only default changes nothing. */
  lemma ClearAroundOnlyDefault(addresses: seq<Address>, k: nat)
    requires UniqueBy(addresses, AddressIdOf) && k < |addresses| && OnlyDefaultAt(addresses, k)
    ensures ClearDefaults(addresses, addresses[k].userId, addresses[k].kind, Some(addresses[k].id)) == addresses
  {
    var a := addresses[k];
    var r := ClearDefaults(addresses, a.userId, a.kind, Some(a.id));
    forall i | 0 <= i < |addresses| ensures r[i] == addresses[i] {
      if i != k && InGroup(a.userId, a.kind, Some(a.id))(addresses[i]) {
        assert !addresses[i].isDefault;
      }
    }
  }

  /** Away from the case it corrects, the corrected update answers and writes exactly what the
      update as written does. */
  lemma CheckedAgreesOtherwise(s: Store, user: Id, id: Id, change: AddressChange)
    requires Valid(s) && !RetypesDefault(s, user, id, change)
    ensures UpdateAddressChecked(s, user, id, change) == UpdateAddress(s, user, id, change)
  {
    if AddressChangeValid(change) && First(s.addresses, OwnedAddress(id, user)).Some? {
      var k := First(s.addresses, OwnedAddress(id, user)).value;
      var revised := Revise(s.addresses[k], change);
      var written := if change.isDefault == Some(true) then ClearDefaults(s.addresses, user, revised.kind, Some(id)) else s.addresses;
      var checked := if revised.isDefault then ClearDefaults(s.addresses, user, revised.kind, Some(id)) else s.addresses;
      assert checked == written by {
        if change.isDefault.None? && revised.isDefault {
          assert revised.kind == s.addresses[k].kind;
          assert OnlyDefaultAt(s.addresses, k);
          ClearAroundOnlyDefault(s.addresses, k);
        }
      }
    }
  }

  // ----------------------------------------------------------------- delete address

  /** With unique ids, a successful delete removes exactly the named address, keeps every other
      address and keeps the invariant. */
  lemma DeleteAddressRemovesOne(s: Store, user: Id, id: Id)
    requires Valid(s)
    ensures var r := DeleteAddress(s, user, id);
      && Valid(r.store)
      && (r.outcome.Ok? ==> |r.store.addresses| == |s.addresses| - 1)
      && forall i :: 0 <= i < |s.addresses| && s.addresses[i].id != id ==> s.addresses[i] in r.store.addresses
  {
    var r := DeleteAddress(s, user, id);
    if r.outcome.Ok? {
      var kept := Filter(s.addresses, NotAddressId(id));
      assert r.store == s.(addresses := kept);
      assert AddressesValid(kept, s.nextId) by {
        FilterUnique(s.addresses, NotAddressId(id), AddressIdOf);
        AllBelowFilter(s.addresses, NotAddressId(id), AddressIdOf, s.nextId);
        FilterKeepsSingleDefault(s.addresses, NotAddressId(id));
      }
      ReplaceAddresses(s, kept, s.nextId);
      var k :| 0 <= k < |s.addresses| && OwnedAddress(id, user)(s.addresses[k]);
      forall j | 0 <= j < |s.addresses| && j != k ensures NotAddressId(id)(s.addresses[j]) {
        assert AddressIdOf(s.addresses[j]) != AddressIdOf(s.addresses[k]);
      }
      FilterDropsOne(s.addresses, NotAddressId(id), k);
    }
  }

  /** Deleting rows from an address book with unique ids keeps at most one default per user and
      type. */
  lemma FilterKeepsSingleDefault(addresses: seq<Address>, keep: Address -> bool)
    requires SingleDefault(addresses) && UniqueBy(addresses, AddressIdOf)
    ensures SingleDefault(Filter(addresses, keep))
  {
    var kept := Filter(addresses, keep);
    FilterUnique(addresses, keep, AddressIdOf);
    forall i, j | 0 <= i < |kept| && 0 <= j < |kept| && i != j && kept[i].isDefault && kept[j].isDefault
      ensures kept[i].userId != kept[j].userId || kept[i].kind != kept[j].kind
    {
      var a :| 0 <= a < |addresses| && addresses[a] == kept[i];
      var b :| 0 <= b < |addresses| && addresses[b] == kept[j];
      assert AddressIdOf(kept[i]) != AddressIdOf(kept[j]);
      assert a != b;
    }
  }
}
